=== FILE: README.md ===
# TheTowers game core, modelled in Dafny

TheTowers is a team game for Paper Minecraft servers. Players form coloured
teams in a lobby. Each team defends a heart, and combat damage is computed by
the plugin itself rather than by the server. This project models the plugin's
core and proves properties of it:

- the per-player attacker ledger (`OrderedAttackerCache`) and the manager that
  sweeps expired entries from every ledger;
- the damage rules (`DamageCalculator`) and the event handlers that route
  every hit through them (`EntityListener`);
- the game state (`GameManager`, `GameTeam`, `GamePlayer`, `PlayerManager`),
  including the death routine that credits kills, assists and souls;
- the statistics (`StatsTracker`, `PlayerStat`, `ProfileStatKey`);
- maps and team setups (`GameMap`);
- the `/game start|stop` and `/team ...` command guards;
- the kebab-case key lookup of the YAML loader;
- the prefix filter of command suggestions;
- the tab-list server placeholders (`TServerPlaceholder`).

There is one Dafny module per source concern:

| file | module |
|---|---|
| `attacker_ledger.dfy` | `AttackerLedger` |
| `damage.dfy` | `Damage` |
| `entity_listener.dfy` | `Listener` |
| `game.dfy` | `Game` |
| `stats.dfy` | `Stats` |
| `profile_stat_key.dfy` | `ProfileStatKeys` |
| `game_map.dfy` | `TeamColors`, `GameMaps` |
| `game_command.dfy` | `GameCommands` |
| `team_command.dfy` | `TeamCommands` |
| `yaml_loader.dfy` | `YamlKeys` |
| `suggestions.dfy` | `Suggestions` |
| `placeholders.dfy` | `Placeholders` |

Shared helpers live in three more modules: `Wrappers` (Option, Result, Outcome), `Seqs` (sequence
helpers for `LinkedHashMap` key order) and `JavaStrings` (the Java string
operations the source relies on).

Objects whose fields the source updates in place are classes:

- ledgers, the cache manager;
- players, teams, the game manager and the player registry;
- stat trackers, the stat registry, the placeholder cache;
- the damaged entity and the damage events.

Their methods state their whole new state. Pure rules are datatypes and
functions, and lemmas prove the properties.

Modelling choices:

- **Time.** The current time in milliseconds, `now`, is a parameter of every
  operation that reads the clock.
- **Commands.** A command's chat messages are `Reply` values. The value
  carries the message's argument where there is one.
- **Exceptions.** An exception the source lets escape becomes an `Err`, a
  `Fail` outcome or a named outcome such as `KillerTeamless`.

## Model

| member | source | states |
|---|---|---|
| AttackerLedger.CompareDamage | src/main/java/dev/erpix/thetowers/model/OrderedAttackerCache.java:156 | Double.compareTo on finite values: zero exactly for equal damage, negative exactly for smaller damage |
| AttackerLedger.CompareKeysZeroIffEqual | src/main/java/dev/erpix/thetowers/model/OrderedAttackerCache.java:154-158 | DamageKey.compareTo is zero exactly when damage and player name are both equal, agreeing with equals |
| AttackerLedger.CompareKeysAntisymmetric | src/main/java/dev/erpix/thetowers/model/OrderedAttackerCache.java:154-158 | swapping two keys negates their comparison |
| AttackerLedger.CompareKeysTransitive | src/main/java/dev/erpix/thetowers/model/OrderedAttackerCache.java:154-158 | the key order is transitive, so the sorted index is a strict total order |
| AttackerLedger.Record | src/main/java/dev/erpix/thetowers/model/OrderedAttackerCache.java:41-59 | put: the attacker's total becomes its earlier total (0 when new) plus the damage, stamped now; every other attacker's entry is unchanged |
| AttackerLedger.Live | src/main/java/dev/erpix/thetowers/model/OrderedAttackerCache.java:94-108 | cleanUp keeps exactly the entries at most the TTL old, each unchanged |
| AttackerLedger.IndexSize | src/main/java/dev/erpix/thetowers/model/OrderedAttackerCache.java:19-23 | when the two maps agree, the sorted index holds one key per attacker |
| AttackerLedger.DescendingUnique | src/main/java/dev/erpix/thetowers/model/OrderedAttackerCache.java:78-89 | two index-ordered snapshots holding the same entries are the same list, so the order of getAttackers is fully determined |
| AttackerLedger.SnapshotNames | src/main/java/dev/erpix/thetowers/model/OrderedAttackerCache.java:78-89 | a snapshot lists every attacker exactly once, each with its own map entry |
| AttackerLedger.SnapshotHead | src/main/java/dev/erpix/thetowers/model/OrderedAttackerCache.java:78-89 | the first entry of a snapshot precedes every other: most damage, ties broken by the reversed name order |
| AttackerLedger.ContributionIsSum | src/main/java/dev/erpix/thetowers/model/OrderedAttackerCache.java:41-59 | over any sequence of puts and sweeps that never expires an attacker, its recorded damage is the sum of everything put for it |
| AttackerLedger.FirstHitThenSum | src/main/java/dev/erpix/thetowers/model/OrderedAttackerCache.java:41-59 | starting from an empty ledger: the first hit plus every later hit |
| AttackerLedger.SweepBoundary | src/main/java/dev/erpix/thetowers/model/OrderedAttackerCache.java:103 | an entry exactly the TTL old survives a sweep; one a millisecond older is removed |
| AttackerLedger.MaxKey | src/main/java/dev/erpix/thetowers/model/OrderedAttackerCache.java:29 | the greatest key of a non-empty index is in it and precedes every other key (the first key of the reverse-ordered map) |
| AttackerLedger.OrderedAttackerCache.constructor | src/main/java/dev/erpix/thetowers/model/OrderedAttackerCache.java:26-33 | TTL in milliseconds is ttlSeconds·1000; both maps empty; registered with the manager |
| AttackerLedger.OrderedAttackerCache.Put | src/main/java/dev/erpix/thetowers/model/OrderedAttackerCache.java:41-59 | the attacker map becomes Record(...); the old index key is replaced by the new total's key; the two maps stay consistent |
| AttackerLedger.OrderedAttackerCache.GetDamage | src/main/java/dev/erpix/thetowers/model/OrderedAttackerCache.java:67-70 | present exactly for recorded attackers, and then their cumulative damage |
| AttackerLedger.OrderedAttackerCache.GetAttackers | src/main/java/dev/erpix/thetowers/model/OrderedAttackerCache.java:78-89 | the entries in strictly descending key order, exactly the recorded ones |
| AttackerLedger.OrderedAttackerCache.CleanUp | src/main/java/dev/erpix/thetowers/model/OrderedAttackerCache.java:94-108 | the attacker map becomes Live(old map, now, TTL), and the index follows it |
| AttackerLedger.OrderedAttackerCache.Close | src/main/java/dev/erpix/thetowers/model/OrderedAttackerCache.java:125-131 | unregisters from the manager the first time; a second close changes nothing |
| AttackerLedger.Manager.constructor | src/main/java/dev/erpix/thetowers/model/OrderedAttackerCache.java:184-192 | no ledger registered, periodic sweep running |
| AttackerLedger.Manager.Register | src/main/java/dev/erpix/thetowers/model/OrderedAttackerCache.java:198-200 | the ledger joins the registered set |
| AttackerLedger.Manager.Unregister | src/main/java/dev/erpix/thetowers/model/OrderedAttackerCache.java:202-204 | the ledger leaves the registered set |
| AttackerLedger.Manager.CleanupAll | src/main/java/dev/erpix/thetowers/model/OrderedAttackerCache.java:206-214 | every registered ledger is swept, except those whose cleanUp throws; those are left as they were and the pass goes on |
| AttackerLedger.Manager.Shutdown | src/main/java/dev/erpix/thetowers/model/OrderedAttackerCache.java:216-218 | the periodic sweep stops |
| Damage.DamageFromItem | src/main/java/dev/erpix/thetowers/model/DamageCalculator.java:126-143 | no item gives 0, the empty hand (AIR) gives 1, any other item its "damage" tag or 0 |
| Damage.DefenseFromItem | src/main/java/dev/erpix/thetowers/model/DamageCalculator.java:151-163 | the "defense" tag, 0 for no item or no tag |
| Damage.EquipmentDefense | src/main/java/dev/erpix/thetowers/model/DamageCalculator.java:165-174 | the sum over the four armour slots; no equipment gives 0 |
| Damage.Max | src/main/java/dev/erpix/thetowers/model/DamageCalculator.java:117 | Math.max: at least both arguments and equal to one of them |
| Damage.Share | src/main/java/dev/erpix/thetowers/model/DamageCalculator.java:116 | the share base/(base+defense) of a positive base with non-negative defense lies in (0, 1] |
| Damage.ShareShrinks | src/main/java/dev/erpix/thetowers/model/DamageCalculator.java:116 | more defense lets a strictly smaller share through |
| Damage.CalculateDamage | src/main/java/dev/erpix/thetowers/model/DamageCalculator.java:108-118 | 0 for a non-positive base; otherwise strictly positive, at most the base, and damage/base equals base/(base+max(defense,0)) |
| Damage.NoDefenseNoReduction | src/main/java/dev/erpix/thetowers/model/DamageCalculator.java:108-118 | without defense the whole base goes through |
| Damage.NegativeDefenseIsNone | src/main/java/dev/erpix/thetowers/model/DamageCalculator.java:112-114 | a negative defense acts exactly like none |
| Damage.MoreDefenseLessDamage | src/main/java/dev/erpix/thetowers/model/DamageCalculator.java:108-118 | strictly more defense means strictly less damage |
| Damage.DamageIsScaledShare | src/main/java/dev/erpix/thetowers/model/DamageCalculator.java:116 | with non-negative defense the damage is the share times the base |
| Damage.UnarmouredTakesFullDamage | src/main/java/dev/erpix/thetowers/model/DamageCalculator.java:151-174 | armour without defense tags adds no defense, so a hit lands at full strength |
| Damage.AsAttacker | src/main/java/dev/erpix/thetowers/model/DamageCalculator.java:72-83 | how the death routine sees the damaging entity: none, a player by name, or another entity with its custom name |
| Damage.FateTable | src/main/java/dev/erpix/thetowers/model/DamageCalculator.java:45-91 | for a positive hit: a wound exactly above the void and short of the remaining health; zeroed health exactly for an entity that is not a registered player; the death routine exactly for a registered player, unless it fell into the void with no team or with no map set, where the spawn lookup throws |
| Damage.FateOf | src/main/java/dev/erpix/thetowers/model/DamageCalculator.java:45-91 | the decision of applyDamage from height, health, damage, registration, team and whether a map is set; FateTable states it case by case |
| Damage.Hitter | src/main/java/dev/erpix/thetowers/model/DamageCalculator.java:57-64 | a hit is credited only when both attacker and target are registered players, and then to the attacker's name |
| Damage.AfterHit | src/main/java/dev/erpix/thetowers/model/DamageCalculator.java:62-64 | the target's ledger grows by the hit for a credited attacker and is unchanged otherwise |
| Damage.KillingBlowKept | src/main/java/dev/erpix/thetowers/model/DamageCalculator.java:62-83 | the death routine's sweep, run at the time of the hit, keeps the entry that the killing hit just wrote |
| Damage.ApplyDamage | src/main/java/dev/erpix/thetowers/model/DamageCalculator.java:44-99 | decision equals FateFor of the state before; a death routine runs exactly on a death; health follows HealthAfter; otherwise counters and souls are unchanged; the ledger holds the hit, and on a death DeathRan holds for the ledger as the hit left it |
| Damage.Apply | src/main/java/dev/erpix/thetowers/model/DamageCalculator.java:44-99 | applyDamage as the handlers see it: the decision and the health left |
| Damage.Settle | src/main/java/dev/erpix/thetowers/model/DamageCalculator.java:74-93 | every outcome but the death routine: health lowered, zeroed, or left for a void fall whose spawn lookup throws |
| Damage.HitPlayer | src/main/java/dev/erpix/thetowers/model/DamageCalculator.java:57-91 | a hit on a registered target: ledger entry first, then the outcome, as for ApplyDamage |
| Damage.RecordHit | src/main/java/dev/erpix/thetowers/model/DamageCalculator.java:57-64 | the target's ledger becomes AfterHit of the old one; counters and souls unchanged |
| Damage.Land | src/main/java/dev/erpix/thetowers/model/DamageCalculator.java:66-91 | the outcome of a hit on a registered target once its ledger is up to date |
| Damage.Perish | src/main/java/dev/erpix/thetowers/model/DamageCalculator.java:72-83 | the death routine as applyDamage calls it: DeathRan holds for the counters and ledger as they were |
| Listener.FriendlyFireNeverLands | src/main/java/dev/erpix/thetowers/listener/EntityListener.java:121-127 | a melee hit between registered players of the same team (or two teamless ones) never lands |
| Listener.NoCombatOutsideMatch | src/main/java/dev/erpix/thetowers/listener/EntityListener.java:72-76 | outside a match in progress every live entity-on-entity event is cancelled |
| Listener.TicksShield | src/main/java/dev/erpix/thetowers/listener/EntityListener.java:42-46 | an entity still in its damage ticks takes no hit from either handler |
| Listener.HandlersDisjoint | src/main/java/dev/erpix/thetowers/listener/EntityListener.java:33-35 | onDamage leaves every entity-on-entity event alone, so no hit is applied twice |
| Listener.StrikeWithinBase | src/main/java/dev/erpix/thetowers/listener/EntityListener.java:84-160 | a landed hit is never negative and never more than its positive base (arrow or melee) |
| Listener.IsInvulnerable | src/main/java/dev/erpix/thetowers/listener/EntityListener.java:169-172 | sets the damage-tick window to 10 and answers whether damage ticks remain |
| Listener.ArrowBase | src/main/java/dev/erpix/thetowers/listener/EntityListener.java:101-104 | the arrow's tag, half again when critical |
| Listener.MeleeBase | src/main/java/dev/erpix/thetowers/listener/EntityListener.java:132-153 | mob damage (1 when untagged) plus weapon damage, half again when critical, times a player's cooldown |
| Listener.Friendly | src/main/java/dev/erpix/thetowers/listener/EntityListener.java:115-127 | both players registered and on the same team (both teamless counts) |
| Listener.ByEntityVerdict | src/main/java/dev/erpix/thetowers/listener/EntityListener.java:54-161 | onDamageByEntity's guards in order; OnDamageByEntity and the lemmas beside it state what it decides |
| Listener.OnDamage | src/main/java/dev/erpix/thetowers/listener/EntityListener.java:28-52 | the verdict is PlainVerdict of the event as it arrived; the hit is applied exactly on a strike; an ignored event changes nothing |
| Listener.ShieldThenHit | src/main/java/dev/erpix/thetowers/listener/EntityListener.java:42-51 | an entity in its damage ticks cancels the event; otherwise the hit is applied and the event's own damage zeroed |
| Listener.Shield | src/main/java/dev/erpix/thetowers/listener/EntityListener.java:42-46 | isInvulnerable on the event's entity; cancels exactly when damage ticks remain |
| Listener.Hit | src/main/java/dev/erpix/thetowers/listener/EntityListener.java:48-51 | applyDamage on the event's entity, then the event's damage set to 0 unless applyDamage threw (a void fall with no team or no map) |
| Listener.OnDamageByEntity | src/main/java/dev/erpix/thetowers/listener/EntityListener.java:54-161 | the verdict is ByEntityVerdict of the event and stage before; the hit is applied exactly on a strike with the computed amount; an ignored event, or any event while combat is not allowed, leaves the entity unchanged |
| Listener.Engage | src/main/java/dev/erpix/thetowers/listener/EntityListener.java:78-161 | the damage-tick guard, then the damager's branch |
| Listener.Dispatch | src/main/java/dev/erpix/thetowers/listener/EntityListener.java:84-161 | the arrow, non-living and melee branches, each as Aim decides |
| Listener.Shoot | src/main/java/dev/erpix/thetowers/listener/EntityListener.java:84-113 | an arrow needs a living shooter and a projectile-damage tag; otherwise it lands its tag (×1.5 when critical) reduced by the victim's defense |
| Listener.Melee | src/main/java/dev/erpix/thetowers/listener/EntityListener.java:115-160 | friendly fire cancels; otherwise mob damage plus weapon damage, ×1.5 when critical, × the cooldown for a player, reduced by defense |
| Listener.OnShoot | src/main/java/dev/erpix/thetowers/listener/EntityListener.java:182-202 | no bow or an empty hand: nothing; an untagged bow cancels; a tagged bow tags the projectile with tag × force |
| Listener.TaggedArrowLands | src/main/java/dev/erpix/thetowers/listener/EntityListener.java:84-113 | an arrow tagged at the shot, hitting a living entity without damage ticks during a match, lands its tag reduced by defense |
| Game.CanPvp | src/main/java/dev/erpix/thetowers/model/game/GameManager.java:361-363 | combat is allowed exactly while the match is in progress |
| Game.ValidNameExamples | src/main/java/dev/erpix/thetowers/model/game/GameTeam.java:61-64 | isValidName: 2 to 5 letters or digits ("ab", "Red1", "ABCDE", "Łódź", "Żółw", "été" pass; "a", "abcdef", "a b", "a-b", "a×b" fail) |
| Game.IsValidName | src/main/java/dev/erpix/thetowers/model/game/GameTeam.java:61-64 | the length bounds 2 and 5 and Character.isLetterOrDigit on every character (Latin blocks up to U+024F) |
| Game.FormatShape | src/main/java/dev/erpix/thetowers/model/game/GamePlayer.java:89-106 | dark gray offline, gray teamless; a member's name starts with the tag in the team colour (or the name in the secondary colour) and ends with the crown exactly for the leader |
| Game.MemberShape | src/main/java/dev/erpix/thetowers/model/game/GamePlayer.java:97-105 | the member case of FormatShape |
| Game.GamePlayer.constructor | src/main/java/dev/erpix/thetowers/model/game/GamePlayer.java:21-29 | alive, no team, an empty 10-second ledger registered with the manager, no stats |
| Game.GamePlayer.SetTeam | src/main/java/dev/erpix/thetowers/model/game/GamePlayer.java:160-162 | only the team changes |
| Game.GamePlayer.SetAlive | src/main/java/dev/erpix/thetowers/model/game/GamePlayer.java:178-180 | only the alive flag changes |
| Game.GamePlayer.AddAttacker | src/main/java/dev/erpix/thetowers/model/game/GamePlayer.java:124-126 | the ledger records the hit under the attacker's name |
| Game.GamePlayer.Standing | src/main/java/dev/erpix/thetowers/model/game/GamePlayer.java:89-101 | offline exactly when not online; teamless exactly when online without a team; a member carries the team's name and colour |
| Game.GamePlayer.IsInTeam | src/main/java/dev/erpix/thetowers/model/game/GamePlayer.java:151-153 | the player has a team |
| Game.GamePlayer.FormattedName | src/main/java/dev/erpix/thetowers/model/game/GamePlayer.java:89-106 | getFormattedName; FormattedNameShape states its shape |
| Game.GamePlayer.DisplayName | src/main/java/dev/erpix/thetowers/model/game/GamePlayer.java:75-77 | getDisplayName: the tagged formatted name |
| Game.FormattedNameShape | src/main/java/dev/erpix/thetowers/model/game/GamePlayer.java:75-106 | getDisplayName / getDisplayNameNoTag have FormatShape's shape for the player's standing |
| Game.PlayerHash | src/main/java/dev/erpix/thetowers/model/game/GamePlayer.java:212-214 | Objects.hash(name): 31 + the name's hash, in 32-bit int arithmetic |
| Game.HashAgreesWithEquals | src/main/java/dev/erpix/thetowers/model/game/GamePlayer.java:205-214 | players equal by name hash alike |
| Game.SamePlayer | src/main/java/dev/erpix/thetowers/model/game/GamePlayer.java:205-209 | equals: same name |
| Game.FindByName | src/main/java/dev/erpix/thetowers/model/game/GameTeam.java:90-92 | the first player with the name, absent exactly when none has it |
| Game.GameTeam.constructor | src/main/java/dev/erpix/thetowers/model/game/GameTeam.java:44-53 | name, leader, colour; heart 100, no souls; the leader its only member, in the team, alive and no longer spectating |
| Game.GameTeam.MembersInOrder | src/main/java/dev/erpix/thetowers/model/game/GameTeam.java:99-101 | the members, one per joining-order name, and every member listed |
| Game.GameTeam.GetMember | src/main/java/dev/erpix/thetowers/model/game/GameTeam.java:90-92 | present exactly for a member name, and then that member |
| Game.GameTeam.AddMember | src/main/java/dev/erpix/thetowers/model/game/GameTeam.java:108-116 | keyed by name; joins the team, alive, no longer spectating |
| Game.GameTeam.RemoveMember | src/main/java/dev/erpix/thetowers/model/game/GameTeam.java:133-141 | the name goes; the player is teamless, not alive, and spectating |
| Game.GameTeam.DisplayName | src/main/java/dev/erpix/thetowers/model/game/GameTeam.java:148-150 | `<color:#HEX>[name]</color>`: the colour tag, the name at a fixed offset, the closing tag |
| Game.GameTeam.DamageHeart | src/main/java/dev/erpix/thetowers/model/game/GameTeam.java:167-172 | only a live heart takes damage, with no floor; returns the new health; a blow of at least the remaining health leaves the team not alive |
| Game.GameTeam.DamageHeartOnce | src/main/java/dev/erpix/thetowers/model/game/GameTeam.java:157-159 | one point, as DamageHeart |
| Game.GameTeam.AddSouls | src/main/java/dev/erpix/thetowers/model/game/GameTeam.java:189-191 | souls grow by the value |
| Game.GameTeam.RemoveSouls | src/main/java/dev/erpix/thetowers/model/game/GameTeam.java:198-200 | souls shrink by the value, never below 0 |
| Game.GameTeam.IsAlive | src/main/java/dev/erpix/thetowers/model/game/GameTeam.java:179-182 | the heart stands and every member is alive and online |
| Game.GameTeam.AliveInOrder | src/main/java/dev/erpix/thetowers/model/game/GameTeam.java:179-182 | isAlive over the joining order: alive exactly when the heart stands and no member is dead or offline; one dead or offline member brings the team down |
| Game.GameTeam.HasMember | src/main/java/dev/erpix/thetowers/model/game/GameTeam.java:124-126 | membership by player name |
| Game.GameTeam.SetName | src/main/java/dev/erpix/thetowers/model/game/GameTeam.java:73-82 | succeeds exactly for a valid name no team has; then the team is re-keyed under it and moves to the end of the iteration order (LinkedHashMap remove, then put); otherwise nothing changes |
| Game.GameTeam.SetLeader | src/main/java/dev/erpix/thetowers/model/game/GameTeam.java:26-27 | the Lombok setter: the leader becomes the player |
| Game.GameTeam.SetColor | src/main/java/dev/erpix/thetowers/model/game/GameTeam.java:28-29 | the Lombok setter: the colour becomes the given one |
| Game.DeadHeartStaysPut | src/main/java/dev/erpix/thetowers/model/game/GameTeam.java:167-172 | a heart at or below zero never changes again |
| Game.DeathMessage | src/main/java/dev/erpix/thetowers/model/game/GameManager.java:290-296 | the broadcast starts with the victim's name and ends with " umarł", or with " został zabity przez " and the attacker |
| Game.Bump | src/main/java/dev/erpix/thetowers/model/StatsTracker.java:43-45 | incrementStat on a registered player's counters keeps the set of players |
| Game.AssistAll | src/main/java/dev/erpix/thetowers/model/game/GameManager.java:248-261 | one ASSISTS per credited name keeps the set of players |
| Game.AssistNone | src/main/java/dev/erpix/thetowers/model/game/GameManager.java:248-261 | nobody to credit changes nothing |
| Game.AssistOneMore | src/main/java/dev/erpix/thetowers/model/game/GameManager.java:248-261 | one more name is one more ASSISTS, or none for the killer |
| Game.AfterDeath | src/main/java/dev/erpix/thetowers/model/game/GameManager.java:209-261 | the counters after a death keep the set of players |
| Game.AfterKill | src/main/java/dev/erpix/thetowers/model/game/GameManager.java:248-261 | the killer's side of a death keeps the set of players |
| Game.AfterDeathCredits | src/main/java/dev/erpix/thetowers/model/game/GameManager.java:209-261 | after a death each registered player gains exactly one DEATHS (victim), one KILLS (registered killer), one ASSISTS (other ledger names), and nothing else |
| Game.BumpCount | src/main/java/dev/erpix/thetowers/model/StatsTracker.java:43-45 | incrementStat moves exactly one counter of one player by one |
| Game.AssistCount | src/main/java/dev/erpix/thetowers/model/game/GameManager.java:248-261 | the assist pass moves only the ASSISTS counters of credited names |
| Game.Scored | src/main/java/dev/erpix/thetowers/model/game/GameTeam.java:189-191 | addSouls(1) on a team: that team gains one soul, every other keeps its own |
| Game.Killer | src/main/java/dev/erpix/thetowers/model/game/GameManager.java:209-226 | the kill is credited exactly to a player attacker that PlayerManager knows |
| Game.Assisters | src/main/java/dev/erpix/thetowers/model/game/GameManager.java:248-261 | assists go to every ledger name but the killer, and to nobody without a registered killer |
| Game.NamesOf | src/main/java/dev/erpix/thetowers/model/game/GameManager.java:252-256 | the attacker names of a ledger snapshot |
| Game.SnapshotKeys | src/main/java/dev/erpix/thetowers/model/game/GameManager.java:252-256 | a snapshot names exactly the ledger's attackers, each once |
| Game.Rosters | src/main/java/dev/erpix/thetowers/model/game/GameManager.java:56-66 | each team's member map, read once before the sweep |
| Game.GameManager.constructor | src/main/java/dev/erpix/thetowers/model/game/GameManager.java:42-44 | in the lobby, with no teams and no spectators |
| Game.GameManager.CreateTeam | src/main/java/dev/erpix/thetowers/model/game/GameManager.java:46-48 | a fresh team exactly for a valid name, as the constructor sets it up; an invalid name changes nothing |
| Game.GameManager.TeamsInOrder | src/main/java/dev/erpix/thetowers/model/game/GameManager.java:126-128 | the registered teams in insertion order |
| Game.GameManager.AddTeam | src/main/java/dev/erpix/thetowers/model/game/GameManager.java:73-75 | keyed by the team's name; a new name goes last in the order |
| Game.GameManager.UpdateTeamName | src/main/java/dev/erpix/thetowers/model/game/GameManager.java:84-90 | refuses a taken name; otherwise the team moves from its old key to the new one, at the end of the order, and other keys are unchanged |
| Game.GameManager.GetTeam | src/main/java/dev/erpix/thetowers/model/game/GameManager.java:105-107 | present exactly for a registered name |
| Game.GameManager.GetTeamByColor | src/main/java/dev/erpix/thetowers/model/game/GameManager.java:115-119 | the first team in insertion order with that colour; absent exactly when none has it |
| Game.GameManager.FirstWithColor | src/main/java/dev/erpix/thetowers/model/game/GameManager.java:115-119 | the first team from a position on with the colour |
| Game.GameManager.AddSpectator | src/main/java/dev/erpix/thetowers/model/game/GameManager.java:150-153 | listed by name, not alive |
| Game.GameManager.RemoveSpectator | src/main/java/dev/erpix/thetowers/model/game/GameManager.java:160-163 | unlisted, alive again |
| Game.GameManager.RemoveTeam | src/main/java/dev/erpix/thetowers/model/game/GameManager.java:135-143 | the key goes; every member is teamless, not alive and spectating; other spectators unchanged |
| Game.GameManager.EvictAll | src/main/java/dev/erpix/thetowers/model/game/GameManager.java:137-142 | removeTeam's loop over the members |
| Game.GameManager.Evict | src/main/java/dev/erpix/thetowers/model/game/GameManager.java:138-141 | one member: teamless, not alive, spectating |
| Game.GameManager.Start | src/main/java/dev/erpix/thetowers/model/game/GameManager.java:175-198 | only from the lobby, to waiting; any other stage throws and nothing changes; from the lobby with no map and a team member online it throws after the stage is already waiting |
| Game.GameManager.StartThrows | src/main/java/dev/erpix/thetowers/model/game/GameManager.java:180-181 | no map is set and some team member is online, so the waiting-room teleport dereferences the missing map |
| Game.GameManager.Stop | src/main/java/dev/erpix/thetowers/model/game/GameManager.java:201-203 | back to the lobby |
| Game.GameManager.SetMap | src/main/java/dev/erpix/thetowers/model/game/GameManager.java:56-66 | the per-team maximum follows the map's setup; exactly the teams within it stay, unchanged; every member of a removed team is teamless, not alive and listed as a spectator; other spectators stay |
| Game.GameManager.SweepOne | src/main/java/dev/erpix/thetowers/model/game/GameManager.java:59-65 | one step of setMap's sweep keeps the sweep invariant |
| Game.GameManager.SweepKeep | src/main/java/dev/erpix/thetowers/model/game/GameManager.java:59-65 | a step that keeps its team keeps the invariant |
| Game.GameManager.SweepDrop | src/main/java/dev/erpix/thetowers/model/game/GameManager.java:59-65 | a step that removes an oversized team keeps the invariant |
| Game.GameManager.Evacuate | src/main/java/dev/erpix/thetowers/model/game/GameManager.java:61-64 | the removal in one step: only that key goes, its players are evicted and their names added to the spectators |
| Game.GameManager.RemoveOversized | src/main/java/dev/erpix/thetowers/model/game/GameManager.java:59-65 | exactly the teams over the maximum are removed, in insertion order; their members are teamless and not alive, and exactly their names are added to the spectators |
| Game.GameManager.ClearTeams | src/main/java/dev/erpix/thetowers/model/game/GameManager.java:95-97 | every team removed as removeTeam does: none left; every member of every team teamless and not alive; the spectators are the old ones plus exactly the members' names |
| Game.GameManager.Death | src/main/java/dev/erpix/thetowers/model/game/GameManager.java:209-226 | offline victim ignored; otherwise a death, not alive, the attacker handled, counters as AfterDeath, respawn scheduled for the victim's team entry |
| Game.GameManager.DiePlayer | src/main/java/dev/erpix/thetowers/model/game/GameManager.java:209-226 | death by a player: the victim's death, then handlePlayerAttacker |
| Game.GameManager.DieOther | src/main/java/dev/erpix/thetowers/model/game/GameManager.java:209-226 | death by anything else: the victim's death, then handleNonPlayerAttacker's message |
| Game.GameManager.CountDeath | src/main/java/dev/erpix/thetowers/model/game/GameManager.java:216-218 | one more DEATHS, not alive; nothing else |
| Game.GameManager.HandlePlayerAttacker | src/main/java/dev/erpix/thetowers/model/game/GameManager.java:248-261 | an unknown killer changes nothing; otherwise assists, sweep, a kill, a soul and the message, or the teamless-killer exception after the kill |
| Game.GameManager.PlayerKill | src/main/java/dev/erpix/thetowers/model/game/GameManager.java:252-260 | handlePlayerAttacker with a known killer: counters, sweep, souls and the outcome |
| Game.GameManager.CreditKill | src/main/java/dev/erpix/thetowers/model/game/GameManager.java:252-258 | assists for the rest of the ledger, the sweep, a kill for the killer |
| Game.GameManager.SweepAndKill | src/main/java/dev/erpix/thetowers/model/game/GameManager.java:257-258 | the sweep, then a kill |
| Game.GameManager.AssistLedger | src/main/java/dev/erpix/thetowers/model/game/GameManager.java:252-256 | an assist for every ledger attacker but the killer |
| Game.GameManager.ScoreSoul | src/main/java/dev/erpix/thetowers/model/game/GameManager.java:259-260 | a soul for the killer's team and the message, or the exception exactly for a teamless killer |
| Game.GameManager.AwardAssists | src/main/java/dev/erpix/thetowers/model/game/GameManager.java:252-256 | the loop: one ASSISTS per known snapshot attacker other than the killer |
| Game.GameManager.AssistOne | src/main/java/dev/erpix/thetowers/model/game/GameManager.java:253-255 | one pass of the loop |
| Game.GameManager.HandleNonPlayerAttacker | src/main/java/dev/erpix/thetowers/model/game/GameManager.java:269-282 | the custom name, else the top ledger attacker's display name, else nobody |
| Game.GameManager.GetPlayer | src/main/java/dev/erpix/thetowers/model/game/GameManager.java:339-344 | the member with that name in the first team that has one; absent exactly when no team has it |
| Game.GameManager.FirstHolding | src/main/java/dev/erpix/thetowers/model/game/GameManager.java:339-344 | the first team from a position on holding the name |
| Game.GameManager.Respawn | src/main/java/dev/erpix/thetowers/model/game/GameManager.java:305-337 | the countdown 5, 4, 3, 2, 1, then alive again |
| Game.InjectiveCount | src/main/java/dev/erpix/thetowers/model/manager/PlayerManager.java:64-66 | a map with pairwise distinct values has as many values as keys |
| Game.PlayerManager.Tally | src/main/java/dev/erpix/thetowers/model/manager/PlayerManager.java:15-18 | one counter map per registered name |
| Game.PlayerManager.Souls | src/main/java/dev/erpix/thetowers/model/game/GameTeam.java:189-191 | the souls of the registered players' teams |
| Game.PlayerManager.IncrementStat | src/main/java/dev/erpix/thetowers/model/StatsTracker.java:43-45 | only that player's tally moves, by Bump |
| Game.PlayerManager.AddSoul | src/main/java/dev/erpix/thetowers/model/game/GameTeam.java:189-191 | souls become Scored for the player's team |
| Game.PlayerManager.AddPlayer | src/main/java/dev/erpix/thetowers/model/manager/PlayerManager.java:20-28 | the player already registered under the name with the cache manager unchanged, or a fresh one registered whose ledger joins the cache manager |
| Game.PlayerManager.GetPlayer | src/main/java/dev/erpix/thetowers/model/manager/PlayerManager.java:36-38 | present exactly for a registered name, carrying that name |
| Game.PlayerManager.HasPlayer | src/main/java/dev/erpix/thetowers/model/manager/PlayerManager.java:46-48 | agrees with getPlayer |
| Game.PlayerManager.RemovePlayer | src/main/java/dev/erpix/thetowers/model/manager/PlayerManager.java:55-57 | only that name goes |
| Game.PlayerManager.Players | src/main/java/dev/erpix/thetowers/model/manager/PlayerManager.java:64-66 | the registered players, one per name |
| Game.PlayerManager.constructor | src/main/java/dev/erpix/thetowers/model/manager/PlayerManager.java:17 | no player registered |
| Stats.StatHash | src/main/java/dev/erpix/thetowers/model/PlayerStat.java:95-98 | the key's hash, a 32-bit int |
| Stats.StatEquality | src/main/java/dev/erpix/thetowers/model/PlayerStat.java:89-98 | stats are equal exactly when their keys are, and equal stats hash alike |
| Stats.BuiltinKeysDistinct | src/main/java/dev/erpix/thetowers/model/PlayerStat.java:16-48 | the 26 built-in keys are pairwise distinct |
| Stats.Registry.constructor | src/main/java/dev/erpix/thetowers/model/PlayerStat.java:16-48 | after static initialisation exactly the built-in keys are registered, in declaration order |
| Stats.Registry.Register | src/main/java/dev/erpix/thetowers/model/PlayerStat.java:132-136 | the new stat replaces any earlier one; a new key goes last, an old key keeps its place |
| Stats.Registry.FromKey | src/main/java/dev/erpix/thetowers/model/PlayerStat.java:138-140 | present exactly for a registered key, with that key |
| Stats.Registry.GetAll | src/main/java/dev/erpix/thetowers/model/PlayerStat.java:142-144 | the registered stats, distinct, in registration order; a stat is listed exactly when fromKey finds it |
| Stats.Serialize | src/main/java/dev/erpix/thetowers/model/PlayerStat.java:119-122 | a JSON string holding the key |
| Stats.Deserialize | src/main/java/dev/erpix/thetowers/model/PlayerStat.java:109-117 | succeeds exactly for a string holding a registered key, giving the stat with that key |
| Stats.AdapterRoundTrip | src/main/java/dev/erpix/thetowers/model/PlayerStat.java:107-124 | deserialize(serialize(s)) == s for every registered stat |
| Stats.AdapterUnknownKey | src/main/java/dev/erpix/thetowers/model/PlayerStat.java:113-115 | an unknown key fails with "Unknown PlayerStat key: " and the key |
| Stats.StatsTracker.constructor | src/main/java/dev/erpix/thetowers/model/StatsTracker.java:13 | no counters |
| Stats.StatsTracker.GetStat | src/main/java/dev/erpix/thetowers/model/StatsTracker.java:21-23 | the counter, 0 for an untouched stat |
| Stats.StatsTracker.GetRatio | src/main/java/dev/erpix/thetowers/model/StatsTracker.java:32-36 | 0 when the second counter is 0, otherwise the quotient (ratio × second == first) |
| Stats.StatsTracker.IncrementBy | src/main/java/dev/erpix/thetowers/model/StatsTracker.java:53-55 | that counter grows by the value; every other is unchanged |
| Stats.StatsTracker.Increment | src/main/java/dev/erpix/thetowers/model/StatsTracker.java:43-45 | that counter grows by one; every other is unchanged |
| Stats.StatsTracker.DecrementBy | src/main/java/dev/erpix/thetowers/model/StatsTracker.java:72-74 | that counter shrinks by the value, with no floor; every other is unchanged |
| Stats.StatsTracker.Decrement | src/main/java/dev/erpix/thetowers/model/StatsTracker.java:62-64 | that counter shrinks by one; every other is unchanged |
| Stats.StatsTracker.SetStat | src/main/java/dev/erpix/thetowers/model/StatsTracker.java:82-84 | that counter becomes the value; every other is unchanged |
| Stats.StatsTracker.Reset | src/main/java/dev/erpix/thetowers/model/StatsTracker.java:89-91 | every counter reads 0 and no key is removed |
| ProfileStatKeys.ValuesComplete | src/main/java/dev/erpix/thetowers/model/ProfileStatKey.java:12-45 | values() lists every constant |
| ProfileStatKeys.Key | src/main/java/dev/erpix/thetowers/model/ProfileStatKey.java:12-55 | getKey of each constant; KeyInjective and FromKeyRoundTrip state its properties |
| ProfileStatKeys.SignatureDecodes | src/main/java/dev/erpix/thetowers/model/ProfileStatKey.java:12-45 | a key's length and first two characters name its constant |
| ProfileStatKeys.DecodesA | src/main/java/dev/erpix/thetowers/model/ProfileStatKey.java:12-21 | SignatureDecodes for the first quarter of the constants |
| ProfileStatKeys.DecodesB | src/main/java/dev/erpix/thetowers/model/ProfileStatKey.java:22-28 | SignatureDecodes for the second quarter |
| ProfileStatKeys.DecodesC | src/main/java/dev/erpix/thetowers/model/ProfileStatKey.java:29-37 | SignatureDecodes for the third quarter |
| ProfileStatKeys.DecodesD | src/main/java/dev/erpix/thetowers/model/ProfileStatKey.java:38-45 | SignatureDecodes for the last quarter |
| ProfileStatKeys.KeyInjective | src/main/java/dev/erpix/thetowers/model/ProfileStatKey.java:12-45 | distinct constants have distinct keys |
| ProfileStatKeys.Find | src/main/java/dev/erpix/thetowers/model/ProfileStatKey.java:58-63 | the loop: the first constant with exactly that key; absent exactly when none has it |
| ProfileStatKeys.FromKey | src/main/java/dev/erpix/thetowers/model/ProfileStatKey.java:57-64 | a found constant has exactly that key; null exactly when no constant has it |
| ProfileStatKeys.FromKeyRoundTrip | src/main/java/dev/erpix/thetowers/model/ProfileStatKey.java:53-64 | fromKey(k.getKey()) == k for every constant |
| ProfileStatKeys.NotAKey | src/main/java/dev/erpix/thetowers/model/ProfileStatKey.java:57-64 | a string with no key's length and first two characters finds nothing |
| ProfileStatKeys.KeyLowerCase | src/main/java/dev/erpix/thetowers/model/ProfileStatKey.java:12-45 | every key starts with a lower-case letter |
| ProfileStatKeys.SignatureLowerCase | src/main/java/dev/erpix/thetowers/model/ProfileStatKey.java:12-45 | only strings starting with a lower-case letter have a signature |
| ProfileStatKeys.FromKeyCaseSensitive | src/main/java/dev/erpix/thetowers/model/ProfileStatKey.java:59 | matching is case-sensitive: a string starting with an upper-case letter names no constant |
| ProfileStatKeys.PlayerStatOnlyKeys | src/main/java/dev/erpix/thetowers/model/ProfileStatKey.java:37-40 | the PlayerStat keys with no profile constant (carrot_harvested and the like) |
| ProfileStatKeys.ProfileOnlyKeys | src/main/java/dev/erpix/thetowers/model/ProfileStatKey.java:12-18 | the profile keys with no PlayerStat counterpart (games_played, wins, losses, defense_kills) |
| TeamColors.Ordinal | src/main/java/dev/erpix/thetowers/model/game/GameTeam.java:206-212 | the colour's position in declaration order |
| TeamColors.Name | src/main/java/dev/erpix/thetowers/model/game/GameTeam.java:207-212 | a colour's name is a lower-case word of 3 to 6 letters |
| TeamColors.Hex | src/main/java/dev/erpix/thetowers/model/game/GameTeam.java:207-212 | colorHex is six hexadecimal digits |
| TeamColors.SecondaryHex | src/main/java/dev/erpix/thetowers/model/game/GameTeam.java:207-212 | secondaryColorHex is six hexadecimal digits and differs from colorHex |
| TeamColors.FindColor | src/main/java/dev/erpix/thetowers/model/game/GameTeam.java:228-233 | the loop: the first colour whose name equals the argument ignoring case; absent exactly when none does |
| TeamColors.From | src/main/java/dev/erpix/thetowers/model/game/GameTeam.java:227-234 | a found colour's name matches ignoring case; null exactly when no name does |
| TeamColors.NameIgnoresCase | src/main/java/dev/erpix/thetowers/model/game/GameTeam.java:229 | a name matches its own upper-case form |
| TeamColors.NamesDistinctIgnoringCase | src/main/java/dev/erpix/thetowers/model/game/GameTeam.java:206-212 | distinct colours have names that differ even ignoring case |
| TeamColors.FromName | src/main/java/dev/erpix/thetowers/model/game/GameTeam.java:227-234 | from finds a colour by its own name in any capitalisation |
| GameMaps.SetupOrdinal | src/main/java/dev/erpix/thetowers/model/game/GameMap.java:109-112 | the setup's position in declaration order |
| GameMaps.FindSetup | src/main/java/dev/erpix/thetowers/model/game/GameMap.java:134-139 | the loop: the first setup with that team count; absent exactly when none has it |
| GameMaps.From | src/main/java/dev/erpix/thetowers/model/game/GameMap.java:133-140 | present exactly for 2, 4 and 6 teams, with that team count |
| GameMaps.FromTeamCount | src/main/java/dev/erpix/thetowers/model/game/GameMap.java:114-140 | from(s.getTeamCount()) == s for every setup |
| GameMaps.MaxPlayersInTeam | src/main/java/dev/erpix/thetowers/model/game/GameMap.java:149-151 | MAX_PLAYERS divided by the team count, rounded down |
| GameMaps.MaxPlayersValues | src/main/java/dev/erpix/thetowers/model/game/GameMap.java:149-151 | 16, 8 and 5 players per team |
| GameMaps.JoinCopiesCount | src/main/java/dev/erpix/thetowers/model/game/GameMap.java:124 | joining n copies of a number with "v" gives n − 1 separators |
| GameMaps.FormattedSeparators | src/main/java/dev/erpix/thetowers/model/game/GameMap.java:121-125 | the formatted setup has one "v"-separated field per team |
| GameMaps.FormattedTeamSetup | src/main/java/dev/erpix/thetowers/model/game/GameMap.java:121-125 | getFormattedTeamSetup; FormattedSeparators and the three examples state its shape |
| GameMaps.FormattedTwoTeams | src/main/java/dev/erpix/thetowers/model/game/GameMap.java:121-125 | "16v16" |
| GameMaps.FormattedFourTeams | src/main/java/dev/erpix/thetowers/model/game/GameMap.java:121-125 | "8v8v8v8" |
| GameMaps.FormattedSixTeams | src/main/java/dev/erpix/thetowers/model/game/GameMap.java:121-125 | "5v5v5v5v5v5" |
| GameMaps.TeamSpawnLocation | src/main/java/dev/erpix/thetowers/model/game/GameMap.java:51-53 | the stored spawn, null exactly when none is set |
| GameMaps.TeamHeartLocation | src/main/java/dev/erpix/thetowers/model/game/GameMap.java:70-72 | the stored heart location, null exactly when none is set |
| JavaStrings.CompareZeroIffEqual | src/main/java/dev/erpix/thetowers/model/OrderedAttackerCache.java:157 | String.compareTo is zero exactly for equal names |
| JavaStrings.CompareAntisymmetric | src/main/java/dev/erpix/thetowers/model/OrderedAttackerCache.java:157 | swapping two names negates String.compareTo |
| JavaStrings.CompareTransitive | src/main/java/dev/erpix/thetowers/model/OrderedAttackerCache.java:157 | String.compareTo is transitive |
| JavaStrings.SplitAll | src/main/java/dev/erpix/thetowers/command/SuggestionProviders.java:22 | split(sep, -1) always yields at least one piece |
| JavaStrings.ToUpperString | src/main/java/dev/erpix/thetowers/command/TeamCommand.java:71 | toUpperCase(Locale.ROOT): same length, each character upper-cased |
| JavaStrings.NatToString | src/main/java/dev/erpix/thetowers/model/game/GameMap.java:124 | String.valueOf of a non-negative int: at least one character, all digits; NatToStringSpells states its value |
| JavaStrings.NatToStringSpells | src/main/java/dev/erpix/thetowers/model/game/GameMap.java:124 | the digits read back, most significant first, to the number itself, with no leading zero beyond "0" |
| JavaStrings.NatToStringInjective | src/main/java/dev/erpix/thetowers/model/game/GameMap.java:124 | different numbers give different strings |
| JavaStrings.ToInt32 | src/main/java/dev/erpix/thetowers/model/game/GamePlayer.java:212-214 | int arithmetic: the result is a 32-bit int congruent to the exact value modulo 2^32 |
| JavaStrings.StringHash | src/main/java/dev/erpix/thetowers/model/game/GamePlayer.java:212-214 | String.hashCode is a 32-bit int |
| Seqs.Touch | src/main/java/dev/erpix/thetowers/model/game/GameManager.java:32 | LinkedHashMap.put on the key order: the key is present, no other is added or lost, order stays duplicate-free |
| Seqs.Without | src/main/java/dev/erpix/thetowers/model/game/GameManager.java:32 | LinkedHashMap.remove on the key order: exactly the other keys remain |
| GameCommands.TruncHalf | src/main/java/dev/erpix/thetowers/command/GameCommand.java:137 | Java's int division by 2, which truncates toward zero |
| GameCommands.StartReply | src/main/java/dev/erpix/thetowers/command/GameCommand.java:126-151 | the game starts exactly in the lobby with at least two teams and, unless forced, every team at the minimum; each refusal exactly in its own case |
| GameCommands.GameStart | src/main/java/dev/erpix/thetowers/command/GameCommand.java:126-151 | the reply is StartReply of the state before, except that a start with no map and a team member online crashes; status 1 exactly on a clean start; the stage becomes waiting whenever the guards pass |
| GameCommands.AnyShort | src/main/java/dev/erpix/thetowers/command/GameCommand.java:137-143 | some team is under the minimum exactly when not all meet it |
| GameCommands.AnyShortOf | src/main/java/dev/erpix/thetowers/command/GameCommand.java:137-143 | the loop over the teams, with the same meaning |
| GameCommands.InOrderCoversTeams | src/main/java/dev/erpix/thetowers/command/GameCommand.java:137-143 | walking the teams in order checks every registered team |
| GameCommands.GameStop | src/main/java/dev/erpix/thetowers/command/GameCommand.java:110-124 | refused exactly in the lobby; otherwise back to the lobby with status 1 |
| TeamCommands.Resolve | src/main/java/dev/erpix/thetowers/command/TeamCommand.java:309-328 | getGamePlayer: console refused, an unknown player ignored, nothing outside the lobby; otherwise the registered player |
| TeamCommands.RequireTeamLeader | src/main/java/dev/erpix/thetowers/command/TeamCommand.java:330-351 | the player's team exactly when in one and its leader (equal by name); each refusal in its case |
| TeamCommands.RequirePlayerInTeam | src/main/java/dev/erpix/thetowers/command/TeamCommand.java:353-360 | the game's player of that name exactly when the team has such a member |
| TeamCommands.InTeamExactlyMembers | src/main/java/dev/erpix/thetowers/command/TeamCommand.java:353-360 | for a registered team the lookup succeeds exactly for its members |
| TeamCommands.CreateReply | src/main/java/dev/erpix/thetowers/command/TeamCommand.java:74-99 | created exactly for a known colour, a valid name, a free colour and a free name; refusals in that order |
| TeamCommands.Create | src/main/java/dev/erpix/thetowers/command/TeamCommand.java:62-105 | the reply is CreateReply of the state before; a refusal changes nothing; a creation adds exactly the new key, led by the player, who is alive and no longer a spectator; colours stay distinct |
| TeamCommands.Register | src/main/java/dev/erpix/thetowers/command/TeamCommand.java:97-98 | createTeam then addTeam: one new key, old keys unchanged, the leader alive and no longer a spectator, colours stay distinct |
| TeamCommands.CreateWhileInTeam | src/main/java/dev/erpix/thetowers/command/TeamCommand.java:73-99 | as written: a creation by a player already listed by a team leaves the player listed by two teams |
| TeamCommands.CreateGuarded | src/main/java/dev/erpix/thetowers/command/TeamCommand.java:62-105 | corrected: a player in a team is refused; every player stays listed by at most its own team |
| TeamCommands.Disband | src/main/java/dev/erpix/thetowers/command/TeamCommand.java:107-128 | only the leader object may disband; the team goes and its members spectate; otherwise nothing changes |
| TeamCommands.Join | src/main/java/dev/erpix/thetowers/command/TeamCommand.java:130-161 | a player in a team is refused; an unknown team gives TeamNotFound; a full team gives TeamFull; otherwise the player joins and the team stays within the maximum |
| TeamCommands.Leave | src/main/java/dev/erpix/thetowers/command/TeamCommand.java:163-184 | the leader object cannot leave; anyone else leaves and spectates |
| TeamCommands.Remove | src/main/java/dev/erpix/thetowers/command/TeamCommand.java:186-210 | the leader removes another member, who spectates; every refusal changes nothing |
| TeamCommands.Rename | src/main/java/dev/erpix/thetowers/command/TeamCommand.java:212-239 | the leader gives a valid unused name; the team is re-keyed and moves to the end of the iteration order; otherwise nothing changes |
| TeamCommands.SetColor | src/main/java/dev/erpix/thetowers/command/TeamCommand.java:241-271 | the leader picks a known colour no team has; colours stay distinct; otherwise the colour is kept |
| TeamCommands.Recolor | src/main/java/dev/erpix/thetowers/command/TeamCommand.java:266 | setColor to a free colour keeps colours distinct |
| TeamCommands.SetLeader | src/main/java/dev/erpix/thetowers/command/TeamCommand.java:291-305 | the leader hands the team to a member of that name, who stays a member; otherwise the leader is kept |
| TeamCommands.LeaderCandidates | src/main/java/dev/erpix/thetowers/command/TeamCommand.java:277-289 | set-leader's suggestions: exactly the other members' names; none without a team |
| TeamCommands.OtherNames | src/main/java/dev/erpix/thetowers/command/TeamCommand.java:283-287 | every name in the order other than the player's, and no other; OtherNamesAppend states the order is kept |
| TeamCommands.OtherNamesAppend | src/main/java/dev/erpix/thetowers/command/TeamCommand.java:283-287 | the names left from two stretches of the joining order are those of the first, then those of the second |
| YamlKeys.DropTrailingEmpty | src/main/java/dev/erpix/thetowers/config/YamlLoader.java:92 | split drops trailing empty pieces: a prefix ending in a non-empty piece, only empties dropped |
| YamlKeys.Capitalized | src/main/java/dev/erpix/thetowers/config/YamlLoader.java:97-100 | a capitalized piece keeps its length |
| YamlKeys.Squash | src/main/java/dev/erpix/thetowers/config/YamlLoader.java:91-103 | the character-by-character camelCase has no dash |
| YamlKeys.KebabToCamelCase | src/main/java/dev/erpix/thetowers/config/YamlLoader.java:91-103 | kebabToCamelCase equals CamelCase: dashes removed, each character after a dash upper-cased; a key of dashes alone is returned as is |
| YamlKeys.Join | src/main/java/dev/erpix/thetowers/config/YamlLoader.java:95-102 | the StringBuilder loop: the first piece, then each non-empty piece capitalized |
| YamlKeys.CapitalizedRangeSnoc | src/main/java/dev/erpix/thetowers/config/YamlLoader.java:96-101 | one more piece appends its capitalized form |
| YamlKeys.CapitalizedRangeAgree | src/main/java/dev/erpix/thetowers/config/YamlLoader.java:96-101 | ranges holding the same pieces capitalize alike |
| YamlKeys.CapitalizedRangeEmpties | src/main/java/dev/erpix/thetowers/config/YamlLoader.java:97 | empty trailing pieces add nothing |
| YamlKeys.PiecesJoin | src/main/java/dev/erpix/thetowers/config/YamlLoader.java:92-102 | joining the pieces between dashes is the character-by-character camelCase |
| YamlKeys.PiecesEmpty | src/main/java/dev/erpix/thetowers/config/YamlLoader.java:92-93 | every piece is empty exactly for a key of dashes alone |
| YamlKeys.SplitEmpty | src/main/java/dev/erpix/thetowers/config/YamlLoader.java:92-93 | split leaves nothing exactly for a non-empty key of dashes alone |
| YamlKeys.SplitJoins | src/main/java/dev/erpix/thetowers/config/YamlLoader.java:92-102 | the join of split's pieces is CamelCase |
| YamlKeys.NoDashSquash | src/main/java/dev/erpix/thetowers/config/YamlLoader.java:91-103 | a key without a dash is unchanged |
| YamlKeys.CamelCaseShape | src/main/java/dev/erpix/thetowers/config/YamlLoader.java:91-103 | the result has no dash unless the key was dashes alone; a dashless key is its own camelCase |
| YamlKeys.CamelCaseIdempotent | src/main/java/dev/erpix/thetowers/config/YamlLoader.java:91-103 | converting twice changes nothing more |
| YamlKeys.CamelCaseExample | src/main/java/dev/erpix/thetowers/config/YamlLoader.java:91-103 | "a-b" becomes "aB" |
| YamlKeys.GetProperty | src/main/java/dev/erpix/thetowers/config/YamlLoader.java:83-89 | the key as written when the type has it, else its camelCase form; an error exactly when neither exists |
| YamlKeys.CamelKeyResolvesOnce | src/main/java/dev/erpix/thetowers/config/YamlLoader.java:83-89 | a key whose camelCase form exists resolves, and looking up that form directly finds it at once |
| Suggestions.Suggest | src/main/java/dev/erpix/thetowers/command/SuggestionProviders.java:20-36 | the provider's output is Matching(collection, last word of the input) |
| Suggestions.LastWord | src/main/java/dev/erpix/thetowers/command/SuggestionProviders.java:22-23 | the last piece of the input split at spaces; LastWordIsSuffix states its shape |
| Suggestions.Matching | src/main/java/dev/erpix/thetowers/command/SuggestionProviders.java:25-32 | the offered suggestions in order; MatchingExactly states which |
| Suggestions.MatchingExactly | src/main/java/dev/erpix/thetowers/command/SuggestionProviders.java:25-32 | exactly the suggestions starting with the word are offered, never more than the collection; all of them when all match |
| Suggestions.MatchingAppend | src/main/java/dev/erpix/thetowers/command/SuggestionProviders.java:25-32 | filtering a concatenation is filtering each part in turn, so the collection's order is kept |
| Suggestions.MatchingMultiset | src/main/java/dev/erpix/thetowers/command/SuggestionProviders.java:25-32 | an offered suggestion appears as often as the collection holds it; one not offered never appears |
| Suggestions.EmptyWordOffersAll | src/main/java/dev/erpix/thetowers/command/SuggestionProviders.java:26-31 | an empty last word (as after a trailing space) offers the whole collection |
| Suggestions.LastWordIsSuffix | src/main/java/dev/erpix/thetowers/command/SuggestionProviders.java:22-23 | the last word has no space and ends the input, right after its last space when it has one; a trailing space gives ""; an input without a space is all one word |
| Placeholders.Initial | src/main/java/dev/erpix/thetowers/model/tablist/TServerPlaceholder.java:44-174 | a colour's name starts with a letter that identifies it and differs from the game placeholders' first letters |
| Placeholders.IdParts | src/main/java/dev/erpix/thetowers/model/tablist/TServerPlaceholder.java:33-174 | an identifier is "%tt_game_", the body and "%" |
| Placeholders.Id | src/main/java/dev/erpix/thetowers/model/tablist/TServerPlaceholder.java:192-194 | getPlaceholder: the identifier; IdInjective and IdDecodes state its properties |
| Placeholders.ColorBodyParts | src/main/java/dev/erpix/thetowers/model/tablist/TServerPlaceholder.java:44-174 | a colour body is the name, "_team_" and the kind |
| Placeholders.DecodeColorBody | src/main/java/dev/erpix/thetowers/model/tablist/TServerPlaceholder.java:44-174 | a colour body reads back through the part after "_team_" |
| Placeholders.DecodeKinds | src/main/java/dev/erpix/thetowers/model/tablist/TServerPlaceholder.java:44-174 | the kind ("name", "member_1".."member_8", "heart_health") reads back to its placeholder |
| Placeholders.IdDecodes | src/main/java/dev/erpix/thetowers/model/tablist/TServerPlaceholder.java:33-174 | every identifier reads back to its own placeholder |
| Placeholders.IdInjective | src/main/java/dev/erpix/thetowers/model/tablist/TServerPlaceholder.java:33-174 | two placeholders share an identifier exactly when they are the same |
| Placeholders.MemberValues | src/main/java/dev/erpix/thetowers/model/tablist/TServerPlaceholder.java:47-62 | a colour's eight member placeholders, slot k at index k |
| Placeholders.ColorValuesExactly | src/main/java/dev/erpix/thetowers/model/tablist/TServerPlaceholder.java:44-64 | a colour's constants are exactly the ten placeholders of that colour |
| Placeholders.ColorsValuesExactly | src/main/java/dev/erpix/thetowers/model/tablist/TServerPlaceholder.java:44-174 | the constants of a list of colours: exactly theirs, ten per colour |
| Placeholders.ValuesComplete | src/main/java/dev/erpix/thetowers/model/tablist/TServerPlaceholder.java:30-174 | values() lists every constant, 4 for the game and 10 per colour |
| Placeholders.From | src/main/java/dev/erpix/thetowers/model/tablist/TServerPlaceholder.java:236-243 | from(s) is some placeholder p exactly when p's identifier is s; null exactly for no identifier |
| Placeholders.FirstWithId | src/main/java/dev/erpix/thetowers/model/tablist/TServerPlaceholder.java:237-242 | the loop: a found constant is in the list with that identifier; none means no constant in the list has it |
| Placeholders.Build | src/main/java/dev/erpix/thetowers/model/tablist/TServerPlaceholder.java:258-323 | the colour's own name and heart-health constants and its eight member constants, slot by slot |
| Placeholders.MemberPlaceholder | src/main/java/dev/erpix/thetowers/model/tablist/TServerPlaceholder.java:341-346 | the constant at the index exactly within bounds; otherwise IndexOutOfBoundsException |
| Placeholders.AllPlaceholders | src/main/java/dev/erpix/thetowers/model/tablist/TServerPlaceholder.java:348-354 | two more than the member placeholders |
| Placeholders.BundleIsTheColorsPlaceholders | src/main/java/dev/erpix/thetowers/model/tablist/TServerPlaceholder.java:258-354 | a colour's bundle holds exactly its ten placeholders, each once: name, heart health, then member k+1 at k+2 |
| Placeholders.MemberPlaceholderSlots | src/main/java/dev/erpix/thetowers/model/tablist/TServerPlaceholder.java:341-346 | index k in 0..7 is member k+1; any other index throws |
| Placeholders.Registry.constructor | src/main/java/dev/erpix/thetowers/model/tablist/TServerPlaceholder.java:252 | the cache starts empty |
| Placeholders.Registry.ForColor | src/main/java/dev/erpix/thetowers/model/tablist/TServerPlaceholder.java:356-358 | computeIfAbsent: the colour's bundle; a cached one is returned unchanged |
| Placeholders.CountReady | src/main/java/dev/erpix/thetowers/model/tablist/TServerPlaceholder.java:37-40 | the number of full teams is at most the number of teams |
| Placeholders.CountReadyBounds | src/main/java/dev/erpix/thetowers/model/tablist/TServerPlaceholder.java:37-40 | all teams count exactly when each is full; none exactly when none is |
| Placeholders.NthMember | src/main/java/dev/erpix/thetowers/model/tablist/TServerPlaceholder.java:380-393 | the team of that colour's member in slot n in joining order; nothing when the team is missing or has at most n members |
| Placeholders.MembersCount | src/main/java/dev/erpix/thetowers/model/game/GameTeam.java:99-101 | a team has as many members as joining-order names |
| Placeholders.IntToString | src/main/java/dev/erpix/thetowers/model/tablist/TServerPlaceholder.java:174 | String.valueOf(int), with a minus sign for negatives |
| Placeholders.Value | src/main/java/dev/erpix/thetowers/model/tablist/TServerPlaceholder.java:33-393 | the supplier: an error exactly for a map placeholder without a map, otherwise the map's name or formatted setup; the number of full teams and of teams; per colour the team's display name, heart health or slot member's display name, "" when the team or slot is missing |

## Left out

- Floating point: damage, defense and ratios are Dafny `real`s. Rounding, NaN and infinities are not modelled. `Double.compareTo` is modelled on finite values only.
- Java `int` overflow of counters, souls and heart health is not modelled. Hash codes are the exception: they are computed with explicit 32-bit wrap-around.
- `String.toUpperCase(Locale.ROOT)` and `equalsIgnoreCase` are modelled on ASCII letters only.
- Game.IsValidName: Character.isLetterOrDigit is modelled on U+0000..U+024F (ASCII, Latin-1 and Latin Extended-A and -B, which covers Polish letters). Letters and digits of other scripts (Greek, Cyrillic, CJK, other digit sets) are accepted by Java but rejected here. The same gap carries into Game.GameTeam.constructor and TeamCommands.Register (their requires), Game.GameManager.CreateTeam, TeamCommands.CreateReply and TeamCommands.Create (InvalidName), Game.GameTeam.SetName and TeamCommands.Rename.
- Game.GameTeam.constructor: requires Game.IsValidName, so a name in a script beyond U+024F is outside its precondition, though Java would accept it.
- Game.GameManager.CreateTeam: gives Err for a name in a script beyond U+024F, where Java creates the team.
- TeamCommands.CreateReply: answers InvalidName for a name in a script beyond U+024F, where Java creates the team.
- TeamCommands.Create: refuses a name in a script beyond U+024F, where Java creates the team.
- TeamCommands.Register: requires Game.IsValidName, so a name in a script beyond U+024F is outside its precondition, though Java would register it.
- Game.GameTeam.SetName: refuses a name in a script beyond U+024F, where Java renames the team.
- TeamCommands.Rename: answers InvalidName for a name in a script beyond U+024F, where Java renames the team.
- Game.GameManager.SetMap, Game.GameManager.RemoveOversized and Game.GameManager.ClearTeams remove teams while iterating over `teams.values()`. In Java that LinkedHashMap iteration then throws ConcurrentModificationException at its next step: after the first removal in clearTeams, and after any removal in setMap except of the last team. The model gives the intended effect instead: it walks a snapshot of the key order and removes every team that qualifies.
- Damage.FateOf: a map without a spawn location for the team's colour makes applyDamage teleport to a null location. What the server does with that is not modelled; the fall counts as a death.
- Concurrency: the ledger's concurrent maps and the manager's scheduled thread. `CleanupAll` is one sweep pass called with `now`. The executor is reduced to a `running` flag.
- `Damage.AsAttacker` / `Game.GameManager.HandleNonPlayerAttacker`: when the top ledger attacker is no longer registered in PlayerManager, the raw name stands in for its display name. Java still holds the object.
- The attacker ledger is keyed by player name. The source keys it by GamePlayer, whose equality is by name. An attacker removed from PlayerManager gets no assist, where Java would increment the detached object.
- Server effects are not modelled: teleports, particles, sounds, the lightning effect, Disguises refresh, the TAB layout and chat delivery. Messages are `Reply` values or strings.
- `respawn`'s scheduled task becomes the `Respawn` countdown method. `Death` returns the player to respawn. The delay is not modelled.
- `GameTeam.getTag()`, used by getFormattedName, is not part of this model. The team name stands in for the tag.
- TeamCommand calls `GameTeam.isFull()` and `removeMember(p, true)`. Neither method is in GameTeam.java. `isFull` is modelled as members ≥ the game's per-team maximum, and the two-argument removal as `RemoveMember`.
- TServerPlaceholder is written against `TGame`, `TMap`, `TTeam` and `TPlayer`. TGame, TMap and TPlayer are not part of this model, so the placeholders read the game model instead:
  - the game's map and per-team maximum are the `GameManager` fields `gameMap` and `maxPlayersPerTeam`, not getters;
  - `getTeam(color)` returns a nullable `TTeam` that TServerPlaceholder.java:375-376 checks for null; the model looks the colour up with `GetTeamByColor`, an `Option`;
  - `TTeam.getDisplayName` (model/TTeam.java:93-95) shows the team's tag in the colour's hex; the model shows the team name in the same format, since GameTeam has no tag;
  - a member's display name is the `GamePlayer` display name.
- `TServerPlaceholder.resolve()`, the refresh intervals and the TAB API registration are not modelled.
- Placeholders.Value: a game without a map makes the map placeholders throw a NullPointerException in the source. Here that case returns `Err`.
- JavaStrings.CompareStrings compares characters as code points. Java compares UTF-16 units, so the two orders differ only for strings holding characters above U+FFFF.
- Placeholders.FirstWithId does not state that the constant it finds is the first in the list. `From` needs only that at most one constant matches, which `IdInjective` proves.
- GameCommands.GameStart requires only that every name in the team order is a registered team, not the full `Valid()` invariant. `InOrderCoversTeams` connects the two.
- TeamCommands.Resolve models getGamePlayer's callback as a `Result`. Each command method takes the already-resolved player. Permissions and Brigadier parsing are not modelled.
- TeamCommands.Rename requires that the player's team is registered in the game, which the command's callers always ensure. A team object outside the registry is not modelled.
- YAML loading and saving, SnakeYAML's own property lookup and bean representation are not modelled. `GetProperty` takes the type's properties as a set.
- `GameMap.applyGameRules` and the world and location lists are not modelled. Spawn and heart lookups are modelled.
- Iterator, forEach and spliterator of StatsTracker and OrderedAttackerCache are not modelled. They only delegate to the map or to getAttackers.

## Findings

| source | as written | input that shows it | evidently intended | confidence | as-written member | corrected member |
|---|---|---|---|---|---|---|
| src/main/java/dev/erpix/thetowers/command/TeamCommand.java:73-99 | `/team create` checks colour, name and availability, but not whether the player is already in a team | a player in team "A" runs `/team create blue B`: team B is created with the player as leader, team A still lists the player, and the player's team field is B | refuse with the "already in a team" message, as `/team join` does at lines 137-141 | not executed | TeamCommands.CreateWhileInTeam | TeamCommands.CreateGuarded |

=== FILE: attacker_ledger.dfy ===
/**
 * The per-victim attacker ledger (OrderedAttackerCache) and the manager
 * that sweeps every registered ledger.
 *
 * A ledger keeps two maps: `playerMap` from attacker name to the
 * attacker's cumulative damage and last-hit time, and `damageMap`, a
 * sorted index keyed by (damage, name) that the source stores in a
 * reverse-ordered skip list so that the biggest contributor comes first.
 * Attackers are identified by name, as GamePlayer.equals does.
 * Time is passed in as `now`, in milliseconds.
 */
module AttackerLedger {
  import opened Wrappers
  import opened JavaStrings

  /** One attacker's record: who, how much in total, and when they last hit. */
  datatype AttackerEntry = AttackerEntry(attacker: string, damage: real, timestamp: int)

  /** The key of the sorted index. */
  datatype DamageKey = DamageKey(damage: real, playerName: string)

  function KeyOf(e: AttackerEntry): DamageKey
  {
    DamageKey(e.damage, e.attacker)
  }

  /** Double.compareTo on finite values. */
  function CompareDamage(a: real, b: real): (c: int)
    ensures c == 0 <==> a == b
    ensures c < 0 <==> a < b
  {
    if a < b then -1 else if a > b then 1 else 0
  }

  /** DamageKey.compareTo: by damage, then by player name. */
  function CompareKeys(a: DamageKey, b: DamageKey): int
  {
    var byDamage := CompareDamage(a.damage, b.damage);
    if byDamage != 0 then byDamage else CompareStrings(a.playerName, b.playerName)
  }

  lemma CompareKeysZeroIffEqual(a: DamageKey, b: DamageKey)
    ensures CompareKeys(a, b) == 0 <==> a == b
  {
    CompareZeroIffEqual(a.playerName, b.playerName);
  }

  lemma CompareKeysAntisymmetric(a: DamageKey, b: DamageKey)
    ensures CompareKeys(b, a) == -CompareKeys(a, b)
  {
    CompareAntisymmetric(a.playerName, b.playerName);
  }

  lemma CompareKeysTransitive(a: DamageKey, b: DamageKey, c: DamageKey)
    requires CompareKeys(a, b) < 0 && CompareKeys(b, c) < 0
    ensures CompareKeys(a, c) < 0
  {
    if a.damage == b.damage == c.damage {
      CompareTransitive(a.playerName, b.playerName, c.playerName);
    }
  }

  /** The index is iterated in reverse key order: `a` comes before `b`
      when `a` compares greater. */
  predicate Precedes(a: DamageKey, b: DamageKey)
  {
    CompareKeys(a, b) > 0
  }

  /** A snapshot in index order: strictly decreasing keys. */
  predicate Descending(r: seq<AttackerEntry>)
  {
    forall i, j :: 0 <= i < j < |r| ==> Precedes(KeyOf(r[i]), KeyOf(r[j]))
  }

  /** The ledger invariant tying the two maps together: every attacker has
      exactly the index key (its damage, its name), and every index key
      points back at an attacker holding that damage. */
  ghost predicate Consistent(pm: map<string, AttackerEntry>, dm: map<DamageKey, string>)
  {
    && (forall a | a in pm :: pm[a].attacker == a && KeyOf(pm[a]) in dm && dm[KeyOf(pm[a])] == a)
    && (forall k | k in dm :: dm[k] == k.playerName && k.playerName in pm && pm[k.playerName].damage == k.damage)
  }

  /** The damage recorded for `a` so far, 0 when absent. */
  function Prior(pm: map<string, AttackerEntry>, a: string): real
  {
    if a in pm then pm[a].damage else 0.0
  }

  /** The attacker map after `put(a, damage)` at time `now`. */
  function Record(pm: map<string, AttackerEntry>, a: string, damage: real, now: int): (r: map<string, AttackerEntry>)
    ensures a in r && r[a].damage == Prior(pm, a) + damage && r[a].timestamp == now
    ensures forall b :: b != a ==> (b in r <==> b in pm) && (b in pm ==> r[b] == pm[b])
  {
    pm[a := AttackerEntry(a, Prior(pm, a) + damage, now)]
  }

  /** An entry is swept when it is strictly older than the TTL. */
  predicate Expired(e: AttackerEntry, now: int, ttl: int)
  {
    now - e.timestamp > ttl
  }

  /** The attacker map after `cleanUp` at time `now`. */
  function Live(pm: map<string, AttackerEntry>, now: int, ttl: int): (r: map<string, AttackerEntry>)
    ensures forall a :: a in r <==> a in pm && now - pm[a].timestamp <= ttl
    ensures forall a :: a in r ==> r[a] == pm[a]
  {
    map a | a in pm && !Expired(pm[a], now, ttl) :: pm[a]
  }

  /** The index holds one key per attacker. */
  lemma {:induction false} IndexSize(pm: map<string, AttackerEntry>, dm: map<DamageKey, string>)
    requires Consistent(pm, dm)
    ensures |dm| == |pm|
    decreases |pm|
  {
    if pm == map[] {
      assert dm.Keys == {};
    } else {
      var a :| a in pm;
      var k := KeyOf(pm[a]);
      var pm', dm' := pm - {a}, dm - {k};
      forall k' | k' in dm' ensures k'.playerName != a {
      }
      assert Consistent(pm', dm');
      IndexSize(pm', dm');
      assert |pm'| == |pm| - 1 && |dm'| == |dm| - 1;
    }
  }

  /** Two index-ordered snapshots with the same entries are the same
      sequence: iterating an unchanged ledger twice gives equal lists. */
  lemma {:induction false} DescendingUnique(r1: seq<AttackerEntry>, r2: seq<AttackerEntry>)
    requires Descending(r1) && Descending(r2)
    requires forall e :: e in r1 <==> e in r2
    ensures r1 == r2
    decreases |r1|
  {
    assert r1 != [] ==> r1[0] in r2;
    assert r2 != [] ==> r2[0] in r1;
    if r1 != [] {
      assert r1[0] in r2;
      var j :| 0 <= j < |r2| && r2[j] == r1[0];
      if j > 0 {
        assert r2[0] in r1;
        var i :| 0 <= i < |r1| && r1[i] == r2[0];
        if i == 0 {
          CompareKeysZeroIffEqual(KeyOf(r2[0]), KeyOf(r2[0]));
        } else {
          CompareKeysAntisymmetric(KeyOf(r1[0]), KeyOf(r1[i]));
        }
        assert false;
      }
      forall e ensures e in r1[1..] <==> e in r2[1..] {
        if e in r1[1..] {
          var i :| 1 <= i < |r1| && r1[i] == e;
          CompareKeysZeroIffEqual(KeyOf(r1[0]), KeyOf(r1[i]));
          assert e != r1[0];
          assert e in r2;
        }
        if e in r2[1..] {
          var i :| 1 <= i < |r2| && r2[i] == e;
          CompareKeysZeroIffEqual(KeyOf(r2[0]), KeyOf(r2[i]));
          assert e != r2[0];
          assert e in r1;
        }
      }
      DescendingUnique(r1[1..], r2[1..]);
      assert r1 == [r1[0]] + r1[1..] && r2 == [r2[0]] + r2[1..];
    }
  }

  /** A snapshot of a consistent ledger names each attacker exactly once. */
  lemma SnapshotNames(pm: map<string, AttackerEntry>, r: seq<AttackerEntry>)
    requires Descending(r)
    requires forall e :: e in r <==> e in pm.Values
    requires forall a | a in pm :: pm[a].attacker == a
    ensures forall i, j :: 0 <= i < j < |r| ==> r[i].attacker != r[j].attacker
    ensures forall i :: 0 <= i < |r| ==> r[i].attacker in pm && pm[r[i].attacker] == r[i]
    ensures forall a :: a in pm ==> exists i :: 0 <= i < |r| && r[i].attacker == a
  {
    forall i | 0 <= i < |r|
      ensures r[i].attacker in pm && pm[r[i].attacker] == r[i]
    {
      assert r[i] in pm.Values;
    }
    forall i, j | 0 <= i < j < |r|
      ensures r[i].attacker != r[j].attacker
    {
      CompareKeysZeroIffEqual(KeyOf(r[i]), KeyOf(r[j]));
    }
    forall a | a in pm
      ensures exists i :: 0 <= i < |r| && r[i].attacker == a
    {
      assert pm[a] in pm.Values;
      assert pm[a] in r;
    }
  }

  /** The first entry of a snapshot: its key precedes every other entry's. */
  ghost predicate IsTop(pm: map<string, AttackerEntry>, e: AttackerEntry)
  {
    e in pm.Values && forall a | a in pm && pm[a] != e :: Precedes(KeyOf(e), KeyOf(pm[a]))
  }

  /** The head of a non-empty snapshot is the top entry. */
  lemma SnapshotHead(pm: map<string, AttackerEntry>, r: seq<AttackerEntry>)
    requires Descending(r)
    requires forall e :: e in r <==> e in pm.Values
    requires |r| > 0
    ensures IsTop(pm, r[0])
  {
    assert r[0] in pm.Values;
    forall a | a in pm && pm[a] != r[0]
      ensures Precedes(KeyOf(r[0]), KeyOf(pm[a]))
    {
      assert pm[a] in pm.Values;
      assert pm[a] in r;
    }
  }

  /** A ledger call, for reasoning about sequences of calls. */
  datatype LedgerOp = PutOp(name: string, damage: real, at: int) | SweepOp(at: int)

  /** The attacker map after one call. */
  function Step(pm: map<string, AttackerEntry>, op: LedgerOp, ttl: int): map<string, AttackerEntry>
  {
    match op
    case PutOp(a, d, now) => Record(pm, a, d, now)
    case SweepOp(now) => Live(pm, now, ttl)
  }

  /** The attacker map after a sequence of calls. */
  function Replay(pm: map<string, AttackerEntry>, ops: seq<LedgerOp>, ttl: int): map<string, AttackerEntry>
    decreases |ops|
  {
    if ops == [] then pm else Replay(Step(pm, ops[0], ttl), ops[1..], ttl)
  }

  /** The damage that `ops` record for attacker `a`. */
  function PutTotal(ops: seq<LedgerOp>, a: string): real
    decreases |ops|
  {
    if ops == [] then 0.0
    else (if ops[0].PutOp? && ops[0].name == a then ops[0].damage else 0.0) + PutTotal(ops[1..], a)
  }

  /** No sweep in `ops` comes more than `ttl` after `a`'s latest hit
      (`last` is the time of the hit before `ops`). */
  predicate KeptAlive(ops: seq<LedgerOp>, a: string, last: int, ttl: int)
    decreases |ops|
  {
    ops == [] ||
    match ops[0]
    case PutOp(b, _, now) => KeptAlive(ops[1..], a, if b == a then now else last, ttl)
    case SweepOp(now) => now - last <= ttl && KeptAlive(ops[1..], a, last, ttl)
  }

  /** An attacker that is never swept keeps the sum of everything recorded
      for it, whatever other attackers and sweeps are interleaved. */
  lemma {:induction false} ContributionIsSum(pm: map<string, AttackerEntry>, ops: seq<LedgerOp>, ttl: int, a: string)
    requires a in pm
    requires KeptAlive(ops, a, pm[a].timestamp, ttl)
    ensures a in Replay(pm, ops, ttl)
    ensures Replay(pm, ops, ttl)[a].damage == pm[a].damage + PutTotal(ops, a)
    decreases |ops|
  {
    if ops != [] {
      var pm' := Step(pm, ops[0], ttl);
      assert a in pm' && pm'[a].damage == pm[a].damage + (if ops[0].PutOp? && ops[0].name == a then ops[0].damage else 0.0);
      ContributionIsSum(pm', ops[1..], ttl, a);
    }
  }

  /** Starting from an empty ledger, the first hit plus everything after it. */
  lemma FirstHitThenSum(a: string, damage: real, now: int, ops: seq<LedgerOp>, ttl: int)
    requires KeptAlive(ops, a, now, ttl)
    ensures a in Replay(map[], [PutOp(a, damage, now)] + ops, ttl)
    ensures Replay(map[], [PutOp(a, damage, now)] + ops, ttl)[a].damage == damage + PutTotal(ops, a)
  {
    var all := [PutOp(a, damage, now)] + ops;
    assert all[1..] == ops;
    ContributionIsSum(Record(map[], a, damage, now), ops, ttl, a);
  }

  /** A sweep keeps an entry exactly `ttl` old and drops one a millisecond older. */
  lemma SweepBoundary(e: AttackerEntry, ttl: int)
    ensures e.attacker in Live(map[e.attacker := e], e.timestamp + ttl, ttl)
    ensures e.attacker !in Live(map[e.attacker := e], e.timestamp + ttl + 1, ttl)
  {
  }

  /** The greatest key of a non-empty set, found by a linear scan. */
  method MaxKey(s: set<DamageKey>) returns (m: DamageKey)
    requires s != {}
    ensures m in s
    ensures forall k :: k in s && k != m ==> Precedes(m, k)
  {
    m :| m in s;
    var rest := s - {m};
    while rest != {}
      invariant m in s && rest <= s
      invariant forall k :: k in s && k !in rest && k != m ==> Precedes(m, k)
      decreases rest
    {
      var k :| k in rest;
      if Precedes(k, m) {
        forall k' | k' in s && k' !in rest && k' != k
          ensures Precedes(k, k')
        {
          if k' != m {
            CompareKeysAntisymmetric(m, k');
            CompareKeysAntisymmetric(k, m);
            CompareKeysTransitive(k', m, k);
            CompareKeysAntisymmetric(k', k);
          }
        }
        m := k;
      } else if k != m {
        CompareKeysZeroIffEqual(k, m);
        CompareKeysAntisymmetric(k, m);
      }
      rest := rest - {k};
    }
  }

  /** One attacker ledger. */
  class OrderedAttackerCache {
    const ttlMillis: int
    var playerMap: map<string, AttackerEntry>
    var damageMap: map<DamageKey, string>
    var registered: bool

    ghost predicate Valid()
      reads this`playerMap, this`damageMap
    {
      Consistent(playerMap, damageMap)
    }

    /** `new OrderedAttackerCache(ttlSeconds)`: empty, and registered with the manager. */
    constructor (ttlSeconds: int, manager: Manager)
      modifies manager
      ensures Valid()
      ensures ttlMillis == ttlSeconds * 1000
      ensures playerMap == map[] && damageMap == map[]
      ensures registered
      ensures manager.caches == old(manager.caches) + {this}
      ensures manager.running == old(manager.running)
    {
      ttlMillis := ttlSeconds * 1000;
      playerMap := map[];
      damageMap := map[];
      registered := false;
      new;
      manager.Register(this);
      registered := true;
    }

    /** Adds `damage` to the attacker's total and stamps it with `now`,
        moving the attacker's index key to the new total. */
    method Put(player: string, damage: real, now: int)
      requires Valid()
      modifies this`playerMap, this`damageMap
      ensures Valid()
      ensures playerMap == Record(old(playerMap), player, damage, now)
      ensures damageMap == (if player in old(playerMap)
                            then old(damageMap) - {KeyOf(old(playerMap)[player])}
                            else old(damageMap))[DamageKey(Prior(old(playerMap), player) + damage, player) := player]
    {
      var newDamage := damage;
      if player in playerMap {
        var oldEntry := playerMap[player];
        newDamage := newDamage + oldEntry.damage;
        damageMap := damageMap - {DamageKey(oldEntry.damage, player)};
      }
      var entry := AttackerEntry(player, newDamage, now);
      playerMap := playerMap[player := entry];
      damageMap := damageMap[DamageKey(newDamage, player) := player];
    }

    /** The attacker's cumulative damage, or null when absent. */
    function GetDamage(player: string): (r: Option<real>)
      reads this
      ensures r.Some? <==> player in playerMap
      ensures r.Some? ==> r.value == Prior(playerMap, player)
    {
      if player in playerMap then Some(playerMap[player].damage) else None
    }

    /** The entries in index order: biggest damage first, equal damage by
        player name descending (the whole key order is reversed). */
    method GetAttackers() returns (r: seq<AttackerEntry>)
      requires Valid()
      ensures Descending(r)
      ensures forall e :: e in r <==> e in playerMap.Values
    {
      r := [];
      var rest := damageMap.Keys;
      while rest != {}
        invariant rest <= damageMap.Keys
        invariant Descending(r)
        invariant forall i, k :: 0 <= i < |r| && k in rest ==> Precedes(KeyOf(r[i]), k)
        invariant forall e :: e in r <==> e in playerMap.Values && KeyOf(e) !in rest
        decreases rest
      {
        var k := MaxKey(rest);
        var player := damageMap[k];
        if player in playerMap {
          var e := playerMap[player];
          assert KeyOf(e) == k;
          forall i, k' | 0 <= i < |r| + 1 && k' in rest - {k}
            ensures Precedes(KeyOf((r + [e])[i]), k')
          {
            if i < |r| {
              CompareKeysAntisymmetric(KeyOf(r[i]), k);
              CompareKeysAntisymmetric(k, k');
              CompareKeysTransitive(k', k, KeyOf(r[i]));
              CompareKeysAntisymmetric(k', KeyOf(r[i]));
            }
          }
          r := r + [e];
        }
        rest := rest - {k};
      }
    }

    /** Removes, from both maps, every entry strictly older than the TTL. */
    method CleanUp(now: int)
      requires Valid()
      modifies this`playerMap, this`damageMap
      ensures Valid()
      ensures playerMap == Live(old(playerMap), now, ttlMillis)
    {
      var keys := playerMap.Keys;
      while keys != {}
        invariant keys <= old(playerMap).Keys
        invariant Valid()
        invariant playerMap == map a | a in old(playerMap) && (a in keys || !Expired(old(playerMap)[a], now, ttlMillis)) :: old(playerMap)[a]
        decreases keys
      {
        var player :| player in keys;
        var entry := playerMap[player];
        if now - entry.timestamp > ttlMillis {
          playerMap := playerMap - {player};
          damageMap := damageMap - {DamageKey(entry.damage, player)};
        }
        keys := keys - {player};
      }
    }

    /** Unregisters from the manager, once: a second close does nothing. */
    method Close(manager: Manager)
      modifies this`registered, manager`caches
      ensures !registered
      ensures manager.caches == if old(registered) then old(manager.caches) - {this} else old(manager.caches)
    {
      if registered {
        manager.Unregister(this);
        registered := false;
      }
    }
  }

  /** The process-wide manager: the registered ledgers and the periodic sweep. */
  class Manager {
    var caches: set<OrderedAttackerCache>
    var running: bool

    constructor ()
      ensures caches == {} && running
    {
      caches := {};
      running := true;
    }

    method Register(cache: OrderedAttackerCache)
      modifies this`caches
      ensures caches == old(caches) + {cache}
    {
      caches := caches + {cache};
    }

    method Unregister(cache: OrderedAttackerCache)
      modifies this`caches
      ensures caches == old(caches) - {cache}
    {
      caches := caches - {cache};
    }

    /** One pass of the sweep. A ledger in `failing` stands for one whose
        cleanUp throws: it is left as it was and the pass goes on. */
    method CleanupAll(now: int, failing: set<OrderedAttackerCache>)
      requires forall c :: c in caches ==> c.Valid()
      modifies caches
      ensures forall c :: c in old(caches) ==> c.Valid()
      ensures forall c :: c in old(caches) ==>
        c.playerMap == if c in failing then old(c.playerMap) else Live(old(c.playerMap), now, c.ttlMillis)
    {
      var todo := caches;
      while todo != {}
        invariant todo <= caches
        invariant forall c :: c in caches ==> c.Valid()
        invariant forall c :: c in todo ==> c.playerMap == old(c.playerMap)
        invariant forall c :: c in caches && c !in todo ==>
          c.playerMap == if c in failing then old(c.playerMap) else Live(old(c.playerMap), now, c.ttlMillis)
        decreases todo
      {
        var c :| c in todo;
        if c !in failing {
          c.CleanUp(now);
        }
        todo := todo - {c};
      }
    }

    /** Stops the periodic sweep; the registered set is kept. */
    method Shutdown()
      modifies this`running
      ensures !running
    {
      running := false;
    }
  }
}

=== FILE: damage.dfy ===
/** The damage rules of DamageCalculator: the item tags it reads, the
    effective-damage formula, and applyDamage, the one step that lands a hit.
    Damage values are `real`; floating-point rounding is not modelled. */
module Damage {
  import opened Wrappers
  import opened AttackerLedger
  import opened Stats
  import opened Game

  // ---------------------------------------------------------------- items

  /** Only the empty hand (AIR) is treated specially. */
  datatype Material = Air | Solid

  /** An item stack with the persistent-data tags the plugin reads: "damage",
      "defense" and the projectile-damage attribute. */
  datatype Item = Item(material: Material, damage: Option<real>, defense: Option<real>, projectileDamage: Option<real>)

  /** The equipment slots the plugin reads; an empty armour slot is null,
      an empty main hand holds AIR. */
  datatype Equipment = Equipment(
    helmet: Option<Item>,
    chestplate: Option<Item>,
    leggings: Option<Item>,
    boots: Option<Item>,
    mainHand: Item)

  /** getDamageFromItem: nothing for no item, one for the empty hand,
      otherwise the "damage" tag, nothing when untagged. */
  function DamageFromItem(item: Option<Item>): (r: real)
    ensures item.None? ==> r == 0.0
    ensures item.Some? && item.value.material == Air ==> r == 1.0
    ensures item.Some? && item.value.material != Air ==>
      r == (if item.value.damage.Some? then item.value.damage.value else 0.0)
  {
    match item
    case None => 0.0
    case Some(i) =>
      if i.material == Air then 1.0
      else if i.damage.None? then 0.0
      else i.damage.value
  }

  /** getDefenseFromItem: the "defense" tag, nothing for no item or no tag.
      The empty hand gets no special case here. */
  function DefenseFromItem(item: Option<Item>): (r: real)
    ensures item.None? || item.value.defense.None? ==> r == 0.0
    ensures item.Some? && item.value.defense.Some? ==> r == item.value.defense.value
  {
    if item.Some? && item.value.defense.Some? then item.value.defense.value else 0.0
  }

  /** calculateEquipmentDefense: the four armour slots' defense added up;
      no equipment at all gives none. The main hand does not count. */
  function EquipmentDefense(eq: Option<Equipment>): (r: real)
    ensures eq.None? ==> r == 0.0
    ensures eq.Some? ==> r == DefenseFromItem(eq.value.helmet) + DefenseFromItem(eq.value.chestplate)
                             + DefenseFromItem(eq.value.leggings) + DefenseFromItem(eq.value.boots)
  {
    match eq
    case None => 0.0
    case Some(e) =>
      DefenseFromItem(e.chestplate) + DefenseFromItem(e.leggings)
      + DefenseFromItem(e.boots) + DefenseFromItem(e.helmet)
  }

  // ---------------------------------------------------------------- formula

  function Max(a: real, b: real): (m: real)
    ensures m >= a && m >= b && (m == a || m == b)
  {
    if a >= b then a else b
  }

  /** Multiplying by a positive factor keeps strict order. */
  lemma ScaleStrict(x: real, y: real, c: real)
    requires c > 0.0
    ensures x > y ==> x * c > y * c
    ensures x <= y ==> x * c <= y * c
  {
    assert x * c - y * c == (x - y) * c;
  }

  /** The share of a positive base damage that a non-negative defense lets
      through, base / (base + defense), lies in (0, 1]. */
  lemma Share(base: real, defense: real)
    requires base > 0.0 && defense >= 0.0
    ensures 0.0 < base / (base + defense) <= 1.0
  {
    var s := base + defense;
    var f := base / s;
    assert f * s == base;
    ScaleStrict(f, 0.0, s);
    ScaleStrict(f, 1.0, s);
  }
  /** More defense lets a smaller share through. */
  lemma ShareShrinks(base: real, d1: real, d2: real)
    requires base > 0.0 && 0.0 <= d1 < d2
    ensures base / (base + d2) < base / (base + d1)
  {
    var f1, f2 := base / (base + d1), base / (base + d2);
    assert f1 * (base + d1) == base && f2 * (base + d2) == base;
    Share(base, d1);
    ScaleStrict(d2, d1, f1);
    ScaleStrict(f2, f1, base + d2);
  }
  /** calculateDamage: nothing for a non-positive base; otherwise base²
      divided by base plus the defense, a negative defense counting as none.
      base² / (base + defense) is written base · (base / (base + defense)),
      the same real number, so that the damage reads as the base times the
      share the defense lets through. */
  function CalculateDamage(base: real, defense: real): (r: real)
    ensures base <= 0.0 ==> r == 0.0
    ensures base > 0.0 ==> 0.0 < r <= base && r / base == base / (base + Max(defense, 0.0))
  {
    if base <= 0.0 then 0.0
    else
      var d := if defense < 0.0 then 0.0 else defense;
      Share(base, d);
      ScaleStrict(base / (base + d), 0.0, base);
      ScaleStrict(base / (base + d), 1.0, base);
      Max(base * (base / (base + d)), 0.0)
  }
  /** Without defense the base damage goes through whole. */
  lemma NoDefenseNoReduction(base: real)
    requires base > 0.0
    ensures CalculateDamage(base, 0.0) == base
  {
  }
  /** A negative defense behaves exactly like no defense. */
  lemma NegativeDefenseIsNone(base: real, defense: real)
    requires defense < 0.0
    ensures CalculateDamage(base, defense) == CalculateDamage(base, 0.0)
  {
  }

  /** More defense always means strictly less damage. */
  lemma MoreDefenseLessDamage(base: real, d1: real, d2: real)
    requires base > 0.0 && 0.0 <= d1 < d2
    ensures CalculateDamage(base, d2) < CalculateDamage(base, d1)
  {
    var f1, f2 := base / (base + d1), base / (base + d2);
    ShareShrinks(base, d1, d2);
    ScaleStrict(f2, f1, base);
    DamageIsScaledShare(base, d1);
    DamageIsScaledShare(base, d2);
  }

  /** With a non-negative defense the damage is the base times its share. */
  lemma DamageIsScaledShare(base: real, d: real)
    requires base > 0.0 && d >= 0.0
    ensures CalculateDamage(base, d) == base / (base + d) * base
  {
    assert base / (base + d) * base == base * (base / (base + d));
  }

  /** Armour whose slots are all empty or untagged adds no defense, so hits
      land at full strength. */
  lemma UnarmouredTakesFullDamage(eq: Option<Equipment>, base: real)
    requires base > 0.0
    requires eq.Some? ==>
      && DefenseFromItem(eq.value.helmet) == 0.0 && DefenseFromItem(eq.value.chestplate) == 0.0
      && DefenseFromItem(eq.value.leggings) == 0.0 && DefenseFromItem(eq.value.boots) == 0.0
    ensures EquipmentDefense(eq) == 0.0
    ensures CalculateDamage(base, EquipmentDefense(eq)) == base
  {
    NoDefenseNoReduction(base);
  }

  // ---------------------------------------------------------------- entities

  /** A living entity as the damage rules see it. Everything but its health
      and its damage ticks is fixed for the span of one hit. */
  class LivingEntity {
    /** The player's name when the entity is a player. */
    const player: Option<string>
    const customName: Option<string>
    /** Whether the entity is a Monster, and its "mob_damage" tag. */
    const monster: bool
    const mobDamage: Option<real>
    const equipment: Option<Equipment>
    /** A player's attack cooldown. */
    const attackCooldown: real
    /** The height of its location. */
    const y: real
    var health: real
    var noDamageTicks: int
    var maximumNoDamageTicks: int

    constructor (player: Option<string>, customName: Option<string>, monster: bool, mobDamage: Option<real>,
                 equipment: Option<Equipment>, attackCooldown: real, y: real, health: real, noDamageTicks: int)
      ensures this.player == player && this.customName == customName
      ensures this.monster == monster && this.mobDamage == mobDamage
      ensures this.equipment == equipment && this.attackCooldown == attackCooldown
      ensures this.y == y && this.health == health && this.noDamageTicks == noDamageTicks
      ensures maximumNoDamageTicks == 20
    {
      this.player := player;
      this.customName := customName;
      this.monster := monster;
      this.mobDamage := mobDamage;
      this.equipment := equipment;
      this.attackCooldown := attackCooldown;
      this.y := y;
      this.health := health;
      this.noDamageTicks := noDamageTicks;
      this.maximumNoDamageTicks := 20;
    }
  }

  /** How the death routine sees the entity that dealt the damage. */
  function AsAttacker(e: LivingEntity?): (a: Attacker)
    ensures e == null <==> a.NoEntity?
    ensures a.PlayerEntity? <==> e != null && e.player.Some?
    ensures a.PlayerEntity? ==> a.playerName == e.player.value
    ensures a.OtherEntity? ==> a.customName == e.customName
  {
    if e == null then NoEntity
    else if e.player.Some? then PlayerEntity(e.player.value)
    else OtherEntity(e.customName)
  }

  /** The name PlayerManager is asked for: a player's name, otherwise "". */
  function NameOf(e: LivingEntity?): string
  {
    if e != null && e.player.Some? then e.player.value else ""
  }

  // ---------------------------------------------------------------- applyDamage

  /** Below this height an entity has fallen into the void. */
  const VOID_Y: real := -127.0

  /** What applyDamage does with a hit. */
  datatype Fate =
    | Spared
    /** Health lowered by the damage; the entity lives on. */
    | Wounded
    /** Anything but a registered player has its health set to zero. */
    | Zeroed
    /** A registered player goes through the death routine. */
    | Dies
    /** A registered player fell into the void but its team's spawn cannot
        be looked up, because the player has no team or no map is set:
        a NullPointerException escapes before the death routine. */
    | VoidSpawnThrows

  /** The decision applyDamage takes, from the target's height and health
      before the hit, the damage, whether the target is a player that
      PlayerManager knows, whether that player is teamless, and whether the
      game has a map. */
  function FateOf(y: real, health: real, damage: real, registered: bool, teamless: bool, mapSet: bool): Fate
  {
    if damage <= 0.0 then Spared
    else if y <= VOID_Y then
      if !registered then Zeroed else if teamless || !mapSet then VoidSpawnThrows else Dies
    else if health - damage <= 0.0 then
      if registered then Dies else Zeroed
    else Wounded
  }

  /** FateOf for a hit of `damage` on `target` as things stand. */
  function FateFor(target: LivingEntity, damage: real, gm: GameManager, pm: PlayerManager): Fate
    reads target`health, gm`gameMap, pm`players, pm.players.Values`team
  {
    FateOf(target.y, target.health, damage, RegisteredPlayer(target, pm), TeamlessTarget(target, pm), gm.gameMap.Some?)
  }

  /** The health an entity is left with: lowered by a wound, zero when
      zeroed, and untouched otherwise: the death routine and a void fall
      whose spawn lookup throws leave the health to the game. */
  function HealthAfter(fate: Fate, health: real, damage: real): real
  {
    match fate
    case Wounded => health - damage
    case Zeroed => 0.0
    case _ => health
  }

  /** A positive hit only wounds above the void and short of the remaining
      health; below the void or at zero health left it always ends the
      entity's life, through the death routine exactly for a registered
      player whose team spawn can be looked up; a registered player in the
      void without a team or without a map is the one case that throws. */
  lemma FateTable(y: real, health: real, damage: real, registered: bool, teamless: bool, mapSet: bool)
    requires damage > 0.0
    ensures var f := FateOf(y, health, damage, registered, teamless, mapSet);
      && (f == Wounded <==> y > VOID_Y && health - damage > 0.0)
      && (f == Zeroed <==> !registered && (y <= VOID_Y || health - damage <= 0.0))
      && (f == Dies <==> registered && (y <= VOID_Y ==> !teamless && mapSet) && (y <= VOID_Y || health - damage <= 0.0))
      && (f == VoidSpawnThrows <==> registered && (teamless || !mapSet) && y <= VOID_Y)
      && f != Spared
  {
  }

  /** The registered player a hit lands on: the target's name ("" for an
      entity that is not a player) looked up in PlayerManager. */
  ghost function Struck(target: LivingEntity, pm: PlayerManager): set<GamePlayer>
    reads pm
  {
    if NameOf(target) in pm.players then {pm.players[NameOf(target)]} else {}
  }

  /** The attacker ledger of that player. */
  ghost function StruckLedger(target: LivingEntity, pm: PlayerManager): set<OrderedAttackerCache>
    reads pm
  {
    if NameOf(target) in pm.players then {pm.players[NameOf(target)].attackers} else {}
  }

  /** Whether the target is a player that PlayerManager knows. */
  predicate RegisteredPlayer(target: LivingEntity, pm: PlayerManager)
    reads pm`players
  {
    target.player.Some? && target.player.value in pm.players
  }

  /** Whether that player has no team. */
  predicate TeamlessTarget(target: LivingEntity, pm: PlayerManager)
    reads pm`players, pm.players.Values`team
  {
    NameOf(target) in pm.players && pm.players[NameOf(target)].team == null
  }

  /** Who a hit is credited to in the target's ledger: the attacker, when
      both it and the target are registered players. */
  function Hitter(target: LivingEntity, attacker: LivingEntity?, pm: PlayerManager): (h: Option<string>)
    reads pm
    ensures h.Some? <==> NameOf(attacker) in pm.players && NameOf(target) in pm.players
    ensures h.Some? ==> h.value == NameOf(attacker)
  {
    if NameOf(attacker) in pm.players && NameOf(target) in pm.players then Some(NameOf(attacker)) else None
  }

  /** The ledger after a hit: the hitter's entry grows by the damage. */
  function AfterHit(ledger: map<string, AttackerEntry>, hitter: Option<string>, damage: real, now: int)
    : (r: map<string, AttackerEntry>)
    ensures hitter.None? ==> r == ledger
    ensures hitter.Some? ==> r == Record(ledger, hitter.value, damage, now)
  {
    if hitter.Some? then Record(ledger, hitter.value, damage, now) else ledger
  }

  /** The sweep the death routine makes keeps the entry a hit just wrote:
      the hit that kills is credited too. */
  lemma KillingBlowKept(ledger: map<string, AttackerEntry>, a: string, damage: real, now: int, ttl: int)
    requires ttl >= 0
    ensures var swept := Live(Record(ledger, a, damage, now), now, ttl);
      a in swept && swept[a] == AttackerEntry(a, Prior(ledger, a) + damage, now)
  {
  }

  /** The target's ledger is ready for a hit. */
  ghost predicate LedgerReady(target: LivingEntity, pm: PlayerManager)
    reads pm, StruckLedger(target, pm)
  {
    NameOf(target) in pm.players ==> pm.players[NameOf(target)].attackers.Valid()
  }

  /** What the death routine leaves behind, given the victim's online flag,
      the counters and the victim's ledger as they were when it started, and
      who it credits with the kill: an offline victim is reported and
      nothing else happens; otherwise the victim is down and the counters
      are those of AfterDeath; the ledger is swept when a registered player
      killed, and kept as it was otherwise. */
  ghost predicate DeathRan(victim: GamePlayer, pm: PlayerManager, now: int, wasOnline: bool,
                           tally: Tally, ledger: map<string, AttackerEntry>, killer: Option<string>,
                           outcome: DeathOutcome)
    reads victim, victim.attackers, pm, pm.Trackers()
  {
    && (outcome == VictimOffline <==> !wasOnline)
    && (wasOnline ==> !victim.alive && pm.Tally() == AfterDeath(tally, victim.name, killer, ledger.Keys))
    && victim.attackers.playerMap ==
         (if wasOnline && killer.Some? then Live(ledger, now, victim.attackers.ttlMillis) else ledger)
  }

  /** applyDamage: a non-positive amount does nothing. Otherwise a hit between
      two registered players goes into the target's ledger first, so a
      killing blow is recorded too; then FateOf decides. A death runs the
      death routine on the ledger as the hit left it. */
  method ApplyDamage(target: LivingEntity, attacker: LivingEntity?, damage: real,
                     gm: GameManager, pm: PlayerManager, now: int)
    returns (fate: Fate, death: Option<DeathOutcome>, respawnee: Option<GamePlayer>)
    requires gm.Valid() && pm.Valid() && LedgerReady(target, pm)
    modifies target`health, Struck(target, pm)`alive
    modifies StruckLedger(target, pm)`playerMap, StruckLedger(target, pm)`damageMap
    modifies pm.Trackers()`stats, pm.Teams()`souls
    ensures unchanged(pm) && LedgerReady(target, pm)
    ensures fate == old(FateFor(target, damage, gm, pm))
    ensures death.Some? <==> fate == Dies
    ensures respawnee.Some? ==> fate == Dies
    ensures target.health == HealthAfter(fate, old(target.health), damage)
    ensures fate != Dies ==> pm.Tally() == old(pm.Tally()) && pm.Souls() == old(pm.Souls())
    ensures fate == Spared ==> unchanged(Struck(target, pm), StruckLedger(target, pm))
    ensures fate != Spared && NameOf(target) in pm.players ==>
      var victim := pm.players[NameOf(target)];
      var hit := AfterHit(old(victim.attackers.playerMap), Hitter(target, attacker, pm), damage, now);
      && (fate != Dies ==> unchanged(victim) && victim.attackers.playerMap == hit)
      && (fate == Dies ==> DeathRan(victim, pm, now, old(victim.online), old(pm.Tally()), hit,
                                    Killer(AsAttacker(attacker), pm.players), death.value))
  {
    if damage <= 0.0 {
      return Spared, None, None;
    }
    var found := pm.GetPlayer(NameOf(target));
    if found.None? {
      label start:
      fate := Settle(target, damage, false, false, gm.gameMap.Some?);
      pm.TallyKept@start();
      pm.SoulsKept@start();
      return fate, None, None;
    }
    fate, death, respawnee := HitPlayer(target, found.value, attacker, damage, gm, pm, now);
  }

  /** applyDamage as the event handlers see it: what it decided and the
      health it left. */
  method Apply(target: LivingEntity, attacker: LivingEntity?, damage: real,
               gm: GameManager, pm: PlayerManager, now: int) returns (fate: Fate)
    requires gm.Valid() && pm.Valid() && LedgerReady(target, pm)
    modifies target`health, Struck(target, pm)`alive
    modifies StruckLedger(target, pm)`playerMap, StruckLedger(target, pm)`damageMap
    modifies pm.Trackers()`stats, pm.Teams()`souls
    ensures unchanged(pm)
    ensures fate == old(FateFor(target, damage, gm, pm))
    ensures target.health == HealthAfter(fate, old(target.health), damage)
  {
    var death, respawnee;
    fate, death, respawnee := ApplyDamage(target, attacker, damage, gm, pm, now);
  }

  /** Every outcome but the death routine: the health is lowered or set to
      zero, or, for a player in the void whose spawn lookup throws, left as
      it is. */
  method Settle(target: LivingEntity, damage: real, registered: bool, teamless: bool, mapSet: bool) returns (fate: Fate)
    requires damage > 0.0 && FateOf(target.y, target.health, damage, registered, teamless, mapSet) != Dies
    modifies target`health
    ensures fate == FateOf(target.y, old(target.health), damage, registered, teamless, mapSet)
    ensures target.health == HealthAfter(fate, old(target.health), damage)
  {
    if target.y > VOID_Y && target.health - damage > 0.0 {
      target.health := target.health - damage;
      return Wounded;
    }
    if !registered {
      target.health := 0.0;
      return Zeroed;
    }
    return VoidSpawnThrows;
  }

  /** A hit on an entity filed in PlayerManager under the target's name: the
      attacker's entry in its ledger, then the outcome. */
  method HitPlayer(target: LivingEntity, victim: GamePlayer, attacker: LivingEntity?, damage: real,
                   gm: GameManager, pm: PlayerManager, now: int)
    returns (fate: Fate, death: Option<DeathOutcome>, respawnee: Option<GamePlayer>)
    requires damage > 0.0 && gm.Valid() && pm.Valid() && victim.attackers.Valid()
    requires NameOf(target) in pm.players && pm.players[NameOf(target)] == victim
    modifies target`health, victim`alive, victim.attackers`playerMap, victim.attackers`damageMap
    modifies pm.Trackers()`stats, pm.Teams()`souls
    ensures unchanged(pm) && victim.attackers.Valid()
    ensures fate == old(FateFor(target, damage, gm, pm))
    ensures fate != Spared
    ensures death.Some? <==> fate == Dies
    ensures respawnee.Some? ==> fate == Dies
    ensures target.health == HealthAfter(fate, old(target.health), damage)
    ensures fate != Dies ==>
      && unchanged(victim) && pm.Tally() == old(pm.Tally()) && pm.Souls() == old(pm.Souls())
      && victim.attackers.playerMap == AfterHit(old(victim.attackers.playerMap), Hitter(target, attacker, pm), damage, now)
    ensures fate == Dies ==>
      DeathRan(victim, pm, now, old(victim.online), old(pm.Tally()),
               AfterHit(old(victim.attackers.playerMap), Hitter(target, attacker, pm), damage, now),
               Killer(AsAttacker(attacker), pm.players), death.value)
  {
    RecordHit(target, victim, attacker, damage, pm, now);
    fate, death, respawnee := Land(target, victim, attacker, damage, gm, pm, now);
  }

  /** The attacker's entry in a registered target's ledger, when the
      attacker is a registered player too. */
  method RecordHit(target: LivingEntity, victim: GamePlayer, attacker: LivingEntity?, damage: real,
                   pm: PlayerManager, now: int)
    requires pm.Valid() && victim.attackers.Valid()
    requires NameOf(target) in pm.players && pm.players[NameOf(target)] == victim
    modifies victim.attackers`playerMap, victim.attackers`damageMap
    ensures unchanged(pm, victim, target) && victim.attackers.Valid()
    ensures victim.attackers.playerMap == AfterHit(old(victim.attackers.playerMap), Hitter(target, attacker, pm), damage, now)
    ensures pm.Tally() == old(pm.Tally()) && pm.Souls() == old(pm.Souls())
  {
    var hitter := pm.GetPlayer(NameOf(attacker));
    if hitter.Some? {
      label start:
      victim.AddAttacker(hitter.value, damage, now);
      pm.TallyKept@start();
      pm.SoulsKept@start();
    }
  }

  /** The outcome of a hit on a registered entity once its ledger is up to
      date. */
  method Land(target: LivingEntity, victim: GamePlayer, attacker: LivingEntity?, damage: real,
              gm: GameManager, pm: PlayerManager, now: int)
    returns (fate: Fate, death: Option<DeathOutcome>, respawnee: Option<GamePlayer>)
    requires damage > 0.0 && gm.Valid() && pm.Valid() && victim.attackers.Valid()
    requires NameOf(target) in pm.players && pm.players[NameOf(target)] == victim
    modifies target`health, victim`alive, victim.attackers`playerMap, victim.attackers`damageMap
    modifies pm.Trackers()`stats, pm.Teams()`souls
    ensures unchanged(pm) && victim.attackers.Valid()
    ensures fate == old(FateFor(target, damage, gm, pm))
    ensures fate != Spared
    ensures death.Some? <==> fate == Dies
    ensures respawnee.Some? ==> fate == Dies
    ensures target.health == HealthAfter(fate, old(target.health), damage)
    ensures fate != Dies ==>
      unchanged(victim, victim.attackers) && pm.Tally() == old(pm.Tally()) && pm.Souls() == old(pm.Souls())
    ensures fate == Dies ==>
      DeathRan(victim, pm, now, old(victim.online), old(pm.Tally()), old(victim.attackers.playerMap),
               Killer(AsAttacker(attacker), pm.players), death.value)
  {
    if FateFor(target, damage, gm, pm) != Dies {
      label start:
      fate := Settle(target, damage, RegisteredPlayer(target, pm), TeamlessTarget(target, pm), gm.gameMap.Some?);
      pm.TallyKept@start();
      pm.SoulsKept@start();
      return fate, None, None;
    }
    var outcome;
    outcome, respawnee := Perish(victim, AsAttacker(attacker), gm, pm, now);
    return Dies, Some(outcome), respawnee;
  }

  /** The death routine, as applyDamage sees it. */
  method Perish(victim: GamePlayer, attacker: Attacker, gm: GameManager, pm: PlayerManager, now: int)
    returns (death: DeathOutcome, respawnee: Option<GamePlayer>)
    requires gm.Valid() && pm.Valid() && victim.attackers.Valid()
    requires victim.name in pm.players && pm.players[victim.name] == victim
    modifies victim`alive, victim.attackers`playerMap, victim.attackers`damageMap, pm.Trackers()`stats, pm.Teams()`souls
    ensures unchanged(pm) && victim.attackers.Valid()
    ensures DeathRan(victim, pm, now, old(victim.online), old(pm.Tally()), old(victim.attackers.playerMap),
                     Killer(attacker, pm.players), death)
  {
    death, respawnee := gm.Death(victim, attacker, pm, now);
  }
}

=== FILE: entity_listener.dfy ===
/** EntityListener: the event handlers that take every hit away from the
    server's own damage handling and route it through applyDamage, and the
    bow handler that tags an arrow with its damage. */
module Listener {
  import opened Wrappers
  import opened AttackerLedger
  import opened Game
  import opened Damage

  /** A fired projectile and its projectile-damage tag. */
  class Projectile {
    var projectileDamage: Option<real>

    constructor (projectileDamage: Option<real>)
      ensures this.projectileDamage == projectileDamage
    {
      this.projectileDamage := projectileDamage;
    }
  }

  /** What dealt the damage of an entity-on-entity hit. */
  datatype Damager =
    | Living(entity: LivingEntity)
    /** An arrow and its shooter; the shooter is null when it is not a
        living entity. */
    | Arrow(projectile: Projectile, shooter: LivingEntity?, critical: bool)
    /** Any other entity. */
    | Inanimate

  /** A damage event. `damager` is present exactly for an entity-on-entity
      event; `entity` is null when the damaged entity is not living. */
  class DamageEvent {
    const entity: LivingEntity?
    const damager: Option<Damager>
    /** Whether the server reports the hit as critical. */
    const critical: bool
    /** The damage the server would apply on its own. */
    const finalDamage: real
    var cancelled: bool
    var damage: real

    constructor (entity: LivingEntity?, damager: Option<Damager>, critical: bool, finalDamage: real, damage: real)
      ensures this.entity == entity && this.damager == damager && this.critical == critical
      ensures this.finalDamage == finalDamage && this.damage == damage && !cancelled
    {
      this.entity := entity;
      this.damager := damager;
      this.critical := critical;
      this.finalDamage := finalDamage;
      this.damage := damage;
      this.cancelled := false;
    }
  }

  /** What a handler does with an event: leaves it alone, cancels it, or
      lands a hit of `amount` through applyDamage. */
  datatype Verdict = Ignored | Cancelled | Strike(attacker: LivingEntity?, amount: real, byArrow: bool)

  /** The damage of an arrow before defense: its tag, half again when critical. */
  function ArrowBase(tag: real, critical: bool): real
  {
    if critical then tag * 1.5 else tag
  }

  /** The damage of a melee hit before defense: a monster's "mob_damage" tag
      (one when untagged), plus the main-hand item's damage when the attacker
      has equipment, half again on a critical hit, and scaled by a player's
      attack cooldown. */
  function MeleeBase(attacker: LivingEntity, critical: bool): real
  {
    var mob := if attacker.monster then (if attacker.mobDamage.Some? then attacker.mobDamage.value else 1.0) else 0.0;
    var armed := if attacker.equipment.Some? then mob + DamageFromItem(Some(attacker.equipment.value.mainHand)) else mob;
    var hit := if critical then armed * 1.5 else armed;
    if attacker.player.Some? then hit * attacker.attackCooldown else hit
  }

  /** Friendly fire: both entities are players PlayerManager knows, on the
      same team; two teamless players count as the same team. */
  predicate Friendly(attacker: LivingEntity, victim: LivingEntity, pm: PlayerManager)
    reads pm`players, pm.players.Values`team
  {
    && NameOf(attacker) in pm.players && NameOf(victim) in pm.players
    && pm.players[NameOf(attacker)].team == pm.players[NameOf(victim)].team
  }

  /** The projectile an event's damager carries, if any. */
  function Arrows(ev: DamageEvent): set<Projectile>
  {
    if ev.damager.Some? && ev.damager.value.Arrow? then {ev.damager.value.projectile} else {}
  }

  /** onDamage's decision, from the event as it arrives: cancelled events and
      entity-on-entity events are left alone, a non-living entity or one
      still in its damage ticks cancels, and anything else lands the damage
      the server computed, with no attacker. */
  function PlainVerdict(ev: DamageEvent): (v: Verdict)
    reads ev, ev.entity
  {
    if ev.cancelled || ev.damager.Some? then Ignored
    else if ev.entity == null || ev.entity.noDamageTicks > 0 then Cancelled
    else Strike(null, ev.finalDamage, false)
  }

  /** onDamageByEntity's decision, from the event as it arrives and the game
      stage. The guards come in the handler's order: cancelled, not living,
      no combat in this stage, damage ticks; then the damager decides. */
  function ByEntityVerdict(ev: DamageEvent, stage: Stage, pm: PlayerManager): (v: Verdict)
    requires ev.damager.Some?
    reads ev`cancelled, Hurt(ev)`noDamageTicks, Arrows(ev)`projectileDamage, pm`players, pm.players.Values`team
  {
    if ev.cancelled then Ignored
    else if ev.entity == null || !CanPvp(stage) || ev.entity.noDamageTicks > 0 then Cancelled
    else Aim(ev, pm)
  }

  /** The damager's part of onDamageByEntity's decision, once the guards on
      the damaged entity have passed: an arrow needs a living shooter and a
      projectile-damage tag, any other non-living damager cancels, and a
      melee hit between friends cancels. Both kinds of hit are reduced by the
      victim's equipment defense. */
  function Aim(ev: DamageEvent, pm: PlayerManager): (v: Verdict)
    requires ev.damager.Some? && ev.entity != null
    reads Arrows(ev)`projectileDamage, pm`players, pm.players.Values`team
  {
    var defense := EquipmentDefense(ev.entity.equipment);
    match ev.damager.value
    case Inanimate => Cancelled
    case Arrow(p, shooter, critical) =>
      if shooter == null || p.projectileDamage.None? then Cancelled
      else Strike(shooter, CalculateDamage(ArrowBase(p.projectileDamage.value, critical), defense), true)
    case Living(attacker) =>
      if Friendly(attacker, ev.entity, pm) then Cancelled
      else Strike(attacker, CalculateDamage(MeleeBase(attacker, ev.critical), defense), false)
  }

  /** Teammates, and two teamless players, never hurt each other. */
  lemma FriendlyFireNeverLands(ev: DamageEvent, stage: Stage, pm: PlayerManager)
    requires ev.damager.Some? && ev.damager.value.Living? && ev.entity != null
    requires Friendly(ev.damager.value.entity, ev.entity, pm)
    ensures !ByEntityVerdict(ev, stage, pm).Strike?
  {
  }

  /** Outside a match in progress, no entity-on-entity hit lands. */
  lemma NoCombatOutsideMatch(ev: DamageEvent, stage: Stage, pm: PlayerManager)
    requires ev.damager.Some? && stage != InProgress
    ensures ByEntityVerdict(ev, stage, pm) == (if ev.cancelled then Ignored else Cancelled)
  {
  }

  /** An entity still in its damage ticks takes no hit from either handler. */
  lemma TicksShield(ev: DamageEvent, stage: Stage, pm: PlayerManager)
    requires ev.entity != null && ev.entity.noDamageTicks > 0
    ensures !PlainVerdict(ev).Strike?
    ensures ev.damager.Some? ==> !ByEntityVerdict(ev, stage, pm).Strike?
  {
  }

  /** The two handlers never both act on one event: onDamage leaves every
      entity-on-entity event to onDamageByEntity. */
  lemma HandlersDisjoint(ev: DamageEvent)
    requires ev.damager.Some?
    ensures PlainVerdict(ev) == Ignored
  {
  }

  /** A landed hit is never negative and never more than its positive base:
      armour only ever takes damage away. */
  lemma StrikeWithinBase(ev: DamageEvent, stage: Stage, pm: PlayerManager)
    requires ev.damager.Some? && ByEntityVerdict(ev, stage, pm).Strike?
    ensures var v := ByEntityVerdict(ev, stage, pm);
      && v.amount >= 0.0
      && (v.byArrow <==> ev.damager.value.Arrow?)
      && (v.byArrow ==> v.amount <= Max(ArrowBase(ev.damager.value.projectile.projectileDamage.value, ev.damager.value.critical), 0.0))
      && (!v.byArrow ==> v.amount <= Max(MeleeBase(ev.damager.value.entity, ev.critical), 0.0))
  {
  }

  /** isInvulnerable: shortens the entity's damage-tick window to 10 and
      reports whether it still has damage ticks. */
  method IsInvulnerable(e: LivingEntity) returns (b: bool)
    modifies e`maximumNoDamageTicks
    ensures e.maximumNoDamageTicks == 10
    ensures b <==> e.noDamageTicks > 0
  {
    e.maximumNoDamageTicks := 10;
    b := e.noDamageTicks > 0;
  }

  /** The living entity an event hits, as a set. */
  function Hurt(ev: DamageEvent): set<LivingEntity>
  {
    if ev.entity != null then {ev.entity} else {}
  }

  /** The registered player an event hits. */
  ghost function HurtPlayers(ev: DamageEvent, pm: PlayerManager): set<GamePlayer>
    reads pm
  {
    if ev.entity != null then Struck(ev.entity, pm) else {}
  }

  /** That player's ledger. */
  ghost function HurtLedgers(ev: DamageEvent, pm: PlayerManager): set<OrderedAttackerCache>
    reads pm
  {
    if ev.entity != null then StruckLedger(ev.entity, pm) else {}
  }

  /** onDamage: a hit without an attacker entity. */
  method OnDamage(ev: DamageEvent, gm: GameManager, pm: PlayerManager, now: int)
    returns (verdict: Verdict, fate: Option<Fate>)
    requires gm.Valid() && pm.Valid() && (ev.entity != null ==> LedgerReady(ev.entity, pm))
    modifies ev`cancelled, ev`damage, Hurt(ev)`maximumNoDamageTicks, Hurt(ev)`health
    modifies HurtPlayers(ev, pm)`alive, HurtLedgers(ev, pm)`playerMap, HurtLedgers(ev, pm)`damageMap
    modifies pm.Trackers()`stats, pm.Teams()`souls
    ensures unchanged(pm)
    ensures verdict == old(PlainVerdict(ev))
    ensures fate.Some? <==> verdict.Strike?
    ensures !verdict.Strike? ==>
      && ev.cancelled == (old(ev.cancelled) || verdict == Cancelled) && ev.damage == old(ev.damage) && unchanged(Hurt(ev)`health)
      && pm.Tally() == old(pm.Tally()) && pm.Souls() == old(pm.Souls())
    ensures verdict == Ignored ==> unchanged(Hurt(ev))
    ensures verdict == Cancelled && ev.entity != null ==> ev.entity.maximumNoDamageTicks == 10
    ensures verdict.Strike? ==>
      && !ev.cancelled && ev.entity.maximumNoDamageTicks == 10
      && fate == Some(old(FateFor(ev.entity, verdict.amount, gm, pm)))
      && ev.entity.health == HealthAfter(fate.value, old(ev.entity.health), verdict.amount)
      && ev.damage == (if fate.value == VoidSpawnThrows then old(ev.damage) else 0.0)
  {
    verdict := PlainVerdict(ev);
    if ev.cancelled || ev.damager.Some? {
      return verdict, None;
    }
    if ev.entity == null {
      ev.cancelled := true;
      return verdict, None;
    }
    fate := ShieldThenHit(ev, null, ev.finalDamage, gm, pm, now);
  }

  /** The damage-tick check, then the hit: an entity still in its damage
      ticks cancels the event. */
  method ShieldThenHit(ev: DamageEvent, attacker: LivingEntity?, amount: real, gm: GameManager, pm: PlayerManager, now: int)
    returns (fate: Option<Fate>)
    requires ev.entity != null && !ev.cancelled
    requires gm.Valid() && pm.Valid() && LedgerReady(ev.entity, pm)
    modifies ev`cancelled, ev`damage, ev.entity`maximumNoDamageTicks, ev.entity`health
    modifies Struck(ev.entity, pm)`alive, StruckLedger(ev.entity, pm)`playerMap, StruckLedger(ev.entity, pm)`damageMap
    modifies pm.Trackers()`stats, pm.Teams()`souls
    ensures unchanged(pm) && ev.entity.maximumNoDamageTicks == 10
    ensures fate.None? <==> old(ev.entity.noDamageTicks) > 0
    ensures fate.None? ==>
      && ev.cancelled && ev.damage == old(ev.damage) && ev.entity.health == old(ev.entity.health)
      && pm.Tally() == old(pm.Tally()) && pm.Souls() == old(pm.Souls())
    ensures fate.Some? ==>
      && !ev.cancelled
      && fate == Some(old(FateFor(ev.entity, amount, gm, pm)))
      && ev.entity.health == HealthAfter(fate.value, old(ev.entity.health), amount)
      && ev.damage == (if fate.value == VoidSpawnThrows then old(ev.damage) else 0.0)
  {
    var blocked := Shield(ev, pm);
    if blocked {
      return None;
    }
    fate := Hit(ev, attacker, amount, gm, pm, now);
  }

  /** isInvulnerable on the event's entity; an entity still in its damage
      ticks cancels the event. */
  method Shield(ev: DamageEvent, pm: PlayerManager) returns (blocked: bool)
    requires ev.entity != null
    modifies ev`cancelled, ev.entity`maximumNoDamageTicks
    ensures unchanged(pm) && unchanged(ev`damage, ev.entity`health)
    ensures ev.entity.maximumNoDamageTicks == 10
    ensures blocked <==> ev.entity.noDamageTicks > 0
    ensures ev.cancelled == (old(ev.cancelled) || blocked)
    ensures pm.Tally() == old(pm.Tally()) && pm.Souls() == old(pm.Souls())
    ensures ev.damager.Some? ==> Aim(ev, pm) == old(Aim(ev, pm))
  {
    label start:
    blocked := IsInvulnerable(ev.entity);
    if blocked {
      ev.cancelled := true;
    }
    pm.TallyKept@start();
    pm.SoulsKept@start();
  }

  /** applyDamage on the event's entity; an exception out of it (a void
      fall with no team or no map) leaves the event's damage as it was. */
  method Hit(ev: DamageEvent, attacker: LivingEntity?, amount: real, gm: GameManager, pm: PlayerManager, now: int)
    returns (fate: Option<Fate>)
    requires ev.entity != null
    requires gm.Valid() && pm.Valid() && LedgerReady(ev.entity, pm)
    modifies ev`damage, ev.entity`health
    modifies Struck(ev.entity, pm)`alive, StruckLedger(ev.entity, pm)`playerMap, StruckLedger(ev.entity, pm)`damageMap
    modifies pm.Trackers()`stats, pm.Teams()`souls
    ensures unchanged(pm) && unchanged(ev`cancelled, ev.entity`maximumNoDamageTicks)
    ensures fate == Some(old(FateFor(ev.entity, amount, gm, pm)))
    ensures ev.entity.health == HealthAfter(fate.value, old(ev.entity.health), amount)
    ensures ev.damage == (if fate.value == VoidSpawnThrows then old(ev.damage) else 0.0)
  {
    var f := Apply(ev.entity, attacker, amount, gm, pm, now);
    fate := Some(f);
    if f != VoidSpawnThrows {
      ev.damage := 0.0;
    }
  }

  /** onDamageByEntity: a hit by another entity. The damage-tick window is
      shortened only for a living entity hit while combat is allowed. An
      arrow's hit clears the event's damage after applyDamage, a melee hit
      before it, so an exception out of applyDamage (a void fall
      with no team or no map) leaves the event's damage only for an arrow. */
  method OnDamageByEntity(ev: DamageEvent, gm: GameManager, pm: PlayerManager, now: int)
    returns (verdict: Verdict, fate: Option<Fate>)
    requires ev.damager.Some?
    requires gm.Valid() && pm.Valid() && (ev.entity != null ==> LedgerReady(ev.entity, pm))
    modifies ev`cancelled, ev`damage, Hurt(ev)`maximumNoDamageTicks, Hurt(ev)`health
    modifies HurtPlayers(ev, pm)`alive, HurtLedgers(ev, pm)`playerMap, HurtLedgers(ev, pm)`damageMap
    modifies pm.Trackers()`stats, pm.Teams()`souls
    ensures unchanged(pm)
    ensures verdict == old(ByEntityVerdict(ev, gm.stage, pm))
    ensures fate.Some? <==> verdict.Strike?
    ensures !verdict.Strike? ==>
      && ev.cancelled == (old(ev.cancelled) || verdict == Cancelled) && ev.damage == old(ev.damage) && unchanged(Hurt(ev)`health)
      && pm.Tally() == old(pm.Tally()) && pm.Souls() == old(pm.Souls())
    ensures verdict == Ignored ==> unchanged(Hurt(ev))
    ensures ev.entity != null && !old(ev.cancelled) && CanPvp(old(gm.stage)) ==> ev.entity.maximumNoDamageTicks == 10
    ensures !CanPvp(old(gm.stage)) ==> unchanged(Hurt(ev))
    ensures verdict.Strike? ==>
      && !ev.cancelled
      && fate == Some(old(FateFor(ev.entity, verdict.amount, gm, pm)))
      && ev.entity.health == HealthAfter(fate.value, old(ev.entity.health), verdict.amount)
      && ev.damage == (if fate.value == VoidSpawnThrows && verdict.byArrow then old(ev.damage) else 0.0)
  {
    verdict := ByEntityVerdict(ev, gm.stage, pm);
    if ev.cancelled {
      return verdict, None;
    }
    if ev.entity == null || !CanPvp(gm.stage) {
      ev.cancelled := true;
      return verdict, None;
    }
    fate := Engage(ev, gm, pm, now);
  }

  /** onDamageByEntity once the event is live, its entity living and combat
      allowed: the damage-tick check, then the damager's branch. */
  method Engage(ev: DamageEvent, gm: GameManager, pm: PlayerManager, now: int)
    returns (fate: Option<Fate>)
    requires ev.damager.Some? && ev.entity != null && !ev.cancelled
    requires gm.Valid() && pm.Valid() && LedgerReady(ev.entity, pm)
    modifies ev`cancelled, ev`damage, ev.entity`maximumNoDamageTicks, ev.entity`health
    modifies Struck(ev.entity, pm)`alive, StruckLedger(ev.entity, pm)`playerMap, StruckLedger(ev.entity, pm)`damageMap
    modifies pm.Trackers()`stats, pm.Teams()`souls
    ensures unchanged(pm) && ev.entity.maximumNoDamageTicks == 10
    ensures var v := old(if ev.entity.noDamageTicks > 0 then Cancelled else Aim(ev, pm));
      && (fate.Some? <==> v.Strike?)
      && (!v.Strike? ==>
        && ev.cancelled && ev.damage == old(ev.damage) && ev.entity.health == old(ev.entity.health)
        && pm.Tally() == old(pm.Tally()) && pm.Souls() == old(pm.Souls()))
      && (v.Strike? ==>
        && !ev.cancelled
        && fate == Some(old(FateFor(ev.entity, v.amount, gm, pm)))
        && ev.entity.health == HealthAfter(fate.value, old(ev.entity.health), v.amount)
        && ev.damage == (if fate.value == VoidSpawnThrows && v.byArrow then old(ev.damage) else 0.0))
  {
    var blocked := Shield(ev, pm);
    if blocked {
      return None;
    }
    fate := Dispatch(ev, gm, pm, now);
  }

  /** The damager's branch of onDamageByEntity. */
  method Dispatch(ev: DamageEvent, gm: GameManager, pm: PlayerManager, now: int)
    returns (fate: Option<Fate>)
    requires ev.damager.Some? && ev.entity != null && !ev.cancelled
    requires gm.Valid() && pm.Valid() && LedgerReady(ev.entity, pm)
    modifies ev`cancelled, ev`damage, ev.entity`health
    modifies Struck(ev.entity, pm)`alive, StruckLedger(ev.entity, pm)`playerMap, StruckLedger(ev.entity, pm)`damageMap
    modifies pm.Trackers()`stats, pm.Teams()`souls
    ensures unchanged(pm) && unchanged(ev.entity`maximumNoDamageTicks)
    ensures var v := old(Aim(ev, pm));
      && (fate.Some? <==> v.Strike?)
      && (!v.Strike? ==>
        && ev.cancelled && ev.damage == old(ev.damage) && ev.entity.health == old(ev.entity.health)
        && pm.Tally() == old(pm.Tally()) && pm.Souls() == old(pm.Souls()))
      && (v.Strike? ==>
        && !ev.cancelled
        && fate == Some(old(FateFor(ev.entity, v.amount, gm, pm)))
        && ev.entity.health == HealthAfter(fate.value, old(ev.entity.health), v.amount)
        && ev.damage == (if fate.value == VoidSpawnThrows && v.byArrow then old(ev.damage) else 0.0))
  {
    var damager := ev.damager.value;
    if damager.Arrow? {
      fate := Shoot(ev, damager.projectile, damager.shooter, damager.critical, gm, pm, now);
    } else if damager.Living? {
      fate := Melee(ev, damager.entity, gm, pm, now);
    } else {
      label start:
      ev.cancelled := true;
      pm.TallyKept@start();
      pm.SoulsKept@start();
      fate := None;
    }
  }

  /** The arrow branch of onDamageByEntity. */
  method Shoot(ev: DamageEvent, p: Projectile, shooter: LivingEntity?, critical: bool, gm: GameManager, pm: PlayerManager, now: int)
    returns (fate: Option<Fate>)
    requires ev.damager == Some(Arrow(p, shooter, critical)) && ev.entity != null && !ev.cancelled
    requires gm.Valid() && pm.Valid() && LedgerReady(ev.entity, pm)
    modifies ev`cancelled, ev`damage, ev.entity`health
    modifies Struck(ev.entity, pm)`alive, StruckLedger(ev.entity, pm)`playerMap, StruckLedger(ev.entity, pm)`damageMap
    modifies pm.Trackers()`stats, pm.Teams()`souls
    ensures unchanged(pm) && unchanged(ev.entity`maximumNoDamageTicks)
    ensures var v := old(Aim(ev, pm));
      && (fate.Some? <==> v.Strike?)
      && (!v.Strike? ==>
        && ev.cancelled && ev.damage == old(ev.damage) && ev.entity.health == old(ev.entity.health)
        && pm.Tally() == old(pm.Tally()) && pm.Souls() == old(pm.Souls()))
      && (v.Strike? ==>
        && !ev.cancelled && v.byArrow
        && fate == Some(old(FateFor(ev.entity, v.amount, gm, pm)))
        && ev.entity.health == HealthAfter(fate.value, old(ev.entity.health), v.amount)
        && ev.damage == (if fate.value == VoidSpawnThrows then old(ev.damage) else 0.0))
  {
    if shooter == null || p.projectileDamage.None? {
      label start:
      ev.cancelled := true;
      pm.TallyKept@start();
      pm.SoulsKept@start();
      return None;
    }
    var amount := CalculateDamage(ArrowBase(p.projectileDamage.value, critical), EquipmentDefense(ev.entity.equipment));
    fate := Hit(ev, shooter, amount, gm, pm, now);
  }

  /** The melee branch of onDamageByEntity: friendly fire cancels; otherwise
      the event's damage is cleared before the hit lands. */
  method Melee(ev: DamageEvent, attacker: LivingEntity, gm: GameManager, pm: PlayerManager, now: int)
    returns (fate: Option<Fate>)
    requires ev.damager == Some(Living(attacker)) && ev.entity != null && !ev.cancelled
    requires gm.Valid() && pm.Valid() && LedgerReady(ev.entity, pm)
    modifies ev`cancelled, ev`damage, ev.entity`health
    modifies Struck(ev.entity, pm)`alive, StruckLedger(ev.entity, pm)`playerMap, StruckLedger(ev.entity, pm)`damageMap
    modifies pm.Trackers()`stats, pm.Teams()`souls
    ensures unchanged(pm) && unchanged(ev.entity`maximumNoDamageTicks)
    ensures var v := old(Aim(ev, pm));
      && (fate.Some? <==> v.Strike?)
      && (!v.Strike? ==>
        && ev.cancelled && ev.damage == old(ev.damage) && ev.entity.health == old(ev.entity.health)
        && pm.Tally() == old(pm.Tally()) && pm.Souls() == old(pm.Souls()))
      && (v.Strike? ==>
        && !ev.cancelled && !v.byArrow && ev.damage == 0.0
        && fate == Some(old(FateFor(ev.entity, v.amount, gm, pm)))
        && ev.entity.health == HealthAfter(fate.value, old(ev.entity.health), v.amount))
  {
    var mine := pm.GetPlayer(NameOf(attacker));
    var theirs := pm.GetPlayer(NameOf(ev.entity));
    if mine.Some? && theirs.Some? && mine.value.team == theirs.value.team {
      label start:
      ev.cancelled := true;
      pm.TallyKept@start();
      pm.SoulsKept@start();
      return None;
    }
    var amount := CalculateDamage(MeleeBase(attacker, ev.critical), EquipmentDefense(ev.entity.equipment));
    ev.damage := 0.0;
    fate := Hit(ev, attacker, amount, gm, pm, now);
  }

  /** A bow shot: the bow and how hard it was drawn, and the projectile. */
  class ShootEvent {
    /** The bow; absent when the shooter holds none. */
    const bow: Option<Item>
    const force: real
    const projectile: Projectile
    var cancelled: bool

    constructor (bow: Option<Item>, force: real, projectile: Projectile)
      ensures this.bow == bow && this.force == force && this.projectile == projectile && !cancelled
    {
      this.bow := bow;
      this.force := force;
      this.projectile := projectile;
      this.cancelled := false;
    }
  }

  /** onShoot: a bow with a projectile-damage tag tags its projectile with
      that damage times the draw force; a tagged bow's shot is never left
      untagged, since a bow without the tag cancels the shot. An empty hand
      or an air item is left alone. */
  method OnShoot(ev: ShootEvent)
    modifies ev`cancelled, ev.projectile`projectileDamage
    ensures ev.bow.None? || ev.bow.value.material == Air ==> unchanged(ev, ev.projectile)
    ensures ev.bow.Some? && ev.bow.value.material != Air && ev.bow.value.projectileDamage.None? ==>
      ev.cancelled && unchanged(ev.projectile)
    ensures ev.bow.Some? && ev.bow.value.material != Air && ev.bow.value.projectileDamage.Some? ==>
      ev.cancelled == old(ev.cancelled)
    ensures ev.bow.Some? && ev.bow.value.material != Air && ev.bow.value.projectileDamage.Some? ==>
      && ev.projectile.projectileDamage.Some?
      && ev.projectile.projectileDamage.value == ev.bow.value.projectileDamage.value * ev.force
  {
    if ev.bow.None? || ev.bow.value.material == Air {
      return;
    }
    var damage := ev.bow.value.projectileDamage;
    if damage.None? {
      ev.cancelled := true;
      return;
    }
    ev.projectile.projectileDamage := Some(damage.value * ev.force);
  }

  /** An arrow tagged at the shot lands, on a living entity in a match with
      no damage ticks, the tag (half again when critical) reduced by the
      victim's equipment defense, and never more than that base. */
  lemma TaggedArrowLands(ev: DamageEvent, stage: Stage, pm: PlayerManager, tag: real)
    requires ev.damager.Some? && ev.damager.value.Arrow? && ev.damager.value.shooter != null
    requires ev.damager.value.projectile.projectileDamage == Some(tag)
    requires ev.entity != null && !ev.cancelled && stage == InProgress && ev.entity.noDamageTicks == 0
    ensures var base := ArrowBase(tag, ev.damager.value.critical);
      && ByEntityVerdict(ev, stage, pm) == Strike(ev.damager.value.shooter, CalculateDamage(base, EquipmentDefense(ev.entity.equipment)), true)
      && (base > 0.0 ==> 0.0 < ByEntityVerdict(ev, stage, pm).amount <= base)
  {
  }
}

=== FILE: game.dfy ===
/**
 * The match state: players (GamePlayer), teams (GameTeam) and the game
 * manager (GameManager) with its stage machine, team registry, spectator
 * set, death routine and respawn countdown.
 *
 * The three classes refer to one another, so they share a module. A
 * player's online status, which the server reports, is the `online`
 * field. Time is passed in as `now`, in milliseconds.
 */
module Game {
  import opened Wrappers
  import opened JavaStrings
  import opened Seqs
  import opened TeamColors
  import opened GameMaps
  import opened Stats
  import opened AttackerLedger

  // ---------------------------------------------------------------- stage

  datatype Stage = Lobby | Waiting | InProgress | Finished

  /** Stage.canPvp: only a match in progress allows combat. */
  function CanPvp(s: Stage): (b: bool)
    ensures b <==> s == InProgress
  {
    match s
    case Lobby => false
    case Waiting => false
    case InProgress => true
    case Finished => false
  }

  // ---------------------------------------------------------------- names

  const TEAM_MIN_NAME_LENGTH: int := 2
  const TEAM_MAX_NAME_LENGTH: int := 5

  /** GameTeam.isValidName: 2 to 5 characters, all letters or digits. */
  predicate IsValidName(name: string)
  {
    TEAM_MIN_NAME_LENGTH <= |name| <= TEAM_MAX_NAME_LENGTH
    && forall i :: 0 <= i < |name| ==> IsLetterOrDigit(name[i])
  }

  lemma ValidNameExamples()
    ensures IsValidName("ab") && IsValidName("Red1") && IsValidName("ABCDE")
    ensures !IsValidName("a") && !IsValidName("abcdef") && !IsValidName("a b") && !IsValidName("a-b")
    ensures IsValidName("\U{141}\U{F3}d\U{17A}") && IsValidName("\U{17B}\U{F3}\U{142}w") && IsValidName("\U{E9}t\U{E9}")
    ensures !IsValidName("a\U{D7}b")
  {
    assert "a\U{D7}b"[1] == '\U{D7}' && !IsLetterOrDigit('\U{D7}');
    assert "a b"[1] == ' ' && !IsLetterOrDigit(' ');
    assert "a-b"[1] == '-' && !IsLetterOrDigit('-');
  }

  const CROWN: string := " <yellow>\U{1F451}</yellow>"

  predicate EndsWith(s: string, suffix: string)
  {
    |suffix| <= |s| && s[|s| - |suffix|..] == suffix
  }

  /** Appending a suffix makes a string end with it. */
  lemma Crowned(head: string, suffix: string)
    ensures EndsWith(head + suffix, suffix)
  {
    assert (head + suffix)[|head|..] == suffix;
  }

  // ---------------------------------------------------------------- player

  /** What a player's name looks like depends on: offline, online without a
      team, or in a team (its tag colour, tag, name colour, and whether the
      player leads it). */
  datatype Standing = Offline | Teamless | Member(tagHex: string, tag: string, nameHex: string, leads: bool)

  /** The MiniMessage text of getFormattedName for a player in `standing`;
      FormatShape states what it looks like. */
  function Format(name: string, standing: Standing, includeTag: bool): string
  {
    match standing
    case Offline => "<dark_gray>" + name + "</dark_gray>"
    case Teamless => "<gray>" + name + "</gray>"
    case Member(tagHex, tag, nameHex, leads) =>
      var plain := "<color:#" + nameHex + ">" + name + "</color>";
      var base := if includeTag then "<color:#" + tagHex + ">[" + tag + "]</color> " + plain else plain;
      if leads then base + CROWN else base
  }

  /** An offline player's name is dark gray, a teamless one's gray; a member's
      starts with the team tag in the team colour (or, untagged, with the name
      in the secondary colour), and exactly the leader's ends with the crown. */
  lemma FormatShape(name: string, standing: Standing, includeTag: bool)
    ensures var r := Format(name, standing, includeTag);
      && (standing.Offline? ==> StartsWith(r, "<dark_gray>"))
      && (standing.Teamless? ==> StartsWith(r, "<gray>"))
      && (standing.Member? && includeTag ==>
            StartsWith(r, "<color:#" + standing.tagHex + ">[" + standing.tag + "]</color> "))
      && (standing.Member? && !includeTag ==>
            StartsWith(r, "<color:#" + standing.nameHex + ">" + name + "</color>"))
      && (EndsWith(r, CROWN) <==> standing.Member? && standing.leads)
  {
    match standing
    case Offline =>
      NotCrowned("<dark_gray>" + name, "</dark_gray>");
      assert Format(name, standing, includeTag) == "<dark_gray>" + name + "</dark_gray>";
    case Teamless =>
      NotCrowned("<gray>" + name, "</gray>");
      assert Format(name, standing, includeTag) == "<gray>" + name + "</gray>";
    case Member(tagHex, tag, nameHex, leads) =>
      MemberShape(name, tagHex, tag, nameHex, leads, includeTag);
  }

  /** The member case of FormatShape. */
  lemma MemberShape(name: string, tagHex: string, tag: string, nameHex: string, leads: bool, includeTag: bool)
    ensures var r := Format(name, Member(tagHex, tag, nameHex, leads), includeTag);
      && (includeTag ==> StartsWith(r, "<color:#" + tagHex + ">[" + tag + "]</color> "))
      && (!includeTag ==> StartsWith(r, "<color:#" + nameHex + ">" + name + "</color>"))
      && (EndsWith(r, CROWN) <==> leads)
  {
    var tagged := "<color:#" + tagHex + ">[" + tag + "]</color> ";
    var open := "<color:#" + nameHex + ">" + name;
    var plain := open + "</color>";
    var crown := if leads then CROWN else "";
    var r := Format(name, Member(tagHex, tag, nameHex, leads), includeTag);
    if includeTag {
      assert r == tagged + (plain + crown);
      Prefixed(tagged, plain + crown);
    } else {
      assert r == plain + crown;
      Prefixed(plain, crown);
    }
    var base := if includeTag then tagged + open else open;
    assert r == base + "</color>" + crown;
    if leads {
      Crowned(base + "</color>", CROWN);
    } else {
      NotCrowned(base, "</color>");
    }
  }

  /** A string starts with whatever it was built from first. */
  lemma Prefixed(head: string, tail: string)
    ensures StartsWith(head + tail, head)
  {
    assert (head + tail)[..|head|] == head;
  }

  class GamePlayer {
    const name: string
    const attackers: OrderedAttackerCache
    const stats: StatsTracker
    var team: GameTeam?
    var alive: bool
    /** Whether the server currently has this player online. */
    var online: bool

    /** A new player: alive, in no team, with an empty 10-second attacker ledger. */
    constructor (name: string, online: bool, cacheManager: Manager)
      modifies cacheManager
      ensures this.name == name && this.online == online
      ensures team == null && alive
      ensures fresh(attackers) && fresh(stats)
      ensures attackers.Valid() && attackers.ttlMillis == 10000
      ensures attackers.playerMap == map[] && attackers.registered
      ensures stats.stats == map[] && stats.owner == name
      ensures cacheManager.caches == old(cacheManager.caches) + {attackers}
    {
      this.name := name;
      this.online := online;
      attackers := new OrderedAttackerCache(10, cacheManager);
      stats := new StatsTracker(name);
      team := null;
      alive := true;
    }

    /** isInTeam. */
    predicate IsInTeam()
      reads this`team
    {
      team != null
    }

    /** setTeam: only the team field changes. */
    method SetTeam(t: GameTeam?)
      modifies this`team
      ensures team == t
    {
      team := t;
    }

    /** setAlive: only the alive flag changes. */
    method SetAlive(a: bool)
      modifies this`alive
      ensures alive == a
    {
      alive := a;
    }

    /** addAttacker: records the hit in this player's ledger. */
    method AddAttacker(attacker: GamePlayer, damage: real, now: int)
      requires attackers.Valid()
      modifies attackers`playerMap, attackers`damageMap
      ensures attackers.Valid()
      ensures attackers.playerMap == Record(old(attackers.playerMap), attacker.name, damage, now)
    {
      attackers.Put(attacker.name, damage, now);
    }

    /** How this player's name is shown, from its online flag and team. */
    function Standing(): (s: Standing)
      reads this`online, this`team, team
      ensures s.Offline? <==> !online
      ensures s.Teamless? <==> online && team == null
      ensures s.Member? ==> team != null && s.tag == team.name && s.tagHex == Hex(team.color)
                            && s.nameHex == SecondaryHex(team.color) && (s.leads <==> team.leader == this)
    {
      if !online then Offline
      else if team == null then Teamless
      else Member(Hex(team.color), team.name, SecondaryHex(team.color), team.leader == this)
    }

    /** getFormattedName(includeTag); getDisplayName is the tagged form and
        getDisplayNameNoTag the untagged one. FormattedNameShape states what
        it looks like. */
    function FormattedName(includeTag: bool): string
      reads this`online, this`team, team
    {
      Format(name, Standing(), includeTag)
    }

    function DisplayName(): string
      reads this`online, this`team, team
    {
      FormattedName(true)
    }
  }

  /** getFormattedName: dark gray offline, gray without a team; in a team
      the tag in the team colour or the name in the secondary colour, and the
      crown for exactly the team's leader. */
  lemma FormattedNameShape(p: GamePlayer, includeTag: bool)
    ensures var r := p.FormattedName(includeTag);
      && (!p.online ==> StartsWith(r, "<dark_gray>"))
      && (p.online && p.team == null ==> StartsWith(r, "<gray>"))
      && (p.online && p.team != null && includeTag ==>
            StartsWith(r, "<color:#" + Hex(p.team.color) + ">[" + p.team.name + "]</color> "))
      && (p.online && p.team != null && !includeTag ==>
            StartsWith(r, "<color:#" + SecondaryHex(p.team.color) + ">" + p.name + "</color>"))
      && (EndsWith(r, CROWN) <==> p.online && p.team != null && p.team.leader == p)
  {
    FormatShape(p.name, p.Standing(), includeTag);
  }

  /** A name ending in a closing tag other than `</yellow>` carries no crown. */
  lemma NotCrowned(head: string, tail: string)
    requires |tail| >= 2 && tail[|tail| - 2] != 'w'
    ensures !EndsWith(head + tail, CROWN)
  {
    var s := head + tail;
    if |CROWN| <= |s| {
      assert s[|s| - |CROWN|..][|CROWN| - 2] == tail[|tail| - 2];
    }
  }

  /** GamePlayer.equals: same name. */
  predicate SamePlayer(a: GamePlayer, b: GamePlayer)
  {
    a.name == b.name
  }

  /** GamePlayer.hashCode: Objects.hash(name), i.e. 31 + the name's hash, as an int. */
  function PlayerHash(p: GamePlayer): (h: int)
    ensures INT_MIN <= h <= INT_MAX
    ensures (h - (31 + StringHash(p.name))) % TWO_POW_32 == 0
  {
    ToInt32(31 + StringHash(p.name))
  }

  /** Equal players hash alike. */
  lemma HashAgreesWithEquals(a: GamePlayer, b: GamePlayer)
    requires SamePlayer(a, b)
    ensures PlayerHash(a) == PlayerHash(b)
  {
  }

  /** The first player in `ps` with this name. */
  function FindByName(ps: seq<GamePlayer>, name: string): (r: Option<GamePlayer>)
    ensures r.Some? ==> r.value in ps && r.value.name == name
    ensures r.None? <==> forall p :: p in ps ==> p.name != name
    decreases |ps|
  {
    if ps == [] then None
    else if ps[0].name == name then Some(ps[0])
    else FindByName(ps[1..], name)
  }

  // ---------------------------------------------------------------- team

  class GameTeam {
    var name: string
    var leader: GamePlayer
    var color: Color
    var heartHealth: int
    var souls: int
    var members: map<string, GamePlayer>
    /** The insertion order of `members` (a LinkedHashMap). */
    var memberOrder: seq<string>

    ghost predicate Valid()
      reads this`members, this`memberOrder
    {
      && Distinct(memberOrder)
      && (forall n :: n in members <==> n in memberOrder)
      && KeysMatch()
    }

    /** Every member is filed under its own name. */
    ghost predicate KeysMatch()
      reads this`members
    {
      forall n | n in members :: members[n].name == n
    }

    /** new GameTeam(leader, name, color), once the name has been checked
        (GameManager.CreateTeam is the checked entry point). */
    constructor (leader: GamePlayer, name: string, color: Color, gm: GameManager)
      requires IsValidName(name)
      modifies leader`team, leader`alive, gm`spectators
      ensures Valid()
      ensures this.name == name && this.leader == leader && this.color == color
      ensures heartHealth == 100 && souls == 0
      ensures members == map[leader.name := leader] && memberOrder == [leader.name]
      ensures leader.team == this && leader.alive
      ensures gm.spectators == old(gm.spectators) - {leader.name}
    {
      this.name := name;
      this.leader := leader;
      this.color := color;
      heartHealth := 100;
      souls := 0;
      members := map[];
      memberOrder := [];
      new;
      AddMember(leader, gm);
    }

    /** The members in insertion order (getMembers). */
    function MembersInOrder(): (r: seq<GamePlayer>)
      reads this
      requires Valid()
      ensures |r| == |memberOrder|
      ensures forall p | p in r :: p in members.Values
      ensures forall p | p in members.Values :: p in r
    {
      var r := ValuesInOrder(memberOrder, members);
      assert forall p :: p in members.Values ==> p in r by {
        forall p | p in members.Values ensures p in r {
          var n :| n in members && members[n] == p;
          var i :| 0 <= i < |memberOrder| && memberOrder[i] == n;
          assert r[i] == p;
        }
      }
      r
    }

    /** getMember. */
    function GetMember(n: string): (r: Option<GamePlayer>)
      reads this
      ensures r.Some? <==> n in members
      ensures r.Some? ==> r.value == members[n]
    {
      if n in members then Some(members[n]) else None
    }

    /** hasMember: membership is by name. */
    predicate HasMember(p: GamePlayer)
      reads this
    {
      p.name in members
    }

    /** addMember: keyed by name; the player joins this team and stops spectating. */
    method AddMember(player: GamePlayer, gm: GameManager)
      requires Valid()
      modifies this`members, this`memberOrder, player`team, player`alive, gm`spectators
      ensures Valid()
      ensures members == old(members)[player.name := player]
      ensures memberOrder == Touch(old(memberOrder), player.name)
      ensures HasMember(player) && player.team == this && player.alive
      ensures gm.spectators == old(gm.spectators) - {player.name}
    {
      members := members[player.name := player];
      memberOrder := Touch(memberOrder, player.name);
      player.SetTeam(this);
      gm.RemoveSpectator(player);
    }

    /** removeMember: the player leaves this team and becomes a spectator. */
    method RemoveMember(player: GamePlayer, gm: GameManager)
      requires Valid()
      modifies this`members, this`memberOrder, player`team, player`alive, gm`spectators
      ensures Valid()
      ensures members == old(members) - {player.name}
      ensures memberOrder == Without(old(memberOrder), player.name)
      ensures !HasMember(player) && player.team == null && !player.alive
      ensures gm.spectators == old(gm.spectators)[player.name := player]
    {
      members := members - {player.name};
      memberOrder := Without(memberOrder, player.name);
      player.SetTeam(null);
      gm.AddSpectator(player);
    }

    /** isFull: as many members as the game allows per team. */
    predicate IsFull(gm: GameManager)
      reads this, gm
    {
      |members| >= gm.maxPlayersPerTeam
    }

    /** getDisplayName: `<color:#HEX>[name]</color>`. */
    function DisplayName(): (r: string)
      reads this
      ensures StartsWith(r, "<color:#" + Hex(color) + ">[")
      ensures |r| == |name| + 25 && r[16..16 + |name|] == name
      ensures EndsWith(r, "]</color>")
    {
      assert |Hex(color)| == 6;
      "<color:#" + Hex(color) + ">[" + name + "]</color>"
    }

    /** damageHeart(amount): only a live heart takes damage, with no floor. */
    method DamageHeart(amount: int) returns (remaining: int)
      modifies this`heartHealth
      ensures heartHealth == if old(heartHealth) > 0 then old(heartHealth) - amount else old(heartHealth)
      ensures remaining == heartHealth
      ensures amount >= old(heartHealth) ==> !IsAlive()
    {
      if heartHealth > 0 {
        heartHealth := heartHealth - amount;
      }
      remaining := heartHealth;
    }

    /** damageHeart(): one point. */
    method DamageHeartOnce() returns (remaining: int)
      modifies this`heartHealth
      ensures heartHealth == if old(heartHealth) > 0 then old(heartHealth) - 1 else old(heartHealth)
      ensures remaining == heartHealth
    {
      remaining := DamageHeart(1);
    }

    /** isAlive: the heart stands and every member is alive and online. */
    predicate IsAlive()
      reads this, members.Values
    {
      heartHealth > 0 && forall n | n in members :: members[n].alive && members[n].online
    }

    /** isAlive walks the members in joining order: the team stands exactly
        when its heart does and no member, in that order, is dead or offline;
        one member dead or offline is enough to bring the team down. */
    lemma AliveInOrder()
      requires Valid()
      ensures IsAlive() <==> (heartHealth > 0
        && forall i | 0 <= i < |memberOrder| :: members[memberOrder[i]].alive && members[memberOrder[i]].online)
      ensures forall i | 0 <= i < |memberOrder| ::
        !members[memberOrder[i]].alive || !members[memberOrder[i]].online ==> !IsAlive()
    {
      if heartHealth > 0 && forall i | 0 <= i < |memberOrder| :: members[memberOrder[i]].alive && members[memberOrder[i]].online {
        forall n | n in members ensures members[n].alive && members[n].online {
          var i :| 0 <= i < |memberOrder| && memberOrder[i] == n;
        }
      }
    }

    /** addSouls. */
    method AddSouls(value: int)
      requires value >= 0
      modifies this`souls
      ensures souls == old(souls) + value
    {
      souls := souls + value;
    }

    /** removeSouls: never below zero. */
    method RemoveSouls(value: int)
      requires value >= 0
      modifies this`souls
      ensures souls == if old(souls) - value < 0 then 0 else old(souls) - value
      ensures souls >= 0
    {
      souls := if souls - value < 0 then 0 else souls - value;
    }

    /** setName: an invalid name throws; a name already registered makes
        updateTeamName throw; either way the name field is left as it was. */
    method SetName(newName: string, gm: GameManager) returns (o: Outcome<string>)
      requires gm.Valid() && this in gm.teams.Values
      modifies this`name, gm`teams, gm`teamOrder
      ensures gm.Valid()
      ensures o.Pass? <==> IsValidName(newName) && newName !in old(gm.teams)
      ensures o.Pass? ==> (name == newName
        && gm.teams == (old(gm.teams) - {old(name)})[newName := this]
        && gm.teamOrder == Without(old(gm.teamOrder), old(name)) + [newName])
      ensures o.Fail? ==> name == old(name) && gm.teams == old(gm.teams) && gm.teamOrder == old(gm.teamOrder)
    {
      if !IsValidName(newName) {
        return Fail("Invalid team name: " + newName);
      }
      o := gm.UpdateTeamName(this, newName);
      if o.Pass? {
        name := newName;
      }
    }

    method SetLeader(p: GamePlayer)
      modifies this`leader
      ensures leader == p
    {
      leader := p;
    }

    method SetColor(c: Color)
      modifies this`color
      ensures color == c
    {
      color := c;
    }
  }

  /** The heart, once at or below zero, never changes again. */
  lemma DeadHeartStaysPut(h: int, amount: int)
    requires h <= 0
    ensures (if h > 0 then h - amount else h) == h
  {
  }

  // ---------------------------------------------------------------- manager

  /** What killed the victim: nothing known, a player (by name), or another entity. */
  datatype Attacker = NoEntity | PlayerEntity(playerName: string) | OtherEntity(customName: Option<string>)

  /** The two broadcast death messages. */
  function DeathMessage(victimDisplay: string, attackerName: Option<string>): (m: string)
    ensures StartsWith(m, "<gray>☠ <dark_gray>» <red>" + victimDisplay)
    ensures attackerName.None? ==> EndsWith(m, " umarł")
    ensures attackerName.Some? ==> EndsWith(m, " został zabity przez " + attackerName.value)
  {
    match attackerName
    case None => "<gray>☠ <dark_gray>» <red>" + victimDisplay + " umarł"
    case Some(a) => "<gray>☠ <dark_gray>» <red>" + victimDisplay + " został zabity przez " + a
  }

  /** The result of the death routine. */
  datatype DeathOutcome =
    | VictimOffline
    | Handled(message: Option<string>)
    /** The killer has no team: addSouls throws a NullPointerException. */
    | KillerTeamless

  /** A roster as PlayerManager keeps it: keyed by name, one stats tracker per player. */
  ghost predicate Registered(roster: map<string, GamePlayer>)
  {
    && (forall n | n in roster :: roster[n].name == n)
    && (forall n | n in roster :: roster[n].stats.owner == n)
  }

  /** The stat increments the death routine awards to player `n`. */
  function Credit(victim: string, killer: Option<string>, assisters: set<string>, n: string, s: PlayerStat): int
  {
    (if s == DEATHS && n == victim then 1 else 0)
    + (if s == KILLS && killer == Some(n) then 1 else 0)
    + (if s == ASSISTS && n in assisters then 1 else 0)
  }

  /** The counters of every registered player, by name. */
  type Tally = map<string, map<PlayerStat, int>>

  /** A counter as getStat reads it: 0 for a stat never touched. */
  function Count(c: map<PlayerStat, int>, s: PlayerStat): int
  {
    if s in c then c[s] else 0
  }

  /** incrementStat(s) on the tracker of `n`, when `n` is registered. */
  function Bump(t: Tally, n: string, s: PlayerStat): (r: Tally)
    ensures r.Keys == t.Keys
  {
    if n in t then t[n := t[n][s := Count(t[n], s) + 1]] else t
  }

  /** One ASSISTS for every registered name of `names` other than the killer. */
  function AssistAll(t: Tally, names: set<string>, killer: string): (r: Tally)
    ensures r.Keys == t.Keys
  {
    map n | n in t :: if n in names && n != killer then t[n][ASSISTS := Count(t[n], ASSISTS) + 1] else t[n]
  }

  /** Nobody to credit changes nothing. */
  lemma AssistNone(t: Tally, killer: string)
    ensures AssistAll(t, {}, killer) == t
  {
  }

  /** Crediting one more name is one more incrementStat(ASSISTS), or none
      for the killer. */
  lemma AssistOneMore(t: Tally, names: set<string>, a: string, killer: string)
    requires a !in names
    ensures AssistAll(t, names + {a}, killer) ==
      if a != killer then Bump(AssistAll(t, names, killer), a, ASSISTS) else AssistAll(t, names, killer)
  {
  }

  /** The counters after a death: DEATHS for the victim, then, when there is
      a registered killer, ASSISTS for the rest of the ledger and KILLS for
      the killer. */
  function AfterDeath(t: Tally, victim: string, killer: Option<string>, ledger: set<string>): (r: Tally)
    ensures r.Keys == t.Keys
  {
    AfterKill(Bump(t, victim, DEATHS), killer, ledger)
  }

  /** The killer's side of a death: assists for the ledger, then the kill. */
  function AfterKill(t: Tally, killer: Option<string>, ledger: set<string>): (r: Tally)
    ensures r.Keys == t.Keys
  {
    if killer.Some? then Bump(AssistAll(t, ledger, killer.value), killer.value, KILLS) else t
  }

  /** After a death every registered player has gained exactly its Credit:
      one DEATHS for the victim, one KILLS for the registered killer, one
      ASSISTS for each other name in the ledger, and nothing else. */
  lemma AfterDeathCredits(t: Tally, victim: string, killer: Option<string>, ledger: set<string>)
    ensures forall n, s | n in t ::
      Count(AfterDeath(t, victim, killer, ledger)[n], s)
        == Count(t[n], s) + Credit(victim, killer, Assisters(killer, ledger), n, s)
  {
    forall n, s | n in t
      ensures Count(AfterDeath(t, victim, killer, ledger)[n], s)
        == Count(t[n], s) + Credit(victim, killer, Assisters(killer, ledger), n, s)
    {
      var dead := Bump(t, victim, DEATHS);
      BumpCount(t, victim, DEATHS, n, s);
      if killer.Some? {
        var k := killer.value;
        AssistCount(dead, ledger, k, n, s);
        BumpCount(AssistAll(dead, ledger, k), k, KILLS, n, s);
      }
    }
  }

  /** incrementStat moves one counter of one player by one. */
  lemma BumpCount(t: Tally, n: string, s: PlayerStat, m: string, k: PlayerStat)
    requires m in t
    ensures Count(Bump(t, n, s)[m], k) == Count(t[m], k) + (if m == n && k == s then 1 else 0)
  {
  }

  /** AssistAll moves the ASSISTS counter of the credited names only. */
  lemma AssistCount(t: Tally, names: set<string>, killer: string, m: string, k: PlayerStat)
    requires m in t
    ensures Count(AssistAll(t, names, killer)[m], k)
      == Count(t[m], k) + (if k == ASSISTS && m in names && m != killer then 1 else 0)
  {
  }

  /** addSouls(1) on `team`, seen in the souls of the registered teams. */
  function Scored(souls: map<GameTeam, int>, team: GameTeam?): (r: map<GameTeam, int>)
    ensures r.Keys == souls.Keys
    ensures forall t | t in souls :: r[t] == souls[t] + (if t == team then 1 else 0)
  {
    if team != null && team in souls then souls[team := souls[team] + 1] else souls
  }

  /** The registered player credited with the kill: a player attacker that
      PlayerManager knows. */
  function Killer(attacker: Attacker, roster: map<string, GamePlayer>): (k: Option<string>)
    ensures k.Some? <==> attacker.PlayerEntity? && attacker.playerName in roster
    ensures k.Some? ==> k.value == attacker.playerName
  {
    if attacker.PlayerEntity? && attacker.playerName in roster then Some(attacker.playerName) else None
  }

  /** The names credited with an assist: everyone in the ledger but the killer,
      and nobody when there is no registered killer. */
  function Assisters(killer: Option<string>, ledger: set<string>): (a: set<string>)
    ensures killer.None? ==> a == {}
    ensures killer.Some? ==> forall n :: n in a <==> n in ledger && n != killer.value
  {
    if killer.None? then {} else ledger - {killer.value}
  }

  /** The attacker names of a ledger snapshot. */
  function NamesOf(entries: seq<AttackerEntry>): (r: set<string>)
    ensures forall n :: n in r <==> exists i :: 0 <= i < |entries| && entries[i].attacker == n
  {
    set i | 0 <= i < |entries| :: entries[i].attacker
  }

  /** A snapshot of a consistent ledger names exactly its attackers, each once. */
  lemma SnapshotKeys(pm: map<string, AttackerEntry>, r: seq<AttackerEntry>)
    requires Descending(r)
    requires forall e :: e in r <==> e in pm.Values
    requires forall a | a in pm :: pm[a].attacker == a
    ensures forall i, j :: 0 <= i < j < |r| ==> r[i].attacker != r[j].attacker
    ensures NamesOf(r) == pm.Keys
  {
    SnapshotNames(pm, r);
  }

  /** The member map of each team, read once. */
  function Rosters(ts: map<string, GameTeam>): (r: map<string, map<string, GamePlayer>>)
    reads ts.Values
    ensures r.Keys == ts.Keys
    ensures forall k | k in ts :: r[k] == ts[k].members
  {
    map k | k in ts :: ts[k].members
  }

  /** The names in the member maps of `roster` under the keys `ks`. */
  ghost function RosterNames(roster: map<string, map<string, GamePlayer>>, ks: set<string>): set<string>
  {
    set j, n | j in ks && j in roster && n in roster[j] :: n
  }

  /** The spectator map `spec` is `before` with the names in `added` put in
      and every other entry as it was. */
  ghost predicate SpectatorsAdded(spec: map<string, GamePlayer>, before: map<string, GamePlayer>, added: set<string>)
  {
    && spec.Keys == before.Keys + added
    && forall n | n in before && n !in added :: spec[n] == before[n]
  }

  /** Removing one more team of `roster` from the registered keys adds its
      member names to the spectators. */
  lemma SpectatorsAddedStep(roster: map<string, map<string, GamePlayer>>, registered: set<string>, k: string,
                            spec0: map<string, GamePlayer>, spec1: map<string, GamePlayer>, before: map<string, GamePlayer>)
    requires k in roster && k in registered
    requires SpectatorsAdded(spec0, before, RosterNames(roster, roster.Keys - registered))
    requires SpectatorsAdded(spec1, spec0, roster[k].Keys)
    ensures SpectatorsAdded(spec1, before, RosterNames(roster, roster.Keys - (registered - {k})))
  {
    assert roster.Keys - (registered - {k}) == (roster.Keys - registered) + {k};
    RosterNamesAdd(roster, roster.Keys - registered, k);
  }

  /** setMap's sweep dropping the team `k`, on values: the registry `t1` is
      `t0` without `k`, and the players of every dropped team are in `swept`. */
  lemma SweptDrop(t0: map<string, GameTeam>, t1: map<string, GameTeam>, all: map<string, GameTeam>,
                  roster: map<string, map<string, GamePlayer>>, max: int, done: set<string>,
                  gone: set<GamePlayer>, swept: set<GamePlayer>, k: string)
    requires roster.Keys == all.Keys
    requires forall j :: j in t0 <==> j in all && (j !in done || |roster[j]| <= max)
    requires forall j | j in t0 :: t0[j] == all[j]
    requires k in t0 && |roster[k]| > max && t1 == t0 - {k}
    requires forall j, n | j in done && j in roster && |roster[j]| > max && n in roster[j] :: roster[j][n] in gone
    requires gone <= swept && forall n | n in roster[k] :: roster[k][n] in swept
    ensures forall j :: j in t1 <==> j in all && (j !in done + {k} || |roster[j]| <= max)
    ensures forall j | j in t1 :: t1[j] == all[j]
    ensures forall j, n | j in done + {k} && j in roster && |roster[j]| > max && n in roster[j] :: roster[j][n] in swept
  {
  }

  /** One more key adds the names of its member map. */
  lemma RosterNamesAdd(roster: map<string, map<string, GamePlayer>>, ks: set<string>, k: string)
    requires k in roster
    ensures RosterNames(roster, ks + {k}) == RosterNames(roster, ks) + roster[k].Keys
  {
  }

  class GameManager {
    var teams: map<string, GameTeam>
    /** The insertion order of `teams` (a LinkedHashMap). */
    var teamOrder: seq<string>
    var spectators: map<string, GamePlayer>
    var maxPlayersPerTeam: int
    var stage: Stage
    var gameMap: Option<GameMap>

    ghost predicate Valid()
      reads this`teams, this`teamOrder, teams.Values`name, teams.Values`members
    {
      && Distinct(teamOrder)
      && (forall k :: k in teams <==> k in teamOrder)
      && (forall k | k in teams :: teams[k].name == k && teams[k].KeysMatch())
    }

    /** A new manager: in the lobby, with no teams. */
    constructor ()
      ensures Valid()
      ensures stage == Lobby && teams == map[] && teamOrder == [] && spectators == map[]
    {
      teams := map[];
      teamOrder := [];
      spectators := map[];
      maxPlayersPerTeam := 0;
      stage := Lobby;
      gameMap := None;
    }

    /** createTeam: the team constructor, which throws on an invalid name. */
    method CreateTeam(leader: GamePlayer, name: string, color: Color) returns (r: Result<GameTeam, string>)
      modifies leader`team, leader`alive, this`spectators
      ensures r.Ok? <==> IsValidName(name)
      ensures r.Ok? ==> fresh(r.value) && r.value.Valid()
      ensures r.Ok? ==> r.value.name == name && r.value.leader == leader && r.value.color == color
      ensures r.Ok? ==> r.value.heartHealth == 100 && r.value.souls == 0
      ensures r.Ok? ==> r.value.members == map[leader.name := leader]
      ensures r.Ok? ==> leader.team == r.value && leader.alive
      ensures r.Ok? ==> spectators == old(spectators) - {leader.name}
      ensures r.Err? ==> leader.team == old(leader.team) && leader.alive == old(leader.alive)
      ensures r.Err? ==> spectators == old(spectators)
    {
      if !IsValidName(name) {
        return Err("Invalid team name: " + name);
      }
      var t := new GameTeam(leader, name, color, this);
      r := Ok(t);
    }

    /** The teams in insertion order (getTeams). */
    function TeamsInOrder(): (r: seq<GameTeam>)
      reads this
      requires forall k :: k in teamOrder ==> k in teams
      ensures |r| == |teamOrder|
      ensures forall i :: 0 <= i < |r| ==> r[i] == teams[teamOrder[i]]
    {
      ValuesInOrder(teamOrder, teams)
    }

    /** addTeam: keyed by the team's name. */
    method AddTeam(team: GameTeam)
      requires Valid() && team.KeysMatch()
      modifies this`teams, this`teamOrder
      ensures Valid()
      ensures teams == old(teams)[team.name := team]
      ensures teamOrder == Touch(old(teamOrder), team.name)
    {
      teams := teams[team.name := team];
      teamOrder := Touch(teamOrder, team.name);
    }

    /** updateTeamName: refuses a name already registered; otherwise the same
        team moves from its current name to the new one (and to the end of
        the order, as a LinkedHashMap remove-then-put does). */
    method UpdateTeamName(team: GameTeam, newName: string) returns (o: Outcome<string>)
      requires Valid()
      modifies this`teams, this`teamOrder
      ensures o.Pass? <==> newName !in old(teams)
      ensures o.Fail? ==> teams == old(teams) && teamOrder == old(teamOrder)
      ensures o.Pass? ==> teams == (old(teams) - {team.name})[newName := team]
      ensures o.Pass? ==> teamOrder == Without(old(teamOrder), team.name) + [newName]
      ensures o.Pass? ==> forall k | k in old(teams) && k != team.name && k != newName :: teams[k] == old(teams)[k]
    {
      if newName in teams {
        return Fail("Team with name '" + newName + "' already exists.");
      }
      teams := (teams - {team.name})[newName := team];
      teamOrder := Without(teamOrder, team.name) + [newName];
      o := Pass;
    }

    /** getTeam(name). */
    function GetTeam(name: string): (r: Option<GameTeam>)
      reads this
      ensures r.Some? <==> name in teams
      ensures r.Some? ==> r.value == teams[name]
    {
      if name in teams then Some(teams[name]) else None
    }

    /** getTeam(color): the first team, in insertion order, with that color. */
    function GetTeamByColor(c: Color): (r: Option<GameTeam>)
      reads this, teams.Values
      requires Valid()
      ensures r.None? <==> forall k | k in teams :: teams[k].color != c
      ensures r.Some? ==> r.value.color == c
      ensures r.Some? ==> exists i :: (0 <= i < |teamOrder| && teams[teamOrder[i]] == r.value
                                       && forall j :: 0 <= j < i ==> teams[teamOrder[j]].color != c)
    {
      var ts := TeamsInOrder();
      FirstWithColor(ts, c, 0)
    }

    /** The first team in ts[from..] with color c. */
    function FirstWithColor(ts: seq<GameTeam>, c: Color, from: nat): (r: Option<GameTeam>)
      reads ts
      requires from <= |ts|
      ensures r.None? <==> forall i :: from <= i < |ts| ==> ts[i].color != c
      ensures r.Some? ==> r.value.color == c
      ensures r.Some? ==> exists i :: (from <= i < |ts| && ts[i] == r.value
                                       && forall j :: from <= j < i ==> ts[j].color != c)
      decreases |ts| - from
    {
      if from == |ts| then None
      else if ts[from].color == c then Some(ts[from])
      else FirstWithColor(ts, c, from + 1)
    }

    /** addSpectator: the player is listed and no longer alive. */
    method AddSpectator(player: GamePlayer)
      modifies this`spectators, player`alive
      ensures spectators == old(spectators)[player.name := player]
      ensures !player.alive
    {
      spectators := spectators[player.name := player];
      player.SetAlive(false);
    }

    /** removeSpectator: the player is unlisted and alive again. */
    method RemoveSpectator(player: GamePlayer)
      modifies this`spectators, player`alive
      ensures spectators == old(spectators) - {player.name}
      ensures player.alive
    {
      spectators := spectators - {player.name};
      player.SetAlive(true);
    }

    /** removeTeam: the key goes; every member is left teamless, spectating
        and not alive. The team's own member map is not cleared. */
    method RemoveTeam(team: GameTeam)
      requires Valid() && team.KeysMatch()
      modifies this`teams, this`teamOrder, this`spectators, team.members.Values`team, team.members.Values`alive
      ensures Valid()
      ensures teams == old(teams) - {team.name}
      ensures teamOrder == Without(old(teamOrder), team.name)
      ensures team.members == old(team.members)
      ensures forall n | n in team.members :: team.members[n].team == null && !team.members[n].alive
      ensures spectators.Keys == old(spectators).Keys + team.members.Keys
      ensures forall n | n in team.members :: spectators[n] == team.members[n]
      ensures forall n | n in old(spectators) && n !in team.members :: spectators[n] == old(spectators)[n]
    {
      teams := teams - {team.name};
      teamOrder := Without(teamOrder, team.name);
      assert Valid();
      EvictAll(team.members);
    }

    /** Every player of a removed team's member map: no team, spectating, not alive. */
    method EvictAll(ms: map<string, GamePlayer>)
      requires forall n | n in ms :: ms[n].name == n
      modifies this`spectators, ms.Values`team, ms.Values`alive
      ensures forall n | n in ms :: ms[n].team == null && !ms[n].alive
      ensures spectators.Keys == old(spectators).Keys + ms.Keys
      ensures forall n | n in ms :: spectators[n] == ms[n]
      ensures forall n | n in old(spectators) && n !in ms :: spectators[n] == old(spectators)[n]
    {
      var rest := ms.Keys;
      while rest != {}
        invariant rest <= ms.Keys
        invariant spectators.Keys == old(spectators).Keys + (ms.Keys - rest)
        invariant forall n | n in ms && n !in rest :: spectators[n] == ms[n] && ms[n].team == null && !ms[n].alive
        invariant forall n | n in old(spectators) && n !in ms.Keys - rest :: spectators[n] == old(spectators)[n]
        decreases rest
      {
        var n :| n in rest;
        Evict(ms[n]);
        rest := rest - {n};
      }
    }

    /** One member of a removed team: no team, spectating, not alive. */
    method Evict(p: GamePlayer)
      modifies this`spectators, p`team, p`alive
      ensures p.team == null && !p.alive
      ensures spectators == old(spectators)[p.name := p]
    {
      p.SetTeam(null);
      AddSpectator(p);
    }

    /** start: LOBBY moves to WAITING; any other stage throws
        IllegalStateException. The stage changes before the players are
        sent to the waiting room, so a start with no map set and a team
        member online throws with the stage already WAITING. */
    method Start() returns (o: Outcome<string>)
      modifies this`stage
      ensures o.Pass? <==> old(stage) == Lobby && !StartThrows()
      ensures old(stage) == Lobby ==> stage == Waiting
      ensures old(stage) != Lobby ==> stage == old(stage) && o == Fail(STAGE_ERROR)
      ensures old(stage) == Lobby && StartThrows() ==> o == Fail(NO_MAP_ERROR)
    {
      if stage == Lobby {
        stage := Waiting;
        if StartThrows() {
          return Fail(NO_MAP_ERROR);
        }
        o := Pass;
      } else {
        o := Fail(STAGE_ERROR);
      }
    }

    /** Whether start() throws once in the waiting stage: it teleports every
        online team member to the map's waiting room, so with no map set the
        first online member raises a NullPointerException. */
    predicate StartThrows()
      reads this, teams.Values, AllMembers()
    {
      gameMap.None? && exists k, n | k in teams && n in teams[k].members :: teams[k].members[n].online
    }

    /** The exceptions start() lets escape. */
    static const STAGE_ERROR := "Game cannot be started in the current stage"
    static const NO_MAP_ERROR := "NullPointerException: no map is set"

    /** stop: back to the lobby from any stage. */
    method Stop()
      modifies this`stage
      ensures stage == Lobby
    {
      stage := Lobby;
    }

    /** Every player in a member map of a registered team. */
    ghost function AllMembers(): set<GamePlayer>
      reads this, teams.Values
    {
      set k, n | k in teams && n in teams[k].members :: teams[k].members[n]
    }

    /** setMap: the per-team maximum follows the map's setup, and every team
        with more members than that is removed. */
    method SetMap(m: GameMap)
      requires Valid()
      modifies this`gameMap, this`maxPlayersPerTeam, this`teams, this`teamOrder, this`spectators, AllMembers()`team, AllMembers()`alive
      ensures Valid()
      ensures gameMap == Some(m) && maxPlayersPerTeam == MaxPlayersInTeam(m.teamSetup)
      ensures forall k :: k in teams <==> k in old(teams) && |old(teams)[k].members| <= maxPlayersPerTeam
      ensures forall k | k in teams :: teams[k] == old(teams)[k]
      ensures forall k | k in old(teams) && k !in teams ::
        forall n | n in old(teams[k].members) :: old(teams[k].members)[n].team == null && !old(teams[k].members)[n].alive
      ensures SpectatorsAdded(spectators, old(spectators), RosterNames(old(Rosters(teams)), old(teams).Keys - teams.Keys))
    {
      ghost var roster := Rosters(teams);
      gameMap := Some(m);
      maxPlayersPerTeam := MaxPlayersInTeam(m.teamSetup);
      assert Rosters(teams) == roster;
      RemoveOversized(AllMembers());
    }

    /** The teams of `all` left registered once the names in `done` have
        been swept: those swept with more than `max` members are gone. */
    ghost predicate Swept(all: map<string, GameTeam>, roster: map<string, map<string, GamePlayer>>, max: int, done: set<string>)
      reads this`teams
    {
      && roster.Keys == all.Keys
      && (forall k :: k in teams <==> k in all && (k !in done || |roster[k]| <= max))
      && (forall k | k in teams :: teams[k] == all[k])
    }

    /** The state of setMap's sweep after the first `i` names of `snapshot`:
        the registry is Swept, the member maps are those read at the start,
        and every player of a removed team is in `gone`, teamless and dead. */
    ghost predicate Sweeping(snapshot: seq<string>, i: int, all: map<string, GameTeam>,
                             roster: map<string, map<string, GamePlayer>>, done: set<string>, gone: set<GamePlayer>)
      reads this, teams.Values, all.Values, gone
    {
      && 0 <= i <= |snapshot|
      && Valid() && Swept(all, roster, maxPlayersPerTeam, done)
      && (forall j | j in all :: all[j].members == roster[j])
      && (forall p | p in gone :: p.team == null && !p.alive)
      && (forall j :: 0 <= j < i ==> snapshot[j] in done)
      && (forall j, n | j in done && j in roster && |roster[j]| > maxPlayersPerTeam && n in roster[j] :: roster[j][n] in gone)
    }

    /** The spectators, starting from `before`, once the teams of `roster`
        that are no longer registered were removed: every name of their
        member maps is added, and the other spectators are as they were. */
    ghost predicate Spectating(roster: map<string, map<string, GamePlayer>>, before: map<string, GamePlayer>)
      reads this`teams, this`spectators
    {
      SpectatorsAdded(spectators, before, RosterNames(roster, roster.Keys - teams.Keys))
    }

    /** One step of setMap's sweep: the team named `snapshot[i]`, if still
        registered and larger than the maximum, is removed as removeTeam does. */
    method SweepOne(snapshot: seq<string>, i: int, ghost all: map<string, GameTeam>,
                    ghost roster: map<string, map<string, GamePlayer>>, ghost done: set<string>,
                    ghost gone: set<GamePlayer>, ghost everyone: set<GamePlayer>, ghost before: map<string, GamePlayer>)
      returns (ghost swept: set<GamePlayer>)
      requires Sweeping(snapshot, i, all, roster, done, gone) && Spectating(roster, before) && i < |snapshot|
      requires forall j, n | j in roster && n in roster[j] :: roster[j][n] in everyone
      modifies this`teams, this`teamOrder, this`spectators, everyone`team, everyone`alive
      ensures Sweeping(snapshot, i + 1, all, roster, done + {snapshot[i]}, swept) && Spectating(roster, before)
    {
      var k := snapshot[i];
      if k in teams && |teams[k].members| > maxPlayersPerTeam {
        swept := SweepDrop(snapshot, i, all, roster, done, gone, everyone, before);
      } else {
        swept := gone;
        SweepKeep(snapshot, i, all, roster, done, gone, before);
      }
    }

    /** A step of the sweep that leaves the registry alone. */
    lemma SweepKeep(snapshot: seq<string>, i: int, all: map<string, GameTeam>,
                    roster: map<string, map<string, GamePlayer>>, done: set<string>, gone: set<GamePlayer>,
                    before: map<string, GamePlayer>)
      requires Sweeping(snapshot, i, all, roster, done, gone) && Spectating(roster, before) && i < |snapshot|
      requires snapshot[i] !in teams || |teams[snapshot[i]].members| <= maxPlayersPerTeam
      ensures Sweeping(snapshot, i + 1, all, roster, done + {snapshot[i]}, gone) && Spectating(roster, before)
    {
    }

    /** A step of the sweep that removes an oversized team. */
    method SweepDrop(snapshot: seq<string>, i: int, ghost all: map<string, GameTeam>,
                     ghost roster: map<string, map<string, GamePlayer>>, ghost done: set<string>,
                     ghost gone: set<GamePlayer>, ghost everyone: set<GamePlayer>, ghost before: map<string, GamePlayer>)
      returns (ghost swept: set<GamePlayer>)
      requires Sweeping(snapshot, i, all, roster, done, gone) && Spectating(roster, before) && i < |snapshot|
      requires snapshot[i] in teams && |teams[snapshot[i]].members| > maxPlayersPerTeam
      requires forall j, n | j in roster && n in roster[j] :: roster[j][n] in everyone
      modifies this`teams, this`teamOrder, this`spectators, everyone`team, everyone`alive
      ensures Sweeping(snapshot, i + 1, all, roster, done + {snapshot[i]}, swept) && Spectating(roster, before)
    {
      ghost var t0 := teams;
      swept := Evacuate(snapshot[i], all, roster, gone, everyone, before);
      SweptDrop(t0, teams, all, roster, maxPlayersPerTeam, done, gone, swept, snapshot[i]);
    }

    /** The removal in one step of the sweep: removeTeam on the team named
        `k`, whose players were read into `roster[k]`; the member maps of
        `all` stay as they were, and `swept` adds those players to the
        evicted ones in `gone`. */
    method Evacuate(k: string, ghost all: map<string, GameTeam>, ghost roster: map<string, map<string, GamePlayer>>,
                    ghost gone: set<GamePlayer>, ghost everyone: set<GamePlayer>, ghost before: map<string, GamePlayer>)
      returns (ghost swept: set<GamePlayer>)
      requires Valid() && k in teams && roster.Keys == all.Keys && k in roster && teams[k].members == roster[k]
      requires Spectating(roster, before)
      requires forall j | j in all :: all[j].members == roster[j]
      requires forall n | n in roster[k] :: roster[k][n] in everyone
      requires forall p | p in gone :: p.team == null && !p.alive
      modifies this`teams, this`teamOrder, this`spectators, everyone`team, everyone`alive
      ensures Valid() && teams == old(teams) - {k} && teamOrder == Without(old(teamOrder), k)
      ensures forall j | j in all :: all[j].members == roster[j]
      ensures gone <= swept && forall n | n in roster[k] :: roster[k][n] in swept
      ensures forall p | p in swept :: p.team == null && !p.alive
      ensures Spectating(roster, before)
    {
      ghost var spec0 := spectators;
      ghost var registered := teams.Keys;
      RemoveTeam(teams[k]);
      swept := gone + set n | n in roster[k] :: roster[k][n];
      assert teams.Keys == registered - {k};
      SpectatorsAddedStep(roster, registered, k, spec0, spectators, before);
    }

    /** Removes, in insertion order, every team with more than
        maxPlayersPerTeam members, evicting its members as removeTeam does. */
    method RemoveOversized(ghost everyone: set<GamePlayer>)
      requires Valid()
      requires forall k, n | k in teams && n in teams[k].members :: teams[k].members[n] in everyone
      modifies this`teams, this`teamOrder, this`spectators, everyone`team, everyone`alive
      ensures Valid()
      ensures forall k :: k in teams <==> k in old(teams) && |old(teams)[k].members| <= maxPlayersPerTeam
      ensures forall k | k in teams :: teams[k] == old(teams)[k]
      ensures forall k | k in old(teams) && k !in teams ::
        forall n | n in old(teams[k].members) :: old(teams[k].members)[n].team == null && !old(teams[k].members)[n].alive
      ensures SpectatorsAdded(spectators, old(spectators), RosterNames(old(Rosters(teams)), old(teams).Keys - teams.Keys))
    {
      ghost var all := teams;
      ghost var roster := Rosters(teams);
      ghost var done: set<string> := {};
      ghost var gone: set<GamePlayer> := {};
      var snapshot := teamOrder;
      var i := 0;
      while i < |snapshot|
        invariant Sweeping(snapshot, i, all, roster, done, gone) && Spectating(roster, old(spectators))
        invariant forall j, n | j in roster && n in roster[j] :: roster[j][n] in everyone
        decreases |snapshot| - i
      {
        gone := SweepOne(snapshot, i, all, roster, done, gone, everyone, old(spectators));
        done := done + {snapshot[i]};
        i := i + 1;
      }

    }

    /** clearTeams: every team is removed as removeTeam does, in insertion
        order: each member of each team is teamless, not alive and listed
        among the spectators, and every other spectator stays. */
    method ClearTeams()
      requires Valid()
      modifies this`teams, this`teamOrder, this`spectators, AllMembers()`team, AllMembers()`alive
      ensures Valid()
      ensures teams == map[] && teamOrder == []
      ensures forall k | k in old(teams) ::
        forall n | n in old(teams[k].members) :: old(teams[k].members)[n].team == null && !old(teams[k].members)[n].alive
      ensures SpectatorsAdded(spectators, old(spectators), RosterNames(old(Rosters(teams)), old(teams).Keys))
    {
      ghost var all := teams;
      ghost var roster := Rosters(teams);
      ghost var everyone := AllMembers();
      ghost var gone: set<GamePlayer> := {};
      while teamOrder != []
        invariant Valid()
        invariant forall k | k in teams :: k in all && teams[k] == all[k]
        invariant forall j | j in all :: all[j].members == roster[j]
        invariant forall j, n | j in roster && n in roster[j] :: roster[j][n] in everyone
        invariant forall p | p in gone :: p.team == null && !p.alive
        invariant forall j, n | j in all && j !in teams && n in roster[j] :: roster[j][n] in gone
        invariant Spectating(roster, old(spectators))
        decreases |teamOrder|
      {
        gone := Evacuate(teamOrder[0], all, roster, gone, everyone, old(spectators));
      }
      assert teamOrder == [];
      assert forall k :: k !in teams;
      assert roster.Keys - teams.Keys == all.Keys;
    }

    /** death: an offline victim is ignored. Otherwise the victim gets a death
        and is no longer alive, the attacker is handled, and the victim's
        respawn is scheduled when it is in a team (`respawnee`); the
        countdown itself is Respawn. */
    method Death(victim: GamePlayer, attacker: Attacker, pm: PlayerManager, now: int)
      returns (outcome: DeathOutcome, respawnee: Option<GamePlayer>)
      requires Valid() && pm.Valid() && victim.attackers.Valid()
      requires victim.name in pm.players && pm.players[victim.name] == victim
      modifies victim`alive, victim.attackers`playerMap, victim.attackers`damageMap, pm.Trackers()`stats, pm.Teams()`souls
      ensures victim.attackers.Valid() && unchanged(pm)
      ensures !old(victim.online) ==>
        && outcome == VictimOffline && respawnee.None?
        && unchanged(victim, victim.attackers)
        && pm.Tally() == old(pm.Tally()) && pm.Souls() == old(pm.Souls())
      ensures old(victim.online) ==>
        && outcome != VictimOffline && !victim.alive
        && pm.Tally() == AfterDeath(old(pm.Tally()), victim.name, Killer(attacker, pm.players), old(victim.attackers.playerMap).Keys)
      ensures old(victim.online) && Killer(attacker, pm.players).Some? ==>
        var killer := pm.players[attacker.playerName];
        && (outcome == KillerTeamless <==> killer.team == null)
        && victim.attackers.playerMap == Live(old(victim.attackers.playerMap), now, victim.attackers.ttlMillis)
        && pm.Souls() == (if outcome.Handled? then Scored(old(pm.Souls()), killer.team) else old(pm.Souls()))
        && (outcome.Handled? ==>
              outcome.message == Some(DeathMessage(victim.DisplayName(), Some(killer.DisplayName()))))
      ensures old(victim.online) && Killer(attacker, pm.players).None? ==>
        && outcome.Handled?
        && unchanged(victim.attackers)
        && pm.Souls() == old(pm.Souls())
        && (attacker.PlayerEntity? ==> outcome.message.None?)
        && (attacker.OtherEntity? && attacker.customName.Some? ==>
              outcome.message == Some(DeathMessage(victim.DisplayName(), attacker.customName)))
        && (!attacker.PlayerEntity? && !(attacker.OtherEntity? && attacker.customName.Some?) ==>
              if old(victim.attackers.playerMap) == map[] then outcome.message == Some(DeathMessage(victim.DisplayName(), None))
              else exists e :: (IsTop(old(victim.attackers.playerMap), e)
                && outcome.message == Some(DeathMessage(victim.DisplayName(), Some(
                     if e.attacker in pm.players then pm.players[e.attacker].DisplayName() else e.attacker)))))
      ensures outcome.Handled? ==> respawnee == old(GetPlayer(victim.name))
      ensures outcome == KillerTeamless ==> respawnee.None?
    {
      respawnee := None;
      var registered := GetPlayer(victim.name);
      if !victim.online {
        outcome := VictimOffline;
        return;
      }
      if attacker.PlayerEntity? {
        outcome := DiePlayer(victim, attacker.playerName, pm, now);
      } else {
        var message := DieOther(victim, attacker, pm);
        outcome := Handled(Some(message));
      }
      if outcome.Handled? {
        // death does not change any team, so this is the lookup respawn makes
        respawnee := registered;
      }
    }

    /** death by a player attacker: the victim's death, then handlePlayerAttacker. */
    method DiePlayer(victim: GamePlayer, name: string, pm: PlayerManager, now: int)
      returns (outcome: DeathOutcome)
      requires pm.Valid() && victim.attackers.Valid()
      requires victim.name in pm.players && pm.players[victim.name] == victim
      modifies victim`alive, victim.attackers`playerMap, victim.attackers`damageMap, pm.Trackers()`stats, pm.Teams()`souls
      ensures victim.attackers.Valid() && !victim.alive && unchanged(pm)
      ensures outcome.Handled? || outcome == KillerTeamless
      ensures pm.Tally() ==
        AfterDeath(old(pm.Tally()), victim.name, Killer(PlayerEntity(name), pm.players), old(victim.attackers.playerMap).Keys)
      ensures name !in pm.players ==>
        && outcome == Handled(None)
        && unchanged(victim.attackers)
        && pm.Souls() == old(pm.Souls())
      ensures name in pm.players ==>
        var killer := pm.players[name];
        && (outcome == KillerTeamless <==> killer.team == null)
        && victim.attackers.playerMap == Live(old(victim.attackers.playerMap), now, victim.attackers.ttlMillis)
        && pm.Souls() == (if outcome.Handled? then Scored(old(pm.Souls()), killer.team) else old(pm.Souls()))
        && (outcome.Handled? ==>
              outcome.message == Some(DeathMessage(victim.DisplayName(), Some(killer.DisplayName()))))
    {
      CountDeath(victim, pm);
      outcome := HandlePlayerAttacker(victim, name, pm, now);
    }

    /** death by anything else: the victim's death, then handleNonPlayerAttacker. */
    method DieOther(victim: GamePlayer, attacker: Attacker, pm: PlayerManager) returns (message: string)
      requires !attacker.PlayerEntity?
      requires pm.Valid() && victim.attackers.Valid()
      requires victim.name in pm.players && pm.players[victim.name] == victim
      modifies victim`alive, victim.stats`stats
      ensures !victim.alive && unchanged(pm, victim.attackers)
      ensures pm.Tally() == Bump(old(pm.Tally()), victim.name, DEATHS)
      ensures pm.Souls() == old(pm.Souls())
      ensures attacker.OtherEntity? && attacker.customName.Some? ==>
        message == DeathMessage(victim.DisplayName(), attacker.customName)
      ensures !(attacker.OtherEntity? && attacker.customName.Some?) ==>
        if victim.attackers.playerMap == map[] then message == DeathMessage(victim.DisplayName(), None)
        else exists e :: (IsTop(victim.attackers.playerMap, e)
          && message == DeathMessage(victim.DisplayName(), Some(
               if e.attacker in pm.players then pm.players[e.attacker].DisplayName() else e.attacker)))
    {
      CountDeath(victim, pm);
      label counted:
      message := HandleNonPlayerAttacker(victim, attacker, pm);
      pm.TallyKept@counted();
      pm.SoulsKept@counted();
    }

    /** The victim's own part of death: one more DEATHS, and not alive. */
    method CountDeath(victim: GamePlayer, pm: PlayerManager)
      requires pm.Valid()
      requires victim.name in pm.players && pm.players[victim.name] == victim
      modifies victim`alive, victim.stats`stats
      ensures !victim.alive && unchanged(pm, victim.attackers) && unchanged(victim`team, victim`online)
      ensures pm.Tally() == Bump(old(pm.Tally()), victim.name, DEATHS)
      ensures pm.Souls() == old(pm.Souls())
    {
      pm.IncrementStat(victim, DEATHS);
      label counted:
      victim.SetAlive(false);
      pm.TallyKept@counted();
      pm.SoulsKept@counted();
    }

    /** handlePlayerAttacker: nothing happens for a killer PlayerManager does
        not know. Otherwise every other attacker in the victim's ledger gets
        an assist, the ledger is swept, the killer gets a kill and the
        killer's team a soul, and the kill is announced; a teamless killer
        makes addSouls throw after the kill is counted. */
    method HandlePlayerAttacker(victim: GamePlayer, name: string, pm: PlayerManager, now: int)
      returns (outcome: DeathOutcome)
      requires pm.Valid() && victim.attackers.Valid()
      modifies victim.attackers`playerMap, victim.attackers`damageMap, pm.Trackers()`stats, pm.Teams()`souls
      ensures victim.attackers.Valid() && unchanged(victim, pm)
      ensures outcome.Handled? || outcome == KillerTeamless
      ensures name !in pm.players ==>
        && outcome == Handled(None)
        && unchanged(victim.attackers)
        && pm.Tally() == old(pm.Tally())
        && pm.Souls() == old(pm.Souls())
      ensures name in pm.players ==>
        var killer := pm.players[name];
        && (outcome == KillerTeamless <==> killer.team == null)
        && pm.Tally() == Bump(AssistAll(old(pm.Tally()), old(victim.attackers.playerMap).Keys, name), name, KILLS)
        && victim.attackers.playerMap == Live(old(victim.attackers.playerMap), now, victim.attackers.ttlMillis)
        && pm.Souls() == (if outcome.Handled? then Scored(old(pm.Souls()), killer.team) else old(pm.Souls()))
        && (outcome.Handled? ==>
              outcome.message == Some(DeathMessage(victim.DisplayName(), Some(killer.DisplayName()))))
    {
      var found := pm.GetPlayer(name);
      if found.None? {
        outcome := Handled(None);
        return;
      }
      outcome := PlayerKill(victim, found.value, pm, now);
    }

    /** handlePlayerAttacker once the killer is known. */
    method PlayerKill(victim: GamePlayer, killer: GamePlayer, pm: PlayerManager, now: int)
      returns (outcome: DeathOutcome)
      requires pm.Valid() && victim.attackers.Valid()
      requires killer.name in pm.players && pm.players[killer.name] == killer
      modifies victim.attackers`playerMap, victim.attackers`damageMap, pm.Trackers()`stats, pm.Teams()`souls
      ensures victim.attackers.Valid() && unchanged(victim, pm)
      ensures outcome.Handled? || outcome == KillerTeamless
      ensures outcome == KillerTeamless <==> killer.team == null
      ensures pm.Tally() == Bump(AssistAll(old(pm.Tally()), old(victim.attackers.playerMap).Keys, killer.name), killer.name, KILLS)
      ensures victim.attackers.playerMap == Live(old(victim.attackers.playerMap), now, victim.attackers.ttlMillis)
      ensures pm.Souls() == if outcome.Handled? then Scored(old(pm.Souls()), killer.team) else old(pm.Souls())
      ensures outcome.Handled? ==>
        outcome.message == Some(DeathMessage(victim.DisplayName(), Some(killer.DisplayName())))
    {
      CreditKill(victim, killer, pm, now);
      outcome := ScoreSoul(victim, killer, pm);
    }

    /** The bookkeeping of a kill: assists for the rest of the ledger, the
        ledger swept, a kill for the killer. */
    method CreditKill(victim: GamePlayer, killer: GamePlayer, pm: PlayerManager, now: int)
      requires pm.Valid() && victim.attackers.Valid()
      requires killer.name in pm.players && pm.players[killer.name] == killer
      modifies victim.attackers`playerMap, victim.attackers`damageMap, pm.Trackers()`stats
      ensures victim.attackers.Valid() && unchanged(victim, pm)
      ensures victim.attackers.playerMap == Live(old(victim.attackers.playerMap), now, victim.attackers.ttlMillis)
      ensures pm.Tally() == Bump(AssistAll(old(pm.Tally()), old(victim.attackers.playerMap).Keys, killer.name), killer.name, KILLS)
      ensures pm.Souls() == old(pm.Souls())
    {
      AssistLedger(victim, killer.name, pm);
      SweepAndKill(victim, killer, pm, now);
    }

    /** The end of the bookkeeping: the ledger swept, a kill for the killer. */
    method SweepAndKill(victim: GamePlayer, killer: GamePlayer, pm: PlayerManager, now: int)
      requires pm.Valid() && victim.attackers.Valid()
      requires killer.name in pm.players && pm.players[killer.name] == killer
      modifies victim.attackers`playerMap, victim.attackers`damageMap, pm.Trackers()`stats
      ensures victim.attackers.Valid()
      ensures victim.attackers.playerMap == Live(old(victim.attackers.playerMap), now, victim.attackers.ttlMillis)
      ensures pm.Tally() == Bump(old(pm.Tally()), killer.name, KILLS)
      ensures pm.Souls() == old(pm.Souls())
    {
      label start:
      victim.attackers.CleanUp(now);
      pm.TallyKept@start();
      pm.SoulsKept@start();
      pm.IncrementStat(killer, KILLS);
    }

    /** The forEach of handlePlayerAttacker over a snapshot of the victim's
        ledger: an assist for every attacker but the killer. */
    method AssistLedger(victim: GamePlayer, killer: string, pm: PlayerManager)
      requires pm.Valid() && victim.attackers.Valid()
      modifies pm.Trackers()`stats
      ensures pm.Tally() == AssistAll(old(pm.Tally()), victim.attackers.playerMap.Keys, killer)
      ensures pm.Souls() == old(pm.Souls())
    {
      label start:
      var entries := victim.attackers.GetAttackers();
      pm.TallyKept@start();
      pm.SoulsKept@start();
      SnapshotKeys(victim.attackers.playerMap, entries);
      AwardAssists(entries, killer, pm);
    }

    /** The end of handlePlayerAttacker: a soul for the killer's team and the
        announcement, or the NullPointerException of a teamless killer. */
    method ScoreSoul(victim: GamePlayer, killer: GamePlayer, pm: PlayerManager) returns (outcome: DeathOutcome)
      requires killer.name in pm.players && pm.players[killer.name] == killer
      modifies pm.Teams()`souls
      ensures unchanged(victim, victim.attackers, pm)
      ensures outcome.Handled? || outcome == KillerTeamless
      ensures outcome == KillerTeamless <==> killer.team == null
      ensures outcome.Handled? ==>
        outcome.message == Some(DeathMessage(victim.DisplayName(), Some(killer.DisplayName())))
      ensures pm.Souls() == if outcome.Handled? then Scored(old(pm.Souls()), killer.team) else old(pm.Souls())
      ensures pm.Tally() == old(pm.Tally())
    {
      if killer.team == null {
        return KillerTeamless;
      }
      pm.AddSoul(killer);
      outcome := Handled(Some(DeathMessage(victim.DisplayName(), Some(killer.DisplayName()))));
    }

    /** The assist loop of handlePlayerAttacker: one ASSISTS for every ledger
        attacker other than the killer that PlayerManager knows. */
    method AwardAssists(entries: seq<AttackerEntry>, killer: string, pm: PlayerManager)
      requires pm.Valid()
      requires forall i, j :: 0 <= i < j < |entries| ==> entries[i].attacker != entries[j].attacker
      modifies pm.Trackers()`stats
      ensures pm.Tally() == AssistAll(old(pm.Tally()), NamesOf(entries), killer)
      ensures pm.Souls() == old(pm.Souls())
    {
      var i := 0;
      assert NamesOf(entries[..0]) == {};
      AssistNone(pm.Tally(), killer);
      while i < |entries|
        invariant 0 <= i <= |entries|
        invariant pm.Tally() == AssistAll(old(pm.Tally()), NamesOf(entries[..i]), killer)
        invariant pm.Souls() == old(pm.Souls())
      {
        var a := entries[i].attacker;
        assert NamesOf(entries[..i + 1]) == NamesOf(entries[..i]) + {a};
        assert a !in NamesOf(entries[..i]);
        AssistOneMore(old(pm.Tally()), NamesOf(entries[..i]), a, killer);
        AssistOne(a, killer, pm);
        i := i + 1;
      }
      assert entries[..i] == entries;
    }

    /** One pass of the assist loop: an assist for `a` unless it is the killer. */
    method AssistOne(a: string, killer: string, pm: PlayerManager)
      requires pm.Valid()
      modifies pm.Trackers()`stats
      ensures pm.Tally() == if a != killer then Bump(old(pm.Tally()), a, ASSISTS) else old(pm.Tally())
      ensures pm.Souls() == old(pm.Souls())
    {
      if a != killer {
        var p := pm.GetPlayer(a);
        if p.Some? {
          pm.IncrementStat(p.value, ASSISTS);
        }
      }
    }

    /** handleNonPlayerAttacker: the entity's custom name, else the display
        name of the top attacker in the victim's ledger, else nobody. */
    method HandleNonPlayerAttacker(victim: GamePlayer, attacker: Attacker, pm: PlayerManager)
      returns (message: string)
      requires victim.attackers.Valid()
      ensures attacker.OtherEntity? && attacker.customName.Some? ==>
        message == DeathMessage(victim.DisplayName(), attacker.customName)
      ensures !(attacker.OtherEntity? && attacker.customName.Some?) && victim.attackers.playerMap == map[] ==>
        message == DeathMessage(victim.DisplayName(), None)
      ensures !(attacker.OtherEntity? && attacker.customName.Some?) && victim.attackers.playerMap != map[] ==>
        exists e :: IsTop(victim.attackers.playerMap, e)
          && message == DeathMessage(victim.DisplayName(), Some(
               if e.attacker in pm.players then pm.players[e.attacker].DisplayName() else e.attacker))
    {
      if attacker.OtherEntity? && attacker.customName.Some? {
        message := DeathMessage(victim.DisplayName(), attacker.customName);
      } else {
        var entries := victim.attackers.GetAttackers();
        if |entries| > 0 {
          SnapshotHead(victim.attackers.playerMap, entries);
          var top := entries[0].attacker;
          var shown := if top in pm.players then pm.players[top].DisplayName() else top;
          message := DeathMessage(victim.DisplayName(), Some(shown));
        } else {
          EmptyValuesEmpty(victim.attackers.playerMap);
          message := DeathMessage(victim.DisplayName(), None);
        }
      }
    }

    /** getPlayer(name): the member with that name in the first team, in
        insertion order, that has one. */
    function GetPlayer(name: string): (r: Option<GamePlayer>)
      reads this, teams.Values
      requires Valid()
      ensures r.None? <==> forall k | k in teams :: name !in teams[k].members
      ensures r.Some? ==> r.value.name == name
      ensures r.Some? ==> exists i :: (0 <= i < |teamOrder| && name in teams[teamOrder[i]].members
        && r.value == teams[teamOrder[i]].members[name]
        && forall j :: 0 <= j < i ==> name !in teams[teamOrder[j]].members)
    {
      var ts := TeamsInOrder();
      var r := FirstHolding(ts, name, 0);
      assert r.None? ==> forall k | k in teams :: name !in teams[k].members by {
        forall k | k in teams && r.None? ensures name !in teams[k].members {
          var i :| 0 <= i < |teamOrder| && teamOrder[i] == k;
          assert ts[i] == teams[k];
        }
      }
      r
    }

    /** The member called `name` in the first team of ts[from..] that has one. */
    function FirstHolding(ts: seq<GameTeam>, name: string, from: nat): (r: Option<GamePlayer>)
      reads ts
      requires from <= |ts|
      ensures r.None? <==> forall i :: from <= i < |ts| ==> name !in ts[i].members
      ensures r.Some? ==> exists i :: (from <= i < |ts| && name in ts[i].members && r.value == ts[i].members[name]
        && forall j :: from <= j < i ==> name !in ts[j].members)
      decreases |ts| - from
    {
      if from == |ts| then None
      else if name in ts[from].members then Some(ts[from].members[name])
      else FirstHolding(ts, name, from + 1)
    }

    /** The respawn countdown for `player`: the seconds shown, one per tick,
        then the player is alive again. */
    method Respawn(player: GamePlayer) returns (ticks: seq<int>)
      modifies player`alive
      ensures ticks == [5, 4, 3, 2, 1]
      ensures player.alive
    {
      ticks := [];
      var i := 0;
      while i < 5
        invariant 0 <= i <= 5
        invariant |ticks| == i && forall k :: 0 <= k < i ==> ticks[k] == 5 - k
        decreases 5 - i
      {
        ticks := ticks + [5 - i];
        i := i + 1;
      }
      player.SetAlive(true);
    }
  }

  // ---------------------------------------------------------------- players

  /** A map with no values has no keys. */
  lemma EmptyValuesEmpty<K, V>(m: map<K, V>)
    ensures m.Values == {} ==> m == map[]
  {
    if m != map[] {
      var k :| k in m;
      assert m[k] in m.Values;
    }
  }

  /** In a map whose values are pairwise distinct, there are as many values as keys. */
  lemma {:induction false} InjectiveCount(m: map<string, GamePlayer>)
    requires forall a, b | a in m && b in m && a != b :: m[a] != m[b]
    ensures |m.Values| == |m.Keys|
    decreases |m.Keys|
  {
    if m != map[] {
      var k :| k in m;
      var rest := m - {k};
      InjectiveCount(rest);
      forall v | v in m.Values
        ensures v in rest.Values + {m[k]}
      {
        var j :| j in m && m[j] == v;
        if j != k {
          assert rest[j] == v;
        }
      }
      assert m.Values == rest.Values + {m[k]};
      assert m[k] !in rest.Values;
      assert m.Keys == rest.Keys + {k};
    }
  }

  /** The registry of the players currently known to the server, by name. */
  class PlayerManager {
    var players: map<string, GamePlayer>

    ghost predicate Valid()
      reads this
    {
      Registered(players)
    }

    /** The stats trackers of the registered players. */
    ghost function Trackers(): set<StatsTracker>
      reads this`players
    {
      set n | n in players :: players[n].stats
    }

    /** The attacker ledgers of the registered players. */
    ghost function Ledgers(): set<OrderedAttackerCache>
      reads this
    {
      set n | n in players :: players[n].attackers
    }

    /** The teams of the registered players. */
    ghost function Teams(): set<GameTeam>
      reads this`players, players.Values`team
    {
      set n | n in players && players[n].team != null :: players[n].team
    }

    /** Every registered player's counters. */
    ghost function Tally(): (t: Tally)
      reads this`players, Trackers()`stats
      ensures t.Keys == players.Keys
    {
      map n | n in players :: players[n].stats.stats
    }

    /** The souls of the registered players' teams. */
    ghost function Souls(): (m: map<GameTeam, int>)
      reads this`players, players.Values`team, Teams()`souls
      ensures m.Keys == Teams()
    {
      map t | t in Teams() :: t.souls
    }

    /** The tallies stay put while no tracker changes. */
    twostate lemma TallyKept()
      requires unchanged(this`players) && unchanged(old(Trackers())`stats)
      ensures Tally() == old(Tally())
    {
    }

    /** The souls stay put while no team changes. */
    twostate lemma SoulsKept()
      requires unchanged(this`players) && unchanged(old(players.Values)`team) && unchanged(old(Teams())`souls)
      ensures Souls() == old(Souls())
    {
    }

    /** incrementStat on a registered player's tracker: the tally of that
        player alone moves. */
    method IncrementStat(p: GamePlayer, s: PlayerStat)
      requires Valid() && p.name in players && players[p.name] == p
      modifies p.stats`stats
      ensures unchanged(this, p, p.attackers)
      ensures Tally() == Bump(old(Tally()), p.name, s)
      ensures Souls() == old(Souls())
    {
      ghost var before := Tally();
      p.stats.Increment(s);
      forall n | n in players
        ensures Tally()[n] == Bump(before, p.name, s)[n]
      {
        assert n != p.name ==> players[n].stats.owner != p.stats.owner;
      }
    }

    /** addSouls(1) on a registered player's team. */
    method AddSoul(p: GamePlayer)
      requires p.name in players && players[p.name] == p && p.team != null
      modifies p.team`souls
      ensures Souls() == Scored(old(Souls()), p.team)
    {
      p.team.AddSouls(1);
    }

    constructor ()
      ensures Valid() && players == map[]
    {
      players := map[];
    }

    /** addPlayer: the player already registered under that name, or a new one. */
    method AddPlayer(name: string, online: bool, cacheManager: Manager) returns (p: GamePlayer)
      requires Valid()
      modifies this`players, cacheManager
      ensures Valid()
      ensures HasPlayer(name) && GetPlayer(name) == Some(p)
      ensures name in old(players) ==> p == old(players)[name] && players == old(players)
      ensures name !in old(players) ==> fresh(p) && players == old(players)[name := p]
      ensures name !in old(players) ==> p.team == null && p.alive && p.stats.stats == map[]
      ensures name !in old(players) ==> cacheManager.caches == old(cacheManager.caches) + {p.attackers}
      ensures name in old(players) ==> unchanged(cacheManager)
    {
      if name in players {
        p := players[name];
        return;
      }
      p := new GamePlayer(name, online, cacheManager);
      players := players[name := p];
    }

    /** getPlayer: the player registered under `name`, if any. */
    function GetPlayer(name: string): (r: Option<GamePlayer>)
      reads this
      ensures r.Some? <==> name in players
      ensures r.Some? ==> r.value == players[name]
      ensures Valid() && r.Some? ==> r.value.name == name
    {
      if name in players then Some(players[name]) else None
    }

    /** hasPlayer. */
    function HasPlayer(name: string): (b: bool)
      reads this
      ensures b <==> GetPlayer(name).Some?
    {
      name in players
    }

    /** removePlayer: only `name` goes. */
    method RemovePlayer(name: string)
      modifies this`players
      ensures !HasPlayer(name)
      ensures forall n :: n != name ==> GetPlayer(n) == old(GetPlayer(n))
      ensures players == old(players) - {name}
    {
      players := players - {name};
    }

    /** getPlayers: the registered players, one per name. */
    function Players(): (r: set<GamePlayer>)
      reads this
      requires Valid()
      ensures forall n | n in players :: players[n] in r
      ensures forall p | p in r :: p.name in players && players[p.name] == p
      ensures |r| == |players|
    {
      InjectiveCount(players);
      players.Values
    }
  }
}

=== FILE: game_command.dfy ===
/**
 * The guards of the /game command: `start` (with and without force) and
 * `stop`. A command returns 1 on success and 0 when a guard refuses it,
 * with the message the sender is shown.
 */
module GameCommands {
  import opened Game

  /** The messages of the guards; Started stands for no message, and
      Crashed for an exception that escapes the command with no status. */
  datatype Reply = GameActive | AtLeastTwoTeams | TooFewMembers(minPlayers: int) | Started
                 | GameNotRunning | GameStopped | Crashed(error: string)

  /** Java's int division by 2, which truncates toward zero. */
  function TruncHalf(n: int): (h: int)
    ensures var rem := n - 2 * h; rem == 0 || (rem == 1 && n > 0) || (rem == -1 && n < 0)
  {
    if n >= 0 then n / 2 else -((-n) / 2)
  }

  /** Every team of `ts` holds at least `min` members. */
  predicate AllMeet(ts: seq<GameTeam>, min: int)
    reads ts
  {
    forall j :: 0 <= j < |ts| ==> |ts[j].members| >= min
  }

  /** Every registered team holds at least `min` members. */
  ghost predicate AllHaveAtLeast(gm: GameManager, min: int)
    reads gm`teams, gm.teams.Values`members
  {
    forall k | k in gm.teams :: |gm.teams[k].members| >= min
  }

  /** The reply of gameStart, guard by guard: the stage first, then the
      number of teams, then (unless forced) the member minimum. */
  function StartReply(stage: Stage, teamCount: int, minPlayers: int, allMeet: bool, force: bool): (r: Reply)
    ensures r == Started <==> stage == Lobby && teamCount >= 2 && (force || allMeet)
    ensures r == GameActive <==> stage != Lobby
    ensures r == AtLeastTwoTeams <==> stage == Lobby && teamCount < 2
    ensures r == TooFewMembers(minPlayers) <==> stage == Lobby && teamCount >= 2 && !force && !allMeet
  {
    if stage != Lobby then GameActive
    else if teamCount < 2 then AtLeastTwoTeams
    else if !allMeet && !force then TooFewMembers(minPlayers)
    else Started
  }

  /** gameStart: only in the lobby, with at least two teams and, unless
      forced, at least half the per-team maximum (rounded toward zero) in
      every team; then the game starts, unless start() throws for want of
      a map, which leaves the stage WAITING and returns no status (0 here). */
  method GameStart(gm: GameManager, force: bool) returns (status: int, reply: Reply)
    requires forall k :: k in gm.teamOrder ==> k in gm.teams
    modifies gm`stage
    ensures var guard := old(StartReply(gm.stage, |gm.teams|, TruncHalf(gm.maxPlayersPerTeam),
                                        AllMeet(gm.TeamsInOrder(), TruncHalf(gm.maxPlayersPerTeam)), force));
      && reply == (if guard == Started && gm.StartThrows() then Crashed(GameManager.NO_MAP_ERROR) else guard)
      && gm.stage == (if guard == Started then Waiting else old(gm.stage))
    ensures status == (if reply == Started then 1 else 0)
    ensures gm.gameMap.Some? ==> !reply.Crashed?
  {
    if gm.stage != Lobby {
      return 0, GameActive;
    }
    if |gm.teams| < 2 {
      return 0, AtLeastTwoTeams;
    }
    var minPlayers := TruncHalf(gm.maxPlayersPerTeam);
    var short := AnyShort(gm, minPlayers);
    if short && !force {
      return 0, TooFewMembers(minPlayers);
    }
    var o := gm.Start();
    if o.Fail? {
      return 0, Crashed(o.error);
    }
    return 1, Started;
  }

  /** The loop over getTeams(): whether some team has fewer than `min` members. */
  method AnyShort(gm: GameManager, min: int) returns (short: bool)
    requires forall k :: k in gm.teamOrder ==> k in gm.teams
    ensures short <==> !AllMeet(gm.TeamsInOrder(), min)
  {
    short := AnyShortOf(gm.TeamsInOrder(), min);
  }

  /** The loop over getTeams(): whether some team has fewer than `min` members. */
  method AnyShortOf(teams: seq<GameTeam>, min: int) returns (short: bool)
    ensures short <==> !AllMeet(teams, min)
  {
    var i := 0;
    while i < |teams|
      invariant 0 <= i <= |teams|
      invariant forall j :: 0 <= j < i ==> |teams[j].members| >= min
    {
      if |teams[i].members| < min {
        return true;
      }
      i := i + 1;
    }
    return false;
  }

  /** Every team is met when going through the teams in order. */
  lemma InOrderCoversTeams(gm: GameManager, min: int)
    requires gm.Valid()
    ensures AllHaveAtLeast(gm, min) <==> AllMeet(gm.TeamsInOrder(), min)
  {
    var ts := gm.TeamsInOrder();
    if !AllHaveAtLeast(gm, min) {
      var k :| k in gm.teams && |gm.teams[k].members| < min;
      var j :| 0 <= j < |gm.teamOrder| && gm.teamOrder[j] == k;
      assert ts[j] == gm.teams[k];
    } else {
      forall j | 0 <= j < |ts| ensures |ts[j].members| >= min {
        assert gm.teamOrder[j] in gm.teams;
      }
    }
  }

  /** stop: refused in the lobby; from any other stage back to the lobby. */
  method GameStop(gm: GameManager) returns (status: int, reply: Reply)
    modifies gm`stage
    ensures status == 1 <==> old(gm.stage) != Lobby
    ensures status == 1 ==> reply == GameStopped
    ensures status != 1 ==> status == 0 && reply == GameNotRunning
    ensures gm.stage == Lobby
  {
    if gm.stage == Lobby {
      return 0, GameNotRunning;
    }
    gm.Stop();
    return 1, GameStopped;
  }
}

=== FILE: game_map.dfy ===
/**
 * Team colors (GameTeam.Color) and the map description (GameMap with its
 * TeamSetup enum).
 */
module TeamColors {
  import opened Wrappers
  import opened JavaStrings

  datatype Color = Red | Blue | Green | Yellow | Orange | Purple

  /** values(), in declaration order. */
  const COLORS: seq<Color> := [Red, Blue, Green, Yellow, Orange, Purple]

  /** ordinal(): the color's position in COLORS. */
  function Ordinal(c: Color): (i: nat)
    ensures i < |COLORS| && COLORS[i] == c
  {
    match c
    case Red => 0
    case Blue => 1
    case Green => 2
    case Yellow => 3
    case Orange => 4
    case Purple => 5
  }

  /** The color's name: a lower-case word, so `from` matches its upper-case
      constant name ignoring case. */
  function Name(c: Color): (r: string)
    ensures 3 <= |r| <= 6 && forall i :: 0 <= i < |r| ==> 'a' <= r[i] <= 'z'
  {
    match c
    case Red => "red"
    case Blue => "blue"
    case Green => "green"
    case Yellow => "yellow"
    case Orange => "orange"
    case Purple => "purple"
  }

  /** An upper-case hexadecimal digit. */
  predicate HexDigit(ch: char)
  {
    ('0' <= ch <= '9') || ('A' <= ch <= 'F')
  }

  /** colorHex: an RGB colour, six hexadecimal digits for a `<color:#...>` tag. */
  function Hex(c: Color): (r: string)
    ensures |r| == 6 && forall i :: 0 <= i < |r| ==> HexDigit(r[i])
  {
    match c
    case Red => "CC3933"
    case Blue => "0094FF"
    case Green => "4FCC33"
    case Yellow => "D5CC59"
    case Orange => "E56F19"
    case Purple => "C126D9"
  }

  /** secondaryColorHex: the lighter shade for a member's name, six
      hexadecimal digits, never the team colour itself. */
  function SecondaryHex(c: Color): (r: string)
    ensures |r| == 6 && forall i :: 0 <= i < |r| ==> HexDigit(r[i])
    ensures r != Hex(c)
  {
    match c
    case Red => "FE6C67"
    case Blue => "66BFFF"
    case Green => "95E085"
    case Yellow => "E0D985"
    case Orange => "F0A875"
    case Purple => "E093EC"
  }

  /** The first color in `cs` whose name equals `name` ignoring case. */
  function FindColor(cs: seq<Color>, name: string): (r: Option<Color>)
    ensures r.Some? ==> r.value in cs && EqualsIgnoreCase(Name(r.value), name)
    ensures r.None? <==> forall c :: c in cs ==> !EqualsIgnoreCase(Name(c), name)
    decreases |cs|
  {
    if cs == [] then None
    else if EqualsIgnoreCase(Name(cs[0]), name) then Some(cs[0])
    else FindColor(cs[1..], name)
  }

  /** Color.from: the color whose name matches case-insensitively, or null. */
  function From(name: string): (r: Option<Color>)
    ensures r.Some? ==> EqualsIgnoreCase(Name(r.value), name)
    ensures r.None? <==> forall c: Color :: !EqualsIgnoreCase(Name(c), name)
  {
    forall c: Color ensures c in COLORS { var _ := Ordinal(c); }
    FindColor(COLORS, name)
  }

  /** Names are lower case, so upper-casing a name is an ignore-case match. */
  lemma NameIgnoresCase(c: Color)
    ensures EqualsIgnoreCase(Name(c), ToUpperString(Name(c)))
  {
  }

  /** Distinct colors have names that differ even ignoring case. */
  lemma NamesDistinctIgnoringCase(a: Color, b: Color)
    ensures EqualsIgnoreCase(Name(a), Name(b)) ==> a == b
  {
    if EqualsIgnoreCase(Name(a), Name(b)) {
      var na, nb := Name(a), Name(b);
      assert |na| == |nb| && ToUpper(na[0]) == ToUpper(nb[0]);
    }
  }

  /** from(name) finds a color by its own name in any capitalisation. */
  lemma FromName(c: Color, name: string)
    requires EqualsIgnoreCase(Name(c), name)
    ensures From(name) == Some(c)
  {
    var r := From(name);
    assert r.Some?;
    var nr, nc := Name(r.value), Name(c);
    assert EqualsIgnoreCase(nr, nc) by {
      assert |nr| == |name| == |nc|;
      forall i | 0 <= i < |nr| ensures ToUpper(nr[i]) == ToUpper(nc[i]) {
        assert ToUpper(nr[i]) == ToUpper(name[i]);
      }
    }
    NamesDistinctIgnoringCase(r.value, c);
  }
}

module GameMaps {
  import opened Wrappers
  import opened JavaStrings
  import opened TeamColors

  /** GameManager.MAX_PLAYERS. */
  const MAX_PLAYERS: int := 32

  datatype TeamSetup = TwoTeams | FourTeams | SixTeams

  const SETUPS: seq<TeamSetup> := [TwoTeams, FourTeams, SixTeams]

  /** ordinal(): the setup's position in SETUPS. */
  function SetupOrdinal(s: TeamSetup): (i: nat)
    ensures i < |SETUPS| && SETUPS[i] == s
  {
    match s
    case TwoTeams => 0
    case FourTeams => 1
    case SixTeams => 2
  }

  function TeamCount(s: TeamSetup): int
  {
    match s
    case TwoTeams => 2
    case FourTeams => 4
    case SixTeams => 6
  }

  /** The first setup in `ss` with `count` teams. */
  function FindSetup(ss: seq<TeamSetup>, count: int): (r: Option<TeamSetup>)
    ensures r.Some? ==> r.value in ss && TeamCount(r.value) == count
    ensures r.None? <==> forall s :: s in ss ==> TeamCount(s) != count
    decreases |ss|
  {
    if ss == [] then None
    else if TeamCount(ss[0]) == count then Some(ss[0])
    else FindSetup(ss[1..], count)
  }

  /** TeamSetup.from: the setup with this many teams, or null. */
  function From(count: int): (r: Option<TeamSetup>)
    ensures r.Some? <==> count in {2, 4, 6}
    ensures r.Some? ==> TeamCount(r.value) == count
  {
    forall s: TeamSetup ensures s in SETUPS { var _ := SetupOrdinal(s); }
    FindSetup(SETUPS, count)
  }

  /** from(s.getTeamCount()) == s for every setup. */
  lemma FromTeamCount(s: TeamSetup)
    ensures From(TeamCount(s)) == Some(s)
  {
    var r := From(TeamCount(s));
    assert TeamCount(r.value) == TeamCount(s);
  }

  /** getMaxPlayersInTeam: MAX_PLAYERS divided by the team count, rounded down. */
  function MaxPlayersInTeam(s: TeamSetup): (m: int)
    ensures m * TeamCount(s) <= MAX_PLAYERS < (m + 1) * TeamCount(s)
  {
    MAX_PLAYERS / TeamCount(s)
  }

  lemma MaxPlayersValues()
    ensures MaxPlayersInTeam(TwoTeams) == 16
    ensures MaxPlayersInTeam(FourTeams) == 8
    ensures MaxPlayersInTeam(SixTeams) == 5
  {
  }

  /** String.join(sep, parts). */
  function Join(sep: string, parts: seq<string>): string
    decreases |parts|
  {
    if parts == [] then ""
    else if |parts| == 1 then parts[0]
    else parts[0] + sep + Join(sep, parts[1..])
  }

  /** The number of occurrences of `c` in `s`. */
  function Count(s: string, c: char): nat
    decreases |s|
  {
    if s == [] then 0 else (if s[0] == c then 1 else 0) + Count(s[1..], c)
  }

  lemma {:induction false} CountAppend(a: string, b: string, c: char)
    ensures Count(a + b, c) == Count(a, c) + Count(b, c)
    decreases |a|
  {
    if a != [] {
      assert (a + b)[1..] == a[1..] + b;
      CountAppend(a[1..], b, c);
    } else {
      assert a + b == b;
    }
  }

  lemma {:induction false} CountDigits(s: string)
    requires forall i :: 0 <= i < |s| ==> '0' <= s[i] <= '9'
    ensures Count(s, 'v') == 0
    decreases |s|
  {
    if s != [] {
      CountDigits(s[1..]);
    }
  }

  /** getFormattedTeamSetup: teamCount copies of the per-team maximum joined by "v". */
  function FormattedTeamSetup(s: TeamSetup): string
  {
    Join("v", seq(TeamCount(s), _ => NatToString(MaxPlayersInTeam(s))))
  }

  /** Joining n copies of a digit string with "v" gives exactly n-1 separators. */
  lemma {:induction false} JoinCopiesCount(d: string, n: nat)
    requires n >= 1
    requires forall i :: 0 <= i < |d| ==> '0' <= d[i] <= '9'
    ensures Count(Join("v", seq(n, _ => d)), 'v') == n - 1
    decreases n
  {
    var parts := seq(n, _ => d);
    CountDigits(d);
    if n > 1 {
      assert parts[1..] == seq(n - 1, _ => d);
      JoinCopiesCount(d, n - 1);
      CountAppend(d, "v", 'v');
      CountAppend(d + "v", Join("v", parts[1..]), 'v');
    }
  }

  /** The formatted setup names one team per "v"-separated field. */
  lemma FormattedSeparators(s: TeamSetup)
    ensures Count(FormattedTeamSetup(s), 'v') == TeamCount(s) - 1
  {
    JoinCopiesCount(NatToString(MaxPlayersInTeam(s)), TeamCount(s));
  }

  lemma FormattedTwoTeams()
    ensures FormattedTeamSetup(TwoTeams) == "16v16"
  {
    assert NatToString(16) == "16";
    assert seq(2, _ => "16") == ["16", "16"];
    assert Join("v", ["16"]) == "16";
  }

  lemma FormattedFourTeams()
    ensures FormattedTeamSetup(FourTeams) == "8v8v8v8"
  {
    assert NatToString(8) == "8";
    assert seq(4, _ => "8") == ["8", "8", "8", "8"];
    assert Join("v", ["8"]) == "8";
    assert Join("v", ["8", "8"]) == "8v8";
    assert Join("v", ["8", "8", "8"]) == "8v8v8";
  }

  lemma FormattedSixTeams()
    ensures FormattedTeamSetup(SixTeams) == "5v5v5v5v5v5"
  {
    assert NatToString(5) == "5";
    assert seq(6, _ => "5") == ["5", "5", "5", "5", "5", "5"];
    assert Join("v", ["5"]) == "5";
    assert Join("v", ["5", "5"]) == "5v5";
    assert Join("v", ["5", "5", "5"]) == "5v5v5";
    assert Join("v", ["5", "5", "5", "5"]) == "5v5v5v5";
    assert Join("v", ["5", "5", "5", "5", "5"]) == "5v5v5v5v5";
  }

  /** A position in a world; the world itself is not modelled. */
  datatype Location = Location(x: real, y: real, z: real)

  /** A map: its setup, waiting room and the per-color spawn and heart positions. */
  datatype GameMap = GameMap(
    name: string,
    teamSetup: TeamSetup,
    waitingRoom: Location,
    teamSpawnLocations: map<Color, Location>,
    teamHeartLocations: map<Color, Location>)

  /** getTeamSpawnLocation: a plain lookup, null when unset. */
  function TeamSpawnLocation(m: GameMap, c: Color): (r: Option<Location>)
    ensures r.Some? <==> c in m.teamSpawnLocations
    ensures r.Some? ==> r.value == m.teamSpawnLocations[c]
  {
    if c in m.teamSpawnLocations then Some(m.teamSpawnLocations[c]) else None
  }

  /** getTeamHeartLocation: a plain lookup, null when unset. */
  function TeamHeartLocation(m: GameMap, c: Color): (r: Option<Location>)
    ensures r.Some? <==> c in m.teamHeartLocations
    ensures r.Some? ==> r.value == m.teamHeartLocations[c]
  {
    if c in m.teamHeartLocations then Some(m.teamHeartLocations[c]) else None
  }
}

=== FILE: java_strings.dfy ===
/**
 * The few java.lang.String and java.lang.Character operations the game
 * logic relies on: String.compareTo, startsWith, equalsIgnoreCase,
 * hashCode, Character.isLetterOrDigit / toUpperCase and String.valueOf(int).
 * Characters are Dafny chars; case mapping covers ASCII, letter tests
 * the Latin blocks up to U+024F.
 */
module JavaStrings {

  /** Java's String.compareTo: the difference of the first differing
      characters, or the difference of the lengths when one is a prefix. */
  function CompareStrings(a: string, b: string): int
  {
    if |a| == 0 || |b| == 0 then |a| - |b|
    else if a[0] != b[0] then a[0] as int - b[0] as int
    else CompareStrings(a[1..], b[1..])
  }

  lemma {:induction false} CompareZeroIffEqual(a: string, b: string)
    ensures CompareStrings(a, b) == 0 <==> a == b
  {
    if |a| == 0 || |b| == 0 {
    } else if a[0] != b[0] {
    } else {
      CompareZeroIffEqual(a[1..], b[1..]);
      assert a == [a[0]] + a[1..] && b == [b[0]] + b[1..];
    }
  }

  lemma {:induction false} CompareAntisymmetric(a: string, b: string)
    ensures CompareStrings(b, a) == -CompareStrings(a, b)
  {
    if |a| == 0 || |b| == 0 {
    } else if a[0] != b[0] {
    } else {
      CompareAntisymmetric(a[1..], b[1..]);
    }
  }

  lemma {:induction false} CompareTransitive(a: string, b: string, c: string)
    requires CompareStrings(a, b) < 0 && CompareStrings(b, c) < 0
    ensures CompareStrings(a, c) < 0
  {
    if |a| == 0 {
    } else if |b| == 0 {
    } else if |c| == 0 {
    } else if a[0] != b[0] || b[0] != c[0] {
    } else {
      CompareTransitive(a[1..], b[1..], c[1..]);
    }
  }

  /** The pieces of `s` between occurrences of `sep`, every empty piece
      kept, as String.split(sep, -1) gives them: splitting "a--b-" at '-'
      gives ["a", "", "b", ""]. */
  function SplitAll(s: string, sep: char): (p: seq<string>)
    ensures |p| >= 1
  {
    if s == [] then [""]
    else
      var rest := SplitAll(s[1..], sep);
      if s[0] == sep then [""] + rest
      else [[s[0]] + rest[0]] + rest[1..]
  }

  /** String.startsWith. */
  predicate StartsWith(s: string, prefix: string)
  {
    |prefix| <= |s| && s[..|prefix|] == prefix
  }

  /** Character.toUpperCase, on the ASCII range. */
  function ToUpper(c: char): (u: char)
  {
    if 'a' <= c <= 'z' then (c as int - 'a' as int + 'A' as int) as char else c
  }

  /** String.toUpperCase(Locale.ROOT), on the ASCII range. */
  function ToUpperString(s: string): (r: string)
    ensures |r| == |s| && forall i :: 0 <= i < |s| ==> r[i] == ToUpper(s[i])
  {
    if s == [] then [] else [ToUpper(s[0])] + ToUpperString(s[1..])
  }

  /** String.equalsIgnoreCase, on the ASCII range. */
  predicate EqualsIgnoreCase(a: string, b: string)
  {
    |a| == |b| && forall i :: 0 <= i < |a| ==> ToUpper(a[i]) == ToUpper(b[i])
  }

  /** Character.isLetterOrDigit on U+0000..U+024F: the ASCII letters and
      digits, the Latin-1 letters (every character from U+00C0 to U+00FF
      but the signs × and ÷, and ª, µ, º) and all of Latin Extended-A and -B,
      which hold the Polish letters such as Ł, ó, ź, ż, ą, ę. */
  predicate IsLetterOrDigit(c: char)
  {
    ('a' <= c <= 'z') || ('A' <= c <= 'Z') || ('0' <= c <= '9')
    || c == '\U{AA}' || c == '\U{B5}' || c == '\U{BA}'
    || ('\U{C0}' <= c <= '\U{24F}' && c != '\U{D7}' && c != '\U{F7}')
  }

  function DigitChar(d: nat): char
    requires d < 10
  {
    ('0' as int + d) as char
  }

  /** String.valueOf(int) for a non-negative int. */
  function NatToString(n: nat): (s: string)
    ensures |s| >= 1
    ensures forall i :: 0 <= i < |s| ==> '0' <= s[i] <= '9'
  {
    if n < 10 then [DigitChar(n)] else NatToString(n / 10) + [DigitChar(n % 10)]
  }

  /** The number a string of decimal digits spells, most significant first. */
  function DigitsValue(s: string): nat
    requires forall i :: 0 <= i < |s| ==> '0' <= s[i] <= '9'
  {
    if s == [] then 0 else 10 * DigitsValue(s[..|s| - 1]) + (s[|s| - 1] as int - '0' as int)
  }

  /** String.valueOf spells n in decimal, without a leading zero except for
      0 itself, so distinct numbers give distinct strings. */
  lemma {:induction false} NatToStringSpells(n: nat)
    ensures DigitsValue(NatToString(n)) == n
    ensures |NatToString(n)| > 1 ==> NatToString(n)[0] != '0'
    decreases n
  {
    if n >= 10 {
      var s := NatToString(n);
      NatToStringSpells(n / 10);
      assert s[..|s| - 1] == NatToString(n / 10);
      if |NatToString(n / 10)| == 1 {
        assert NatToString(n / 10) == [DigitChar(n / 10)];
      }
    }
  }

  /** Different numbers are shown differently. */
  lemma NatToStringInjective(a: nat, b: nat)
    requires NatToString(a) == NatToString(b)
    ensures a == b
  {
    NatToStringSpells(a);
    NatToStringSpells(b);
  }

  const TWO_POW_32: int := 0x1_0000_0000
  const INT_MIN: int := -0x8000_0000
  const INT_MAX: int := 0x7FFF_FFFF

  /** A Java int arithmetic result: the value modulo 2^32, signed. */
  function ToInt32(x: int): (r: int)
    ensures INT_MIN <= r <= INT_MAX
    ensures (r - x) % TWO_POW_32 == 0
  {
    (x - INT_MIN) % TWO_POW_32 + INT_MIN
  }

  /** String.hashCode: h = 31 * h + c over the characters, in int arithmetic. */
  function StringHash(s: string): (h: int)
    ensures INT_MIN <= h <= INT_MAX
  {
    if s == [] then 0 else ToInt32(31 * StringHash(s[..|s| - 1]) + s[|s| - 1] as int)
  }
}

=== FILE: placeholders.dfy ===
/**
 * TServerPlaceholder: the tab-list placeholders the plugin registers with
 * the TAB plugin, their identifiers ("%tt_game_red_team_member_1%"), the
 * lookup from an identifier, the per-color bundle of team placeholders
 * and the text each placeholder shows for the current game.
 */
module Placeholders {
  import opened Wrappers
  import opened JavaStrings
  import opened TeamColors
  import opened GameMaps
  import opened Game

  /** One of a team's eight member slots, 0 for "member_1". */
  type Slot = k: int | 0 <= k < 8

  /** The enum constants: four about the game, then ten per color. */
  datatype Placeholder =
    | GameMapName
    | GameTeamSetup
    | GameTeamsReady
    | GameTeamsCount
    | TeamName(color: Color)
    | TeamMember(color: Color, slot: Slot)
    | TeamHeartHealth(color: Color)

  // ------------------------------------------------------- identifiers

  const PREFIX: string := "%tt_game_"
  const TEAM: string := "_team_"

  /** The identifier after the color's "_team_". */
  function Kind(p: Placeholder): string
  {
    match p
    case TeamName(_) => "name"
    case TeamMember(_, k) => "member_" + [DigitChar(k + 1)]
    case TeamHeartHealth(_) => "heart_health"
    case _ => ""
  }

  /** The identifier between PREFIX and the closing '%'. */
  function Body(p: Placeholder): string
  {
    match p
    case GameMapName => "map"
    case GameTeamSetup => "team_setup"
    case GameTeamsReady => "teams_ready"
    case GameTeamsCount => "teams_count"
    case TeamName(c) => Name(c) + TEAM + Kind(p)
    case TeamMember(c, _) => Name(c) + TEAM + Kind(p)
    case TeamHeartHealth(c) => Name(c) + TEAM + Kind(p)
  }

  /** getPlaceholder: the identifier the constant is registered under. */
  function Id(p: Placeholder): string
  {
    PREFIX + Body(p) + "%"
  }

  /** The color whose lower-case name starts with `ch`. */
  function ColorByInitial(ch: char): Option<Color>
  {
    if ch == 'r' then Some(Red)
    else if ch == 'b' then Some(Blue)
    else if ch == 'g' then Some(Green)
    else if ch == 'y' then Some(Yellow)
    else if ch == 'o' then Some(Orange)
    else if ch == 'p' then Some(Purple)
    else None
  }

  /** Reads a body back from its first character, its length and, for a
      member slot, its last digit. */
  function DecodeBody(b: string): Option<Placeholder>
  {
    if |b| < 3 then None
    else if b[0] == 'm' then Some(GameMapName)
    else if b[0] == 't' then
      if |b| == 10 then Some(GameTeamSetup)
      else if |b| > 6 && b[6] == 'r' then Some(GameTeamsReady)
      else Some(GameTeamsCount)
    else
      var c := ColorByInitial(b[0]);
      if c.None? || |b| < |Name(c.value)| + 6 then None
      else DecodeKind(c.value, b[|Name(c.value)| + 6..])
  }

  /** Reads the part after a color's "_team_" back. */
  function DecodeKind(c: Color, rest: string): Option<Placeholder>
  {
    if |rest| == 4 then Some(TeamName(c))
    else if |rest| == 12 then Some(TeamHeartHealth(c))
    else if |rest| == 8 && '1' <= rest[7] <= '8' then Some(TeamMember(c, rest[7] as int - '1' as int))
    else None
  }

  /** Reads an identifier back to its placeholder. */
  function Decode(s: string): Option<Placeholder>
  {
    if |s| < 10 || s[|s| - 1] != '%' then None else DecodeBody(s[9..|s| - 1])
  }

  /** A color's name starts with a letter that names it alone, and with
      neither of the game bodies' first letters. */
  lemma Initial(c: Color)
    ensures |Name(c)| >= 3 && ColorByInitial(Name(c)[0]) == Some(c)
    ensures Name(c)[0] != 'm' && Name(c)[0] != 't'
  {
  }

  /** A body is PREFIX and '%' away from its identifier. */
  lemma IdParts(p: Placeholder)
    ensures var s := Id(p); |s| == |Body(p)| + 10 && s[9..|s| - 1] == Body(p) && s[|s| - 1] == '%'
  {
    var s := Id(p);
    assert s == PREFIX + Body(p) + "%";
    assert s[9..|s| - 1] == Body(p);
  }

  /** Behind a color's name and "_team_" comes the kind. */
  lemma ColorBodyParts(c: Color, kind: string)
    ensures var b := Name(c) + TEAM + kind;
      b[0] == Name(c)[0] && |b| >= |Name(c)| + 6 && b[|Name(c)| + 6..] == kind
  {
    Initial(c);
    var b := Name(c) + TEAM + kind;
    assert b[|Name(c)| + 6..] == kind;
  }

  /** A color's body reads back through the part after "_team_". */
  lemma DecodeColorBody(c: Color, kind: string)
    ensures DecodeBody(Name(c) + TEAM + kind) == DecodeKind(c, kind)
  {
    Initial(c);
    ColorBodyParts(c, kind);
  }

  /** The part after "_team_" reads back to its placeholder. */
  lemma DecodeKinds(p: Placeholder)
    requires p.TeamName? || p.TeamMember? || p.TeamHeartHealth?
    ensures DecodeKind(p.color, Kind(p)) == Some(p)
  {
    if p.TeamMember? {
      var rest := Kind(p);
      assert |rest| == 8 && rest[7] == DigitChar(p.slot + 1);
    }
  }

  /** Every identifier reads back to its own placeholder. */
  lemma IdDecodes(p: Placeholder)
    ensures Decode(Id(p)) == Some(p)
  {
    IdParts(p);
    if p.TeamName? || p.TeamMember? || p.TeamHeartHealth? {
      DecodeColorBody(p.color, Kind(p));
      DecodeKinds(p);
    }
  }

  /** No two placeholders share an identifier. */
  lemma IdInjective(p: Placeholder, q: Placeholder)
    ensures Id(p) == Id(q) <==> p == q
  {
    IdDecodes(p);
    IdDecodes(q);
  }

  // ------------------------------------------------------- values()

  /** A color's eight member placeholders, slot by slot. */
  function MemberValues(c: Color): (r: seq<Placeholder>)
    ensures |r| == 8
    ensures forall k: Slot :: r[k] == TeamMember(c, k)
  {
    seq(8, (k: int) requires 0 <= k < 8 => TeamMember(c, k))
  }

  /** A color's constants in declaration order: name, members 1 to 8, heart health. */
  function ColorValues(c: Color): seq<Placeholder>
  {
    [TeamName(c)] + MemberValues(c) + [TeamHeartHealth(c)]
  }

  /** The constants of the colors `cs`, color after color. */
  function ColorsValues(cs: seq<Color>): seq<Placeholder>
  {
    if cs == [] then [] else ColorValues(cs[0]) + ColorsValues(cs[1..])
  }

  /** values(), in declaration order. */
  function Values(): seq<Placeholder>
  {
    [GameMapName, GameTeamSetup, GameTeamsReady, GameTeamsCount] + ColorsValues(COLORS)
  }

  /** A color's constants are the ten placeholders of that color. */
  lemma ColorValuesExactly(c: Color, p: Placeholder)
    ensures p in ColorValues(c) <==> ColorOf(p) == Some(c)
    ensures |ColorValues(c)| == 10
  {
    if p.TeamMember? && p.color == c {
      assert ColorValues(c)[p.slot + 1] == p;
    }
  }

  /** The constants of `cs` are those of a color in `cs`, ten per color. */
  lemma {:induction false} ColorsValuesExactly(cs: seq<Color>, p: Placeholder)
    ensures p in ColorsValues(cs) <==> ColorOf(p).Some? && ColorOf(p).value in cs
    ensures |ColorsValues(cs)| == 10 * |cs|
    decreases |cs|
  {
    if cs != [] {
      ColorValuesExactly(cs[0], p);
      ColorsValuesExactly(cs[1..], p);
      assert cs == [cs[0]] + cs[1..];
    }
  }

  /** values() lists every constant, each once: 4 about the game and 10 per color. */
  lemma ValuesComplete(p: Placeholder)
    ensures p in Values()
    ensures |Values()| == 4 + 10 * |COLORS|
  {
    ColorsValuesExactly(COLORS, p);
    if ColorOf(p).Some? {
      assert COLORS[Ordinal(ColorOf(p).value)] == ColorOf(p).value;
    }
  }

  /** from: the first constant, in declaration order, whose identifier is
      the given string; none when no identifier matches. */
  method From(s: string) returns (r: Option<Placeholder>)
    ensures forall p :: r == Some(p) <==> Id(p) == s
  {
    r := FirstWithId(Values(), s);
    if r.Some? {
      var found := r.value;
      forall p ensures Some(found) == Some(p) <==> Id(p) == s {
        IdInjective(p, found);
      }
    } else {
      forall p ensures Id(p) != s {
        ValuesComplete(p);
      }
    }
  }

  /** from's loop over the constants `vs`: the first with identifier `s`. */
  method FirstWithId(vs: seq<Placeholder>, s: string) returns (r: Option<Placeholder>)
    ensures r.Some? ==> r.value in vs && Id(r.value) == s
    ensures r.None? ==> forall p | p in vs :: Id(p) != s
  {
    var i := 0;
    while i < |vs|
      invariant 0 <= i <= |vs|
      invariant forall j :: 0 <= j < i ==> Id(vs[j]) != s
    {
      if Id(vs[i]) == s {
        return Some(vs[i]);
      }
      i := i + 1;
    }
    r := None;
  }

  // ------------------------------------------------------- TeamPlaceholders

  /** The placeholders of one team color. */
  datatype TeamPlaceholders = TeamPlaceholders(
    color: Color,
    namePlaceholder: Placeholder,
    heartHealthPlaceholder: Placeholder,
    memberPlaceholders: seq<Placeholder>)

  /** Which color a placeholder belongs to; none for the game ones. */
  function ColorOf(p: Placeholder): Option<Color>
  {
    match p
    case TeamName(c) => Some(c)
    case TeamMember(c, _) => Some(c)
    case TeamHeartHealth(c) => Some(c)
    case _ => None
  }

  /** The constructor's switch: each color's own name, heart-health and
      member constants. */
  function Build(c: Color): (tp: TeamPlaceholders)
    ensures tp.color == c
    ensures tp.namePlaceholder.TeamName? && tp.heartHealthPlaceholder.TeamHeartHealth?
    ensures |tp.memberPlaceholders| == 8
    ensures forall k: Slot :: tp.memberPlaceholders[k].TeamMember? && tp.memberPlaceholders[k].slot == k
    ensures ColorOf(tp.namePlaceholder) == Some(c) && ColorOf(tp.heartHealthPlaceholder) == Some(c)
    ensures forall k: Slot :: ColorOf(tp.memberPlaceholders[k]) == Some(c)
  {
    TeamPlaceholders(c, TeamName(c), TeamHeartHealth(c), MemberValues(c))
  }

  /** getMemberPlaceholders: a copy of the member placeholders. */
  function MemberPlaceholders(tp: TeamPlaceholders): seq<Placeholder>
  {
    tp.memberPlaceholders
  }

  /** getMemberPlaceholder: an index outside the member placeholders throws
      IndexOutOfBoundsException. */
  function MemberPlaceholder(tp: TeamPlaceholders, index: int): (r: Result<Placeholder, string>)
    ensures r.Ok? <==> 0 <= index < |tp.memberPlaceholders|
    ensures r.Ok? ==> r.value == tp.memberPlaceholders[index]
  {
    if index < 0 || index >= |tp.memberPlaceholders| then
      Err("Member placeholder index out of bounds: " + (if index < 0 then "-" + NatToString(-index) else NatToString(index)))
    else Ok(tp.memberPlaceholders[index])
  }

  /** getAllPlaceholders: name, heart health, then the members. */
  function AllPlaceholders(tp: TeamPlaceholders): (all: seq<Placeholder>)
    ensures |all| == |tp.memberPlaceholders| + 2
  {
    [tp.namePlaceholder, tp.heartHealthPlaceholder] + tp.memberPlaceholders
  }

  /** A color's bundle holds exactly that color's ten placeholders, each once:
      name first, heart health second, then member k + 1 at position k + 2. */
  lemma BundleIsTheColorsPlaceholders(c: Color)
    ensures var all := AllPlaceholders(Build(c));
      && |all| == 10
      && all[0] == TeamName(c) && all[1] == TeamHeartHealth(c)
      && (forall k: Slot :: all[k + 2] == TeamMember(c, k))
      && (forall p :: p in all <==> ColorOf(p) == Some(c))
      && (forall i, j :: 0 <= i < j < |all| ==> all[i] != all[j])
  {
    var all := AllPlaceholders(Build(c));
    forall p | ColorOf(p) == Some(c) ensures p in all {
      if p.TeamMember? {
        assert all[p.slot + 2] == p;
      }
    }
  }

  /** Slot k of a color's bundle is member k + 1; any other index throws. */
  lemma MemberPlaceholderSlots(c: Color, index: int)
    ensures 0 <= index < 8 ==> MemberPlaceholder(Build(c), index) == Ok(TeamMember(c, index))
    ensures !(0 <= index < 8) ==> MemberPlaceholder(Build(c), index).Err?
  {
  }

  /** forColor's EnumMap: a bundle is built on a color's first request and
      the same bundle is handed out from then on. */
  class Registry {
    var cache: map<Color, TeamPlaceholders>

    ghost predicate Valid()
      reads this
    {
      forall c | c in cache :: cache[c] == Build(c)
    }

    constructor ()
      ensures Valid() && cache == map[]
    {
      cache := map[];
    }

    /** forColor: computeIfAbsent on the cache. */
    method ForColor(c: Color) returns (tp: TeamPlaceholders)
      requires Valid()
      modifies this
      ensures Valid()
      ensures tp == Build(c)
      ensures cache == old(cache)[c := tp]
      ensures c in old(cache) ==> cache == old(cache) && tp == old(cache)[c]
    {
      if c !in cache {
        cache := cache[c := Build(c)];
      }
      tp := cache[c];
    }
  }

  // ------------------------------------------------------- suppliers

  /** The number of teams in `ts` holding at least `max` members. */
  function CountReady(ts: seq<GameTeam>, max: int): (n: nat)
    reads ts
    ensures n <= |ts|
  {
    if ts == [] then 0
    else (if |ts[0].members| >= max then 1 else 0) + CountReady(ts[1..], max)
  }

  /** All teams count as ready exactly when each is full; none do exactly
      when none is. */
  lemma {:induction false} CountReadyBounds(ts: seq<GameTeam>, max: int)
    ensures CountReady(ts, max) == |ts| <==> forall i :: 0 <= i < |ts| ==> |ts[i].members| >= max
    ensures CountReady(ts, max) == 0 <==> forall i :: 0 <= i < |ts| ==> |ts[i].members| < max
    decreases |ts|
  {
    if ts != [] {
      CountReadyBounds(ts[1..], max);
      assert forall i :: 1 <= i < |ts| ==> ts[i] == ts[1..][i - 1];
    }
  }

  /** getNTeamMember's lookup: the team of that color and its member in
      slot n in joining order; nothing when the team is missing or has at
      most n members (the size guard lets size n through, but skipping n
      members then finds nothing). */
  function NthMember(gm: GameManager, c: Color, n: nat): (r: Option<GamePlayer>)
    reads gm, gm.teams.Values
    requires gm.Valid() && forall t | t in gm.teams.Values :: t.Valid()
    ensures var t := gm.GetTeamByColor(c);
      r.Some? <==> t.Some? && n < |t.value.memberOrder|
    ensures var t := gm.GetTeamByColor(c);
      r.Some? ==> n < |t.value.memberOrder| && t.value.GetMember(t.value.memberOrder[n]) == r
  {
    match gm.GetTeamByColor(c)
    case None => None
    case Some(team) =>
      MembersCount(team);
      if |team.members| < n then None
      else
        var ms := team.MembersInOrder();
        if n < |ms| then Some(ms[n]) else None
  }

  /** A valid team has as many members as its join order has names. */
  lemma MembersCount(t: GameTeam)
    requires t.Valid()
    ensures |t.members| == |t.memberOrder|
  {
    var ks := t.members.Keys;
    assert ks == set n | n in t.memberOrder;
    DistinctCard(t.memberOrder);
  }

  lemma {:induction false} DistinctCard(s: seq<string>)
    requires Seqs.Distinct(s)
    ensures |set n | n in s| == |s|
    decreases |s|
  {
    if s != [] {
      var rest := s[1..];
      assert Seqs.Distinct(rest) by {
        forall i, j | 0 <= i < j < |rest| ensures rest[i] != rest[j] {
          assert rest[i] == s[i + 1] && rest[j] == s[j + 1];
        }
      }
      DistinctCard(rest);
      assert s[0] !in rest by {
        forall i | 0 <= i < |rest| ensures rest[i] != s[0] {
          assert rest[i] == s[i + 1];
        }
      }
      assert (set n | n in s) == {s[0]} + (set n | n in rest);
    }
  }

  /** String.valueOf(int). */
  function IntToString(i: int): (s: string)
    ensures i >= 0 ==> s == NatToString(i)
    ensures i < 0 ==> s == "-" + NatToString(-i)
  {
    if i < 0 then "-" + NatToString(-i) else NatToString(i)
  }

  /** The supplier of each placeholder, read against the current game:
      the map's name and team setup (a game without a map throws), the
      number of full teams and of teams, and per color the team's display
      name, a member's display name or the heart health, "" without a team. */
  function Value(p: Placeholder, gm: GameManager): (r: Result<string, string>)
    reads *
    requires gm.Valid() && forall t | t in gm.teams.Values :: t.Valid()
    ensures r.Err? <==> (p == GameMapName || p == GameTeamSetup) && gm.gameMap.None?
    ensures p.TeamName? || p.TeamHeartHealth? || p.TeamMember? ==>
      (gm.GetTeamByColor(p.color).None? ==> r == Ok(""))
    ensures p.TeamMember? ==> (r == Ok("") <== NthMember(gm, p.color, p.slot).None?)
    ensures p == GameTeamsCount ==> r == Ok(NatToString(|gm.teams|))
    ensures p == GameTeamsReady ==> r == Ok(NatToString(CountReady(gm.TeamsInOrder(), gm.maxPlayersPerTeam)))
    ensures p == GameMapName && gm.gameMap.Some? ==> r == Ok(gm.gameMap.value.name)
    ensures p == GameTeamSetup && gm.gameMap.Some? ==> r == Ok(FormattedTeamSetup(gm.gameMap.value.teamSetup))
    ensures p.TeamName? && gm.GetTeamByColor(p.color).Some? ==>
      r == Ok(gm.GetTeamByColor(p.color).value.DisplayName())
    ensures p.TeamHeartHealth? && gm.GetTeamByColor(p.color).Some? ==>
      r == Ok(IntToString(gm.GetTeamByColor(p.color).value.heartHealth))
    ensures p.TeamMember? && NthMember(gm, p.color, p.slot).Some? ==>
      r == Ok(NthMember(gm, p.color, p.slot).value.DisplayName())
  {
    match p
    case GameMapName =>
      if gm.gameMap.None? then Err("no map is set") else Ok(gm.gameMap.value.name)
    case GameTeamSetup =>
      if gm.gameMap.None? then Err("no map is set") else Ok(FormattedTeamSetup(gm.gameMap.value.teamSetup))
    case GameTeamsReady =>
      Ok(NatToString(CountReady(gm.TeamsInOrder(), gm.maxPlayersPerTeam)))
    case GameTeamsCount =>
      Ok(NatToString(|gm.teams|))
    case TeamName(c) =>
      var t := gm.GetTeamByColor(c);
      if t.None? then Ok("") else Ok(t.value.DisplayName())
    case TeamHeartHealth(c) =>
      var t := gm.GetTeamByColor(c);
      if t.None? then Ok("") else Ok(IntToString(t.value.heartHealth))
    case TeamMember(c, k) =>
      var m := NthMember(gm, c, k);
      if m.None? then Ok("") else Ok(m.value.DisplayName())
  }
}

=== FILE: profile_stat_key.dfy ===
/**
 * The profile statistic keys (ProfileStatKey) and their lookup by key string.
 */
module ProfileStatKeys {
  import opened Wrappers
  import Stats

  datatype ProfileStatKey =
    | GamesPlayed | Wins | Losses
    | PlayTime | Kills | DefenseKills | Assists | Deaths | HeartDamage | TowersDestroyed
    | CoalMined | CopperMined | IronMined | GoldMined | DiamondMined | EmeraldMined
    | LapisMined | NetheriteMined | QuartzMined | AmethystMined
    | WoodGathered
    | MelonsHarvested | WheatHarvested | CarrotsHarvested | PotatoesHarvested
    | FishCaught
    | EnchantmentsApplied | SupplyCratesOpened

  /** getKey. */
  function Key(k: ProfileStatKey): string
  {
    match k
    case GamesPlayed => "games_played"
    case Wins => "wins"
    case Losses => "losses"
    case PlayTime => "play_time"
    case Kills => "kills"
    case DefenseKills => "defense_kills"
    case Assists => "assists"
    case Deaths => "deaths"
    case HeartDamage => "heart_damage"
    case TowersDestroyed => "towers_destroyed"
    case CoalMined => "coal_mined"
    case CopperMined => "copper_mined"
    case IronMined => "iron_mined"
    case GoldMined => "gold_mined"
    case DiamondMined => "diamond_mined"
    case EmeraldMined => "emerald_mined"
    case LapisMined => "lapis_mined"
    case NetheriteMined => "netherite_mined"
    case QuartzMined => "quartz_mined"
    case AmethystMined => "amethyst_mined"
    case WoodGathered => "wood_gathered"
    case MelonsHarvested => "melons_harvested"
    case WheatHarvested => "wheat_harvested"
    case CarrotsHarvested => "carrots_harvested"
    case PotatoesHarvested => "potatoes_harvested"
    case FishCaught => "fish_caught"
    case EnchantmentsApplied => "enchantments_applied"
    case SupplyCratesOpened => "supply_crates_opened"
  }

  /** values(), in declaration order. */
  const VALUES: seq<ProfileStatKey> := [
    GamesPlayed, Wins, Losses,
    PlayTime, Kills, DefenseKills, Assists, Deaths, HeartDamage, TowersDestroyed,
    CoalMined, CopperMined, IronMined, GoldMined, DiamondMined, EmeraldMined,
    LapisMined, NetheriteMined, QuartzMined, AmethystMined,
    WoodGathered,
    MelonsHarvested, WheatHarvested, CarrotsHarvested, PotatoesHarvested,
    FishCaught,
    EnchantmentsApplied, SupplyCratesOpened
  ]

  lemma ValuesComplete(k: ProfileStatKey)
    ensures k in VALUES
  {
  }

  /** The constant a string names, read off its length and first two
      characters alone. */
  function BySignature(s: string): Option<ProfileStatKey>
    requires |s| >= 2
  {
    match |s|
    case 4 => if s[0] == 'w' && s[1] == 'i' then Some(Wins) else None
    case 5 => if s[0] == 'k' && s[1] == 'i' then Some(Kills) else None
    case 6 =>
      if s[0] == 'l' && s[1] == 'o' then Some(Losses)
      else if s[0] == 'd' && s[1] == 'e' then Some(Deaths)
      else None
    case 7 => if s[0] == 'a' && s[1] == 's' then Some(Assists) else None
    case 9 => if s[0] == 'p' && s[1] == 'l' then Some(PlayTime) else None
    case 10 =>
      if s[0] == 'c' && s[1] == 'o' then Some(CoalMined)
      else if s[0] == 'i' && s[1] == 'r' then Some(IronMined)
      else if s[0] == 'g' && s[1] == 'o' then Some(GoldMined)
      else None
    case 11 =>
      if s[0] == 'l' && s[1] == 'a' then Some(LapisMined)
      else if s[0] == 'f' && s[1] == 'i' then Some(FishCaught)
      else None
    case 12 =>
      if s[0] == 'g' && s[1] == 'a' then Some(GamesPlayed)
      else if s[0] == 'h' && s[1] == 'e' then Some(HeartDamage)
      else if s[0] == 'c' && s[1] == 'o' then Some(CopperMined)
      else if s[0] == 'q' && s[1] == 'u' then Some(QuartzMined)
      else None
    case 13 =>
      if s[0] == 'd' && s[1] == 'e' then Some(DefenseKills)
      else if s[0] == 'd' && s[1] == 'i' then Some(DiamondMined)
      else if s[0] == 'e' && s[1] == 'm' then Some(EmeraldMined)
      else if s[0] == 'w' && s[1] == 'o' then Some(WoodGathered)
      else None
    case 14 => if s[0] == 'a' && s[1] == 'm' then Some(AmethystMined) else None
    case 15 =>
      if s[0] == 'n' && s[1] == 'e' then Some(NetheriteMined)
      else if s[0] == 'w' && s[1] == 'h' then Some(WheatHarvested)
      else None
    case 16 =>
      if s[0] == 't' && s[1] == 'o' then Some(TowersDestroyed)
      else if s[0] == 'm' && s[1] == 'e' then Some(MelonsHarvested)
      else None
    case 17 => if s[0] == 'c' && s[1] == 'a' then Some(CarrotsHarvested) else None
    case 18 => if s[0] == 'p' && s[1] == 'o' then Some(PotatoesHarvested) else None
    case 20 =>
      if s[0] == 'e' && s[1] == 'n' then Some(EnchantmentsApplied)
      else if s[0] == 's' && s[1] == 'u' then Some(SupplyCratesOpened)
      else None
    case _ => None
  }

  /** Which quarter of the declaration order a constant is in; it only
      splits SignatureDecodes into four smaller proofs. */
  function Quarter(k: ProfileStatKey): int
  {
    match k
    case GamesPlayed => 0
    case Wins => 0
    case Losses => 0
    case PlayTime => 0
    case Kills => 0
    case DefenseKills => 0
    case Assists => 0
    case Deaths => 1
    case HeartDamage => 1
    case TowersDestroyed => 1
    case CoalMined => 1
    case CopperMined => 1
    case IronMined => 1
    case GoldMined => 1
    case DiamondMined => 2
    case EmeraldMined => 2
    case LapisMined => 2
    case NetheriteMined => 2
    case QuartzMined => 2
    case AmethystMined => 2
    case WoodGathered => 2
    case MelonsHarvested => 3
    case WheatHarvested => 3
    case CarrotsHarvested => 3
    case PotatoesHarvested => 3
    case FishCaught => 3
    case EnchantmentsApplied => 3
    case SupplyCratesOpened => 3
  }

  /** The length and first two characters of a key already name its constant. */
  lemma SignatureDecodes(k: ProfileStatKey)
    ensures |Key(k)| >= 2 && BySignature(Key(k)) == Some(k)
  {
    match Quarter(k)
    case 0 => DecodesA(k);
    case 1 => DecodesB(k);
    case 2 => DecodesC(k);
    case _ => DecodesD(k);
  }

  /** SignatureDecodes, one quarter of the constants at a time. */
  lemma DecodesA(k: ProfileStatKey)
    requires Quarter(k) == 0
    ensures |Key(k)| >= 2 && BySignature(Key(k)) == Some(k)
  {
  }

  lemma DecodesB(k: ProfileStatKey)
    requires Quarter(k) == 1
    ensures |Key(k)| >= 2 && BySignature(Key(k)) == Some(k)
  {
  }

  lemma DecodesC(k: ProfileStatKey)
    requires Quarter(k) == 2
    ensures |Key(k)| >= 2 && BySignature(Key(k)) == Some(k)
  {
  }

  lemma DecodesD(k: ProfileStatKey)
    requires Quarter(k) == 3
    ensures |Key(k)| >= 2 && BySignature(Key(k)) == Some(k)
  {
  }

  /** Distinct constants have distinct keys. */
  lemma KeyInjective(a: ProfileStatKey, b: ProfileStatKey)
    ensures Key(a) == Key(b) ==> a == b
  {
    SignatureDecodes(a);
    SignatureDecodes(b);
  }

  /** The first constant in `vals` whose key equals `key` exactly. */
  function Find(vals: seq<ProfileStatKey>, key: string): (r: Option<ProfileStatKey>)
    ensures r.Some? ==> r.value in vals && Key(r.value) == key
    ensures r.None? <==> forall k :: k in vals ==> Key(k) != key
    decreases |vals|
  {
    if vals == [] then None
    else if Key(vals[0]) == key then Some(vals[0])
    else Find(vals[1..], key)
  }

  /** fromKey: the constant with this key, or null. */
  function FromKey(key: string): (r: Option<ProfileStatKey>)
    ensures r.Some? ==> Key(r.value) == key
    ensures r.None? <==> forall k: ProfileStatKey :: Key(k) != key
  {
    forall k: ProfileStatKey ensures k in VALUES { ValuesComplete(k); }
    Find(VALUES, key)
  }

  /** fromKey(k.getKey()) == k for every constant. */
  lemma FromKeyRoundTrip(k: ProfileStatKey)
    ensures FromKey(Key(k)) == Some(k)
  {
    ValuesComplete(k);
    KeyInjective(FromKey(Key(k)).value, k);
  }

  /** A string whose length and first two characters are no key's is not a key. */
  lemma NotAKey(s: string)
    requires |s| >= 2 && BySignature(s).None?
    ensures FromKey(s).None?
  {
    forall k ensures Key(k) != s {
      SignatureDecodes(k);
    }
  }

  /** Every key starts with a lower-case letter. */
  lemma KeyLowerCase(k: ProfileStatKey)
    ensures |Key(k)| > 0 && 'a' <= Key(k)[0] <= 'z'
  {
    SignatureDecodes(k);
    SignatureLowerCase(Key(k));
  }

  /** Only strings starting with a lower-case letter have a signature. */
  lemma SignatureLowerCase(s: string)
    requires |s| >= 2 && BySignature(s).Some?
    ensures 'a' <= s[0] <= 'z'
  {
  }

  /** Matching is case-sensitive: a string starting with an upper-case
      letter, such as "Kills", names no constant. */
  lemma FromKeyCaseSensitive(s: string)
    requires |s| > 0 && 'A' <= s[0] <= 'Z'
    ensures FromKey(s).None?
  {
    forall k ensures Key(k) != s {
      KeyLowerCase(k);
    }
  }

  const PLAYER_STAT_ONLY: set<string> :=
    {"melon_harvested", "carrot_harvested", "potato_harvested", "blocks_placed", "blocks_broken"}

  /** The PlayerStat keys with no profile counterpart. */
  lemma PlayerStatOnlyKeys()
    ensures forall s :: s in PLAYER_STAT_ONLY ==> s in Stats.BUILTIN_KEYS && FromKey(s).None?
  {
    forall s | s in PLAYER_STAT_ONLY ensures FromKey(s).None? {
      NotAKey(s);
    }
  }

  /** The profile keys with no PlayerStat counterpart. */
  lemma ProfileOnlyKeys()
    ensures forall k :: k in {GamesPlayed, Wins, Losses, DefenseKills} ==> Key(k) !in Stats.BUILTIN_KEYS
  {
  }
}

=== FILE: seqs.dfy ===
/**
 * Sequence helpers shared by the insertion-ordered maps of the model
 * (LinkedHashMap keys are kept as a duplicate-free sequence).
 */
module Seqs {
  predicate Distinct<T(==)>(s: seq<T>)
  {
    forall i, j :: 0 <= i < j < |s| ==> s[i] != s[j]
  }

  /** `s` without any occurrence of `x`, order kept. */
  function Without<T(==)>(s: seq<T>, x: T): (r: seq<T>)
    ensures forall y :: y in r ==> y in s && y != x
    ensures forall y :: y in s && y != x ==> y in r
    ensures |r| <= |s|
    ensures Distinct(s) ==> Distinct(r)
    decreases |s|
  {
    if s == [] then []
    else if s[0] == x then Without(s[1..], x)
    else
      var rest := Without(s[1..], x);
      assert Distinct(s) ==> s[0] !in s[1..];
      assert Distinct(s) ==> Distinct(s[1..]);
      [s[0]] + rest
  }

  /** LinkedHashMap.put on the key order: a new key goes last, an old one stays put. */
  function Touch<T(==)>(s: seq<T>, x: T): (r: seq<T>)
    ensures forall y :: y in r ==> y in s || y == x
    ensures forall y :: y in s ==> y in r
    ensures x in r
    ensures Distinct(s) ==> Distinct(r)
  {
    if x in s then s else s + [x]
  }

  /** The values of `m` listed in the key order `order` (LinkedHashMap.values()). */
  function ValuesInOrder<V>(order: seq<string>, m: map<string, V>): (r: seq<V>)
    requires forall k :: k in order ==> k in m
    ensures |r| == |order|
    ensures forall i :: 0 <= i < |order| ==> r[i] == m[order[i]]
  {
    seq(|order|, i requires 0 <= i < |order| => m[order[i]])
  }

  /** A sequence with no elements is empty. */
  lemma NoElementEmpty<T>(s: seq<T>)
    ensures (forall x :: x !in s) ==> s == []
  {
    if s != [] {
      assert s[0] in s;
    }
  }
}

=== FILE: stats.dfy ===
/**
 * Player statistic types (PlayerStat), their registry and JSON adapter,
 * and the per-player counter map (StatsTracker).
 */
module Stats {
  import opened Wrappers
  import opened JavaStrings
  import opened Seqs

  /** A statistic type. Equality is equality of keys, as PlayerStatImpl.equals. */
  datatype PlayerStat = PlayerStatImpl(key: string)

  /** PlayerStatImpl.hashCode: the key's hash. */
  function StatHash(s: PlayerStat): (h: int)
    ensures INT_MIN <= h <= INT_MAX
  {
    StringHash(s.key)
  }

  /** Equal stats hash alike, and two stats are equal exactly when their keys are. */
  lemma StatEquality(a: PlayerStat, b: PlayerStat)
    ensures a == b <==> a.key == b.key
    ensures a == b ==> StatHash(a) == StatHash(b)
  {
  }

  /** The constants the game routines count. */
  const DEATHS: PlayerStat := PlayerStatImpl("deaths")
  const KILLS: PlayerStat := PlayerStatImpl("kills")
  const ASSISTS: PlayerStat := PlayerStatImpl("assists")

  /** The keys registered by the built-in constants, in declaration order. */
  const BUILTIN_KEYS: seq<string> := [
    "play_time",
    "kills", "deaths", "assists", "heart_damage", "towers_destroyed",
    "coal_mined", "copper_mined", "iron_mined", "gold_mined", "diamond_mined",
    "emerald_mined", "lapis_mined", "amethyst_mined", "quartz_mined", "netherite_mined",
    "blocks_placed", "blocks_broken",
    "wood_gathered",
    "carrot_harvested", "melon_harvested", "potato_harvested", "wheat_harvested",
    "fish_caught",
    "enchantments_applied", "supply_crates_opened"
  ]

  lemma BuiltinKeysDistinct()
    ensures |BUILTIN_KEYS| == 26 && Distinct(BUILTIN_KEYS)
  {
  }

  /** The statistic registry: a map from key to stat that remembers the
      order in which keys were first registered. */
  class Registry {
    var entries: map<string, PlayerStat>
    var order: seq<string>

    ghost predicate Valid()
      reads this
    {
      && Distinct(order)
      && (forall k :: k in entries <==> k in order)
      && (forall k | k in entries :: entries[k].key == k)
    }

    /** The registry after the static initialiser: every built-in constant registered. */
    constructor ()
      ensures Valid()
      ensures order == BUILTIN_KEYS
      ensures forall k :: k in entries <==> k in BUILTIN_KEYS
    {
      entries := map[];
      order := [];
      new;
      BuiltinKeysDistinct();
      var i := 0;
      while i < |BUILTIN_KEYS|
        invariant 0 <= i <= |BUILTIN_KEYS|
        invariant Valid()
        invariant order == BUILTIN_KEYS[..i]
        decreases |BUILTIN_KEYS| - i
      {
        var _ := Register(BUILTIN_KEYS[i]);
        i := i + 1;
      }
    }

    /** Stores a new stat under `key`, replacing any earlier one; a key
        already present keeps its place in the order. */
    method Register(key: string) returns (stat: PlayerStat)
      requires Valid()
      modifies this
      ensures Valid()
      ensures stat == PlayerStatImpl(key)
      ensures entries == old(entries)[key := stat]
      ensures order == if key in old(entries) then old(order) else old(order) + [key]
    {
      stat := PlayerStatImpl(key);
      entries := entries[key := stat];
      if key !in order {
        order := order + [key];
      }
    }

    /** The stat registered under `key`, or null. */
    function FromKey(key: string): (r: Option<PlayerStat>)
      reads this
      requires Valid()
      ensures r.Some? <==> key in order
      ensures r.Some? ==> r.value.key == key
    {
      if key in entries then Some(entries[key]) else None
    }

    /** All registered stats, in registration order. */
    function GetAll(): (r: seq<PlayerStat>)
      reads this
      requires Valid()
      ensures |r| == |order|
      ensures forall i :: 0 <= i < |r| ==> r[i].key == order[i]
      ensures Distinct(r)
      ensures forall s :: s in r <==> FromKey(s.key) == Some(s)
    {
      seq(|order|, i requires 0 <= i < |order| && order[i] in entries reads this => entries[order[i]])
    }
  }

  /** A JSON value as the adapter sees it. */
  datatype JsonElement = JsonPrimitive(text: string) | JsonNonPrimitive

  /** Adapter.serialize: the stat's key as a JSON string. */
  function Serialize(s: PlayerStat): (j: JsonElement)
    ensures j.JsonPrimitive? && j.text == s.key
  {
    JsonPrimitive(s.key)
  }

  /** Adapter.deserialize: the registered stat for the string's key; an
      unknown key is a JsonParseException; a non-string element fails in
      getAsString. */
  function Deserialize(registry: Registry, j: JsonElement): (r: Result<PlayerStat, string>)
    reads registry
    requires registry.Valid()
    ensures r.Ok? <==> j.JsonPrimitive? && j.text in registry.order
    ensures r.Ok? ==> r.value.key == j.text
  {
    match j
    case JsonNonPrimitive => Err("not a JSON string")
    case JsonPrimitive(key) =>
      match registry.FromKey(key)
      case None => Err("Unknown PlayerStat key: " + key)
      case Some(stat) => Ok(stat)
  }

  /** Serialising then deserialising a registered stat gives it back. */
  lemma AdapterRoundTrip(registry: Registry, s: PlayerStat)
    requires registry.Valid()
    requires s in registry.GetAll()
    ensures Deserialize(registry, Serialize(s)) == Ok(s)
  {
  }

  /** Deserialising a key nobody registered fails with a parse error naming the key. */
  lemma AdapterUnknownKey(registry: Registry, key: string)
    requires registry.Valid()
    requires key !in registry.order
    ensures Deserialize(registry, JsonPrimitive(key)) == Err("Unknown PlayerStat key: " + key)
  {
  }

  /** One player's statistic counters. */
  class StatsTracker {
    var stats: map<PlayerStat, int>
    /** The name of the player the tracker belongs to; the model uses it to
        tell the trackers of different players apart. */
    ghost const owner: string

    constructor (ghost owner: string)
      ensures stats == map[] && this.owner == owner
    {
      stats := map[];
      this.owner := owner;
    }

    /** The counter's value, 0 for a stat never touched. */
    function GetStat(key: PlayerStat): (v: int)
      reads this`stats
      ensures key !in stats ==> v == 0
      ensures key in stats ==> v == stats[key]
    {
      if key in stats then stats[key] else 0
    }

    /** first / second as a double, 0 when second is 0. */
    function GetRatio(first: PlayerStat, second: PlayerStat): (r: real)
      reads this`stats
      ensures GetStat(second) == 0 ==> r == 0.0
      ensures GetStat(second) != 0 ==> r * GetStat(second) as real == GetStat(first) as real
    {
      if GetStat(second) == 0 then 0.0 else GetStat(first) as real / GetStat(second) as real
    }

    /** incrementStat(key, value): merge with sum; only `key` changes. */
    method IncrementBy(key: PlayerStat, value: int)
      modifies this`stats
      ensures stats == old(stats)[key := old(GetStat(key)) + value]
      ensures GetStat(key) == old(GetStat(key)) + value
      ensures forall k :: k != key ==> GetStat(k) == old(GetStat(k))
    {
      stats := stats[key := GetStat(key) + value];
    }

    /** incrementStat(key): adds one. */
    method Increment(key: PlayerStat)
      modifies this`stats
      ensures stats == old(stats)[key := old(GetStat(key)) + 1]
      ensures GetStat(key) == old(GetStat(key)) + 1
      ensures forall k :: k != key ==> GetStat(k) == old(GetStat(k))
    {
      IncrementBy(key, 1);
    }

    /** decrementStat(key, value): merge with the negated value; no floor at 0. */
    method DecrementBy(key: PlayerStat, value: int)
      modifies this`stats
      ensures stats == old(stats)[key := old(GetStat(key)) - value]
      ensures GetStat(key) == old(GetStat(key)) - value
      ensures forall k :: k != key ==> GetStat(k) == old(GetStat(k))
    {
      IncrementBy(key, -value);
    }

    /** decrementStat(key): subtracts one. */
    method Decrement(key: PlayerStat)
      modifies this`stats
      ensures stats == old(stats)[key := old(GetStat(key)) - 1]
      ensures GetStat(key) == old(GetStat(key)) - 1
      ensures forall k :: k != key ==> GetStat(k) == old(GetStat(k))
    {
      IncrementBy(key, -1);
    }

    /** setStat: overwrites one counter. */
    method SetStat(key: PlayerStat, value: int)
      modifies this`stats
      ensures stats == old(stats)[key := value]
      ensures GetStat(key) == value
      ensures forall k :: k != key ==> GetStat(k) == old(GetStat(k))
    {
      stats := stats[key := value];
    }

    /** reset: every existing counter becomes 0, and no key is removed. */
    method Reset()
      modifies this`stats
      ensures stats.Keys == old(stats).Keys
      ensures forall k :: GetStat(k) == 0
    {
      stats := map k | k in stats :: 0;
    }
  }
}

=== FILE: suggestions.dfy ===
/**
 * SuggestionProviders.fromCollection: the command-argument suggestions
 * offered while a player types, filtered by the word being typed.
 */
module Suggestions {
  import opened JavaStrings

  /** The word being typed: the last piece of the input split at spaces,
      empty pieces kept, so an input ending in a space gives "". */
  function LastWord(input: string): (w: string)
  {
    var parts := SplitAll(input, ' ');
    parts[|parts| - 1]
  }

  /** Whether a suggestion is offered for the word being typed: every one
      for an empty word, otherwise those starting with it. */
  predicate Offered(suggestion: string, word: string)
  {
    word == "" || StartsWith(suggestion, word)
  }

  /** The suggestions offered, in the collection's order. */
  function Matching(suggestions: seq<string>, word: string): (r: seq<string>)
  {
    if suggestions == [] then []
    else if Offered(suggestions[0], word) then [suggestions[0]] + Matching(suggestions[1..], word)
    else Matching(suggestions[1..], word)
  }

  /** fromCollection's provider, run on one input: each suggestion that
      starts with the word being typed goes to the builder, in order. */
  method Suggest(suggestions: seq<string>, input: string) returns (built: seq<string>)
    ensures built == Matching(suggestions, LastWord(input))
  {
    var parts := SplitAll(input, ' ');
    var lastPart := parts[|parts| - 1];
    built := [];
    var i := 0;
    while i < |suggestions|
      invariant 0 <= i <= |suggestions|
      invariant built + Matching(suggestions[i..], lastPart) == Matching(suggestions, lastPart)
    {
      assert suggestions[i..][1..] == suggestions[i + 1..];
      var suggestion := suggestions[i];
      if lastPart != "" && !StartsWith(suggestion, lastPart) {
        i := i + 1;
        continue;
      }
      built := built + [suggestion];
      i := i + 1;
    }
  }

  /** Exactly the suggestions starting with the word are offered, never
      more than the collection; MatchingAppend and MatchingMultiset add
      that the order is kept and each is offered as often as it is held. */
  lemma {:induction false} MatchingExactly(suggestions: seq<string>, word: string)
    ensures forall s :: s in Matching(suggestions, word) <==> s in suggestions && Offered(s, word)
    ensures |Matching(suggestions, word)| <= |suggestions|
    ensures (forall s | s in suggestions :: Offered(s, word)) ==> Matching(suggestions, word) == suggestions
    decreases |suggestions|
  {
    if suggestions != [] {
      MatchingExactly(suggestions[1..], word);
      assert suggestions == [suggestions[0]] + suggestions[1..];
    }
  }

  /** Filtering a concatenation filters each part in turn, so the offered
      suggestions keep the collection's order. */
  lemma {:induction false} MatchingAppend(a: seq<string>, b: seq<string>, word: string)
    ensures Matching(a + b, word) == Matching(a, word) + Matching(b, word)
    decreases |a|
  {
    if a != [] {
      assert (a + b)[1..] == a[1..] + b;
      MatchingAppend(a[1..], b, word);
    } else {
      assert a + b == b;
    }
  }

  /** Each offered suggestion appears as often as the collection holds it;
      one not offered never appears. */
  lemma {:induction false} MatchingMultiset(a: seq<string>, word: string, s: string)
    ensures multiset(Matching(a, word))[s] == if Offered(s, word) then multiset(a)[s] else 0
    decreases |a|
  {
    if a != [] {
      MatchingMultiset(a[1..], word, s);
      assert a == [a[0]] + a[1..];
      assert multiset(a) == multiset([a[0]]) + multiset(a[1..]);
    }
  }

  /** An empty word, as after a trailing space, offers the whole collection. */
  lemma EmptyWordOffersAll(suggestions: seq<string>, input: string)
    requires LastWord(input) == ""
    ensures Matching(suggestions, LastWord(input)) == suggestions
  {
    MatchingExactly(suggestions, "");
  }

  /** The word being typed has no space in it and ends the input; an
      input without a space is all one word. */
  lemma {:induction false} LastWordIsSuffix(input: string)
    ensures ' ' !in LastWord(input)
    ensures |LastWord(input)| <= |input| && input[|input| - |LastWord(input)|..] == LastWord(input)
    ensures |input| > 0 && input[|input| - 1] == ' ' ==> LastWord(input) == ""
    ensures |SplitAll(input, ' ')| == 1 ==> LastWord(input) == input
    ensures |SplitAll(input, ' ')| > 1 ==> ' ' in input
    ensures |LastWord(input)| < |input| ==> input[|input| - |LastWord(input)| - 1] == ' '
    decreases |input|
  {
    if input != [] {
      var tail := input[1..];
      LastWordIsSuffix(tail);
      var rest := SplitAll(tail, ' ');
      assert input == [input[0]] + tail;
      if input[0] != ' ' && |rest| == 1 {
        assert LastWord(input) == [input[0]] + rest[0];
      } else {
        assert LastWord(input) == LastWord(tail);
      }
      if |input| > 1 {
        assert tail[|tail| - 1] == input[|input| - 1];
      }
    }
  }
}

=== FILE: team_command.dfy ===
/**
 * The guards of the /team subcommands. Each subcommand runs on the game
 * player behind the command sender (getGamePlayer), checks its guards in
 * order, answers the first that fails and otherwise changes the teams.
 * Every `...Reply` function states the guard order; every method performs
 * the subcommand on the game state and returns the reply it sends.
 */
module TeamCommands {
  import opened Wrappers
  import opened JavaStrings
  import opened Seqs
  import opened TeamColors
  import opened Game

  /** Who ran the command: the console or a player, by name. */
  datatype Sender = Console | PlayerSender(name: string)

  /** The messages the subcommands send; Unregistered stands for the
      silent return of a sender the plugin does not know. */
  datatype Reply =
    | PlayerOnly | Unregistered | GameActive
    | NotInTeam | MustBeLeader | PlayerNotInTeam
    | InvalidColor(colorName: string) | InvalidName(name: string)
    | ColorTaken(colorName: string) | AlreadyExists(name: string) | Created
    | HaveToBeLeaderToDisband | Disbanded
    | AlreadyInTeam | TeamNotFound(name: string) | TeamFull | Joined
    | CannotLeaveIfLeader | Left
    | CannotRemoveYourself | Kicked
    | ChangedName(oldName: string, newName: string)
    | ColorChanged(color: Color)
    | LeaderTransferred

  // ------------------------------------------------------- shared guards

  /** getGamePlayer: console senders are refused, senders the plugin does
      not know are ignored, and outside the lobby nothing may change. */
  function Resolve(sender: Sender, pm: PlayerManager, stage: Stage): (r: Result<GamePlayer, Reply>)
    reads pm
    ensures r.Ok? <==> sender.PlayerSender? && sender.name in pm.players && stage == Lobby
    ensures r.Ok? ==> r.value == pm.players[sender.name]
    ensures sender.Console? ==> r == Err(PlayerOnly)
    ensures sender.PlayerSender? && sender.name !in pm.players ==> r == Err(Unregistered)
    ensures sender.PlayerSender? && sender.name in pm.players && stage != Lobby ==> r == Err(GameActive)
  {
    if sender.Console? then Err(PlayerOnly)
    else
      var gp := pm.GetPlayer(sender.name);
      if gp.None? then Err(Unregistered)
      else if stage != Lobby then Err(GameActive)
      else Ok(gp.value)
  }

  /** requireTeamLeader: the player's team, when the player is in one and
      is its leader (players are equal when their names are). */
  function RequireTeamLeader(player: GamePlayer): (r: Result<GameTeam, Reply>)
    reads player`team, player.team
    ensures r.Ok? <==> player.team != null && SamePlayer(player, player.team.leader)
    ensures r.Ok? ==> r.value == player.team
    ensures player.team == null ==> r == Err(NotInTeam)
    ensures player.team != null && !SamePlayer(player, player.team.leader) ==> r == Err(MustBeLeader)
  {
    if player.team == null then Err(NotInTeam)
    else if !SamePlayer(player, player.team.leader) then Err(MustBeLeader)
    else Ok(player.team)
  }

  /** requirePlayerInTeam: the game's player with that name, provided
      `team` has a member of that name. */
  function RequirePlayerInTeam(gm: GameManager, team: GameTeam, name: string): (r: Result<GamePlayer, Reply>)
    reads gm, gm.teams.Values, team
    requires gm.Valid()
    ensures r.Ok? <==> gm.GetPlayer(name).Some? && name in team.members
    ensures r.Ok? ==> r.value == gm.GetPlayer(name).value && r.value.name == name
    ensures r.Err? ==> r.error == PlayerNotInTeam
  {
    var target := gm.GetPlayer(name);
    if target.None? || !team.HasMember(target.value) then Err(PlayerNotInTeam)
    else Ok(target.value)
  }

  /** For a registered team the lookup succeeds exactly for its members. */
  lemma InTeamExactlyMembers(gm: GameManager, team: GameTeam, name: string)
    requires gm.Valid() && team.name in gm.teams && gm.teams[team.name] == team
    ensures RequirePlayerInTeam(gm, team, name).Ok? <==> name in team.members
  {
    if name in team.members {
      assert name in gm.teams[team.name].members;
    }
  }

  /** No two registered teams share a color. */
  ghost predicate ColorsDistinct(gm: GameManager)
    reads gm`teams, gm.teams.Values`color
  {
    forall k1, k2 | k1 in gm.teams && k2 in gm.teams && k1 != k2 :: gm.teams[k1].color != gm.teams[k2].color
  }

  /** A team's leader is one of its members. */
  ghost predicate LeaderIsMember(t: GameTeam)
    reads t`leader, t`members
  {
    t.leader.name in t.members
  }

  // ------------------------------------------------------- create

  /** The guards of create: a known color, a valid name, a free color, a
      free name, in that order. */
  function CreateReply(colorName: string, name: string, colorTaken: bool, nameTaken: bool): (r: Reply)
    ensures r == Created <==> TeamColors.From(colorName).Some? && IsValidName(name) && !colorTaken && !nameTaken
    ensures TeamColors.From(colorName).None? ==> r == InvalidColor(colorName)
    ensures r != Created ==> r in {InvalidColor(colorName), InvalidName(name), ColorTaken(colorName), AlreadyExists(name)}
  {
    if TeamColors.From(colorName).None? then InvalidColor(colorName)
    else if !IsValidName(name) then InvalidName(name)
    else if colorTaken then ColorTaken(colorName)
    else if nameTaken then AlreadyExists(name)
    else Created
  }

  /** Some registered team has color `c`. */
  ghost predicate ColorUsed(gm: GameManager, c: Color)
    reads gm`teams, gm.teams.Values`color
  {
    exists k | k in gm.teams :: gm.teams[k].color == c
  }

  /** create: a new team led by the player, registered under its name. */
  method Create(player: GamePlayer, gm: GameManager, colorArg: string, name: string) returns (reply: Reply)
    requires gm.Valid() && ColorsDistinct(gm)
    modifies player`team, player`alive, gm`spectators, gm`teams, gm`teamOrder
    ensures gm.Valid() && ColorsDistinct(gm)
    ensures var colorName := ToUpperString(colorArg);
      var color := TeamColors.From(colorName);
      reply == CreateReply(colorName, name, color.Some? && old(ColorUsed(gm, color.value)), name in old(gm.teams))
    ensures reply != Created ==> (gm.teams == old(gm.teams) && gm.teamOrder == old(gm.teamOrder)
                                  && player.team == old(player.team) && player.alive == old(player.alive)
                                  && gm.spectators == old(gm.spectators))
    ensures reply == Created ==> (gm.teams.Keys == old(gm.teams).Keys + {name}
      && (forall k | k in old(gm.teams) :: gm.teams[k] == old(gm.teams[k]))
      && fresh(gm.teams[name]) && player.team == gm.teams[name] && player.alive
      && gm.teams[name].color == TeamColors.From(ToUpperString(colorArg)).value
      && gm.teams[name].leader == player && gm.teams[name].members == map[player.name := player]
      && gm.spectators == old(gm.spectators) - {player.name})
  {
    var colorName := ToUpperString(colorArg);
    var color := TeamColors.From(colorName);
    if color.None? {
      return InvalidColor(colorName);
    }
    if !IsValidName(name) {
      return InvalidName(name);
    }
    if gm.GetTeamByColor(color.value).Some? {
      return ColorTaken(colorName);
    }
    if gm.GetTeam(name).Some? {
      return AlreadyExists(name);
    }
    Register(player, gm, name, color.value);
    reply := Created;
  }

  /** createTeam followed by addTeam, once the guards have passed. */
  method Register(player: GamePlayer, gm: GameManager, name: string, color: Color)
    requires gm.Valid() && ColorsDistinct(gm) && IsValidName(name)
    requires name !in gm.teams && !ColorUsed(gm, color)
    modifies player`team, player`alive, gm`spectators, gm`teams, gm`teamOrder
    ensures gm.Valid() && ColorsDistinct(gm)
    ensures gm.teams.Keys == old(gm.teams).Keys + {name}
    ensures forall k | k in old(gm.teams) :: gm.teams[k] == old(gm.teams[k])
    ensures fresh(gm.teams[name]) && player.team == gm.teams[name] && player.alive
    ensures gm.teams[name].color == color && gm.teams[name].leader == player
    ensures gm.teams[name].members == map[player.name := player]
    ensures gm.spectators == old(gm.spectators) - {player.name}
  {
    ghost var before := gm.teams;
    var created := gm.CreateTeam(player, name, color);
    var team := created.value;
    gm.AddTeam(team);
    assert gm.teams == before[name := team];
    forall k1, k2 | k1 in gm.teams && k2 in gm.teams && k1 != k2
      ensures gm.teams[k1].color != gm.teams[k2].color
    {
      if k1 == name {
        assert before[k2].color != color;
      } else if k2 == name {
        assert before[k1].color != color;
      } else {
        assert old(before[k1].color) != old(before[k2].color);
      }
    }
  }

  /** Every registered team that lists the player is the player's own team. */
  ghost predicate Exclusive(gm: GameManager, player: GamePlayer)
    reads gm`teams, gm.teams.Values`members, player`team
  {
    forall k | k in gm.teams && player.name in gm.teams[k].members :: gm.teams[k] == player.team
  }

  /** create as written lets a player who is already in a registered team
      found another: the old team still lists the player, whose team is
      now the new one, so the player is in two teams. */
  method CreateWhileInTeam(player: GamePlayer, gm: GameManager, colorArg: string, name: string) returns (reply: Reply)
    requires gm.Valid() && ColorsDistinct(gm)
    requires player.team != null && player.team.name in gm.teams && gm.teams[player.team.name] == player.team
    requires player.name in player.team.members
    modifies player`team, player`alive, gm`spectators, gm`teams, gm`teamOrder
    ensures reply == Created ==> !Exclusive(gm, player)
  {
    ghost var home := player.team;
    reply := Create(player, gm, colorArg, name);
    if reply == Created {
      assert gm.teams[home.name] == home && player.name in home.members && home != player.team;
    }
  }

  /** create with join's guard in front: a player already in a team is
      refused, so every player stays listed by at most its own team. */
  method CreateGuarded(player: GamePlayer, gm: GameManager, colorArg: string, name: string) returns (reply: Reply)
    requires gm.Valid() && ColorsDistinct(gm) && Exclusive(gm, player)
    modifies player`team, player`alive, gm`spectators, gm`teams, gm`teamOrder
    ensures gm.Valid() && ColorsDistinct(gm) && Exclusive(gm, player)
    ensures old(player.team) != null ==> reply == AlreadyInTeam && gm.teams == old(gm.teams)
    ensures reply == Created ==> name in gm.teams && player.team == gm.teams[name] && player.name in gm.teams[name].members
  {
    if player.team != null {
      return AlreadyInTeam;
    }
    reply := Create(player, gm, colorArg, name);
  }

  // ------------------------------------------------------- disband, join, leave

  /** The player's team, as a frame. */
  ghost function TeamOf(player: GamePlayer): set<GameTeam>
    reads player`team
  {
    if player.team == null then {} else {player.team}
  }

  /** The members of the player's team, as a frame. */
  ghost function MatesOf(player: GamePlayer): set<GamePlayer>
    reads player`team, player.team
  {
    if player.team == null then {} else player.team.members.Values
  }

  /** disband: only the team's leader (this very player object) may
      disband it; the team goes and its members become spectators. */
  method Disband(player: GamePlayer, gm: GameManager) returns (reply: Reply)
    requires gm.Valid() && (player.team != null ==> player.team.KeysMatch())
    modifies gm`teams, gm`teamOrder, gm`spectators, MatesOf(player)`team, MatesOf(player)`alive
    ensures gm.Valid()
    ensures old(player.team) == null ==> reply == NotInTeam
    ensures old(player.team) != null && old(player.team.leader) != player ==> reply == HaveToBeLeaderToDisband
    ensures reply == Disbanded <==> old(player.team) != null && old(player.team.leader) == player
    ensures reply != Disbanded ==> (gm.teams == old(gm.teams) && gm.spectators == old(gm.spectators))
    ensures reply == Disbanded ==> (var t := old(player.team);
      gm.teams == old(gm.teams) - {t.name}
      && (forall n | n in t.members :: t.members[n].team == null && !t.members[n].alive && n in gm.spectators))
  {
    var team := player.team;
    if team == null {
      return NotInTeam;
    }
    if team.leader != player {
      return HaveToBeLeaderToDisband;
    }
    gm.RemoveTeam(team);
    reply := Disbanded;
  }

  /** The team registered under `name`, as a frame. */
  ghost function Named(gm: GameManager, name: string): set<GameTeam>
    reads gm`teams
  {
    if name in gm.teams then {gm.teams[name]} else {}
  }

  /** join: only a player without a team, only an existing team, and only
      while that team is not full. */
  method Join(player: GamePlayer, gm: GameManager, name: string) returns (reply: Reply)
    requires name in gm.teams ==> gm.teams[name].Valid()
    modifies player`team, player`alive, gm`spectators, Named(gm, name)`members, Named(gm, name)`memberOrder
    ensures old(player.team) != null ==> reply == AlreadyInTeam
    ensures old(player.team) == null && name !in gm.teams ==> reply == TeamNotFound(name)
    ensures old(player.team) == null && name in gm.teams && old(|gm.teams[name].members|) >= gm.maxPlayersPerTeam
            ==> reply == TeamFull
    ensures reply == Joined <==> (old(player.team) == null && name in gm.teams
                                  && old(|gm.teams[name].members|) < gm.maxPlayersPerTeam)
    ensures reply != Joined ==> (player.team == old(player.team) && gm.spectators == old(gm.spectators)
                                 && (name in gm.teams ==> gm.teams[name].members == old(gm.teams[name].members)))
    ensures reply == Joined ==> (var t := gm.teams[name];
      t.members == old(t.members)[player.name := player] && player.team == t && player.alive
      && |t.members| <= gm.maxPlayersPerTeam && gm.spectators == old(gm.spectators) - {player.name})
  {
    if player.team != null {
      return AlreadyInTeam;
    }
    var team := gm.GetTeam(name);
    if team.None? {
      return TeamNotFound(name);
    }
    if team.value.IsFull(gm) {
      return TeamFull;
    }
    team.value.AddMember(player, gm);
    reply := Joined;
  }

  /** leave: the leader (this very player object) cannot leave; anyone
      else leaves the team and becomes a spectator. */
  method Leave(player: GamePlayer, gm: GameManager) returns (reply: Reply)
    requires player.team != null ==> player.team.Valid()
    modifies player`team, player`alive, gm`spectators, TeamOf(player)`members, TeamOf(player)`memberOrder
    ensures old(player.team) == null ==> reply == NotInTeam
    ensures reply == Left <==> old(player.team) != null && old(player.team.leader) != player
    ensures reply != Left ==> (player.team == old(player.team) && gm.spectators == old(gm.spectators)
                               && (old(player.team) != null ==> unchanged(old(player.team))))
    ensures reply == Left ==> (var t := old(player.team);
      t.members == old(t.members) - {player.name} && player.team == null && !player.alive
      && gm.spectators == old(gm.spectators)[player.name := player]
      && (old(LeaderIsMember(t)) && t.leader.name != player.name ==> LeaderIsMember(t)))
  {
    var team := player.team;
    if team == null {
      return NotInTeam;
    }
    if team.leader == player {
      return CannotLeaveIfLeader;
    }
    team.RemoveMember(player, gm);
    reply := Left;
  }

  // ------------------------------------------------------- leader-only subcommands

  /** The game's player called `name`, as a frame. */
  ghost function Target(gm: GameManager, name: string): set<GamePlayer>
    reads gm, gm.teams.Values
    requires gm.Valid()
  {
    var t := gm.GetPlayer(name);
    if t.Some? then {t.value} else {}
  }

  /** remove: the leader removes another member of the team, who becomes
      a spectator; the leader cannot remove this very player object. */
  method Remove(player: GamePlayer, gm: GameManager, name: string) returns (reply: Reply)
    requires gm.Valid() && (player.team != null ==> player.team.Valid())
    modifies TeamOf(player)`members, TeamOf(player)`memberOrder, gm`spectators, Target(gm, name)`team, Target(gm, name)`alive
    ensures old(RequireTeamLeader(player)).Err? ==> reply == old(RequireTeamLeader(player)).error
    ensures reply == Kicked <==> (old(RequireTeamLeader(player)).Ok?
                                  && old(RequirePlayerInTeam(gm, player.team, name)).Ok?
                                  && old(gm.GetPlayer(name)).value != player)
    ensures reply != Kicked ==> (gm.spectators == old(gm.spectators)
                                 && (old(player.team) != null ==> unchanged(old(player.team))))
    ensures reply == Kicked ==> (var t := old(player.team); var target := old(gm.GetPlayer(name)).value;
      t.members == old(t.members) - {name} && target.team == null && !target.alive
      && gm.spectators == old(gm.spectators)[name := target]
      && (old(LeaderIsMember(t)) && name != player.name ==> LeaderIsMember(t)))
  {
    var lead := RequireTeamLeader(player);
    if lead.Err? {
      return lead.error;
    }
    var team := lead.value;
    var target := RequirePlayerInTeam(gm, team, name);
    if target.Err? {
      return target.error;
    }
    if target.value == player {
      return CannotRemoveYourself;
    }
    team.RemoveMember(target.value, gm);
    reply := Kicked;
  }

  /** rename: the leader gives the team a valid name no team has yet; the
      team is registered under the new name instead of the old one. */
  method Rename(player: GamePlayer, gm: GameManager, newName: string) returns (reply: Reply)
    requires gm.Valid() && (player.team != null ==> player.team in gm.teams.Values)
    modifies TeamOf(player)`name, gm`teams, gm`teamOrder
    ensures gm.Valid()
    ensures old(RequireTeamLeader(player)).Err? ==> reply == old(RequireTeamLeader(player)).error
    ensures reply.ChangedName? <==> (old(RequireTeamLeader(player)).Ok? && IsValidName(newName)
                                     && newName !in old(gm.teams))
    ensures !reply.ChangedName? ==> (gm.teams == old(gm.teams) && gm.teamOrder == old(gm.teamOrder)
                                     && (old(player.team) != null ==> player.team.name == old(player.team.name)))
    ensures reply.ChangedName? ==> (var t := old(player.team);
      reply == ChangedName(old(t.name), newName) && t.name == newName
      && gm.teams == (old(gm.teams) - {old(t.name)})[newName := t]
      && gm.teamOrder == Without(old(gm.teamOrder), old(t.name)) + [newName])
  {
    var lead := RequireTeamLeader(player);
    if lead.Err? {
      return lead.error;
    }
    var team := lead.value;
    if !IsValidName(newName) {
      return InvalidName(newName);
    }
    if gm.GetTeam(newName).Some? {
      return AlreadyExists(newName);
    }
    var oldName := team.name;
    var o := team.SetName(newName, gm);
    reply := ChangedName(oldName, newName);
  }

  /** set-color: the leader picks a known color no registered team has
      (the team's own color included), so colors stay distinct. */
  method SetColor(player: GamePlayer, gm: GameManager, colorArg: string) returns (reply: Reply)
    requires gm.Valid() && ColorsDistinct(gm)
    modifies TeamOf(player)`color
    ensures gm.Valid() && ColorsDistinct(gm)
    ensures old(RequireTeamLeader(player)).Err? ==> reply == old(RequireTeamLeader(player)).error
    ensures var color := TeamColors.From(ToUpperString(colorArg));
      reply.ColorChanged? <==> (old(RequireTeamLeader(player)).Ok? && color.Some?
                                && !old(ColorUsed(gm, color.value)))
    ensures !reply.ColorChanged? ==> (old(player.team) != null ==> player.team.color == old(player.team.color))
    ensures reply.ColorChanged? ==> (reply.color == TeamColors.From(ToUpperString(colorArg)).value
                                     && player.team.color == reply.color)
  {
    var lead := RequireTeamLeader(player);
    if lead.Err? {
      return lead.error;
    }
    var team := lead.value;
    var colorName := ToUpperString(colorArg);
    var color := TeamColors.From(colorName);
    if color.None? {
      return InvalidColor(colorName);
    }
    if gm.GetTeamByColor(color.value).Some? {
      return ColorTaken(colorName);
    }
    Recolor(team, gm, color.value);
    reply := ColorChanged(color.value);
  }

  /** setColor on a team, to a color no registered team has. */
  method Recolor(team: GameTeam, gm: GameManager, color: Color)
    requires gm.Valid() && ColorsDistinct(gm) && !ColorUsed(gm, color)
    modifies team`color
    ensures gm.Valid() && ColorsDistinct(gm) && team.color == color
  {
    team.SetColor(color);
    forall k1, k2 | k1 in gm.teams && k2 in gm.teams && k1 != k2
      ensures gm.teams[k1].color != gm.teams[k2].color
    {
      if gm.teams[k1] != team && gm.teams[k2] != team {
        assert old(gm.teams[k1].color) != old(gm.teams[k2].color);
      }
    }
  }

  /** set-leader: the leader hands the team to one of its members, so the
      leader stays a member of the team. */
  method SetLeader(player: GamePlayer, gm: GameManager, name: string) returns (reply: Reply)
    requires gm.Valid()
    modifies TeamOf(player)`leader
    ensures old(RequireTeamLeader(player)).Err? ==> reply == old(RequireTeamLeader(player)).error
    ensures reply == LeaderTransferred <==> (old(RequireTeamLeader(player)).Ok?
                                             && old(RequirePlayerInTeam(gm, player.team, name)).Ok?)
    ensures reply != LeaderTransferred ==> (old(player.team) != null ==> player.team.leader == old(player.team.leader))
    ensures reply == LeaderTransferred ==> (player.team.leader == old(gm.GetPlayer(name)).value
                                            && player.team.leader.name == name && LeaderIsMember(player.team))
  {
    var lead := RequireTeamLeader(player);
    if lead.Err? {
      return lead.error;
    }
    var team := lead.value;
    var target := RequirePlayerInTeam(gm, team, name);
    if target.Err? {
      return target.error;
    }
    team.SetLeader(target.value);
    reply := LeaderTransferred;
  }

  /** set-leader's suggestions: the names of the player's team mates other
      than the player, in joining order. */
  function LeaderCandidates(player: GamePlayer): (names: seq<string>)
    reads player`team, player.team
    requires player.team != null ==> player.team.Valid()
    ensures player.team == null ==> names == []
    ensures forall n :: n in names <==> (player.team != null && n in player.team.members && n != player.name)
  {
    if player.team == null then []
    else OtherNames(player.team.memberOrder, player.name)
  }

  /** The names in `order` other than `me`, in order. */
  function OtherNames(order: seq<string>, me: string): (names: seq<string>)
    ensures forall n :: n in names <==> n in order && n != me
  {
    if order == [] then []
    else if order[0] == me then OtherNames(order[1..], me)
    else [order[0]] + OtherNames(order[1..], me)
  }

  /** Leaving out one name respects the joining order: the candidates from
      two stretches of the order are those of the first, then the second. */
  lemma {:induction false} OtherNamesAppend(a: seq<string>, b: seq<string>, me: string)
    ensures OtherNames(a + b, me) == OtherNames(a, me) + OtherNames(b, me)
    decreases |a|
  {
    if a != [] {
      assert (a + b)[1..] == a[1..] + b;
      OtherNamesAppend(a[1..], b, me);
    } else {
      assert a + b == b;
    }
  }
}

=== FILE: wrappers.dfy ===
/** Option and Result, used for Java's nullable returns and thrown exceptions. */
module Wrappers {

  /** A Java reference that may be null. */
  datatype Option<+T> = None | Some(value: T)

  /** A call that either returns a value or throws. */
  datatype Result<+T, +E> = Ok(value: T) | Err(error: E)

  /** A void call that either completes or throws. */
  datatype Outcome<+E> = Pass | Fail(error: E)
}

=== FILE: yaml_loader.dfy ===
/**
 * YamlLoader's property lookup: a YAML key is first looked up as written
 * and, when the target type has no such property, as its kebab-case key
 * turned into camelCase ("max-players" becomes "maxPlayers").
 */
module YamlKeys {
  import opened Wrappers
  import opened JavaStrings

  // ------------------------------------------------------- String.split("-")

  /** `ps` without its trailing empty strings. */
  function DropTrailingEmpty(ps: seq<string>): (r: seq<string>)
    ensures |r| <= |ps| && r == ps[..|r|]
    ensures r != [] ==> r[|r| - 1] != ""
    ensures forall i :: |r| <= i < |ps| ==> ps[i] == ""
  {
    if ps == [] then []
    else if ps[|ps| - 1] == "" then DropTrailingEmpty(ps[..|ps| - 1])
    else ps
  }

  /** String.split("-"): a string without a dash is its own only piece;
      otherwise the pieces between dashes, trailing empty pieces dropped. */
  function Split(s: string): (parts: seq<string>)
  {
    if '-' !in s then [s] else DropTrailingEmpty(SplitAll(s, '-'))
  }

  // ------------------------------------------------------- kebabToCamelCase

  /** A piece after the first, as kebabToCamelCase appends it: its first
      character upper-cased; an empty piece adds nothing. */
  function Capitalized(part: string): (r: string)
    ensures |r| == |part|
  {
    if part == [] then [] else [ToUpper(part[0])] + part[1..]
  }

  /** The pieces ps[lo..hi], each capitalized, one after another. */
  function CapitalizedRange(ps: seq<string>, lo: int, hi: int): string
    requires 0 <= lo <= hi <= |ps|
    decreases hi - lo
  {
    if lo == hi then [] else Capitalized(ps[lo]) + CapitalizedRange(ps, lo + 1, hi)
  }

  /** The camelCase of a kebab-case key, character by character: every dash
      goes, and the character right after a dash is upper-cased. */
  function Squash(s: string, afterDash: bool): (r: string)
    ensures '-' !in r
  {
    if s == [] then []
    else if s[0] == '-' then Squash(s[1..], true)
    else
      assert ToUpper(s[0]) != '-';
      [if afterDash then ToUpper(s[0]) else s[0]] + Squash(s[1..], false)
  }

  predicate AllDashes(s: string)
  {
    forall i :: 0 <= i < |s| ==> s[i] == '-'
  }

  /** What kebabToCamelCase makes of a key: a key of dashes alone splits
      into nothing and comes back as it was; any other key loses its dashes,
      with the character after each dash upper-cased. */
  function CamelCase(name: string): (r: string)
  {
    if |name| > 0 && AllDashes(name) then name else Squash(name, false)
  }

  /** kebabToCamelCase: split at the dashes, keep the first piece as it is
      and append every further non-empty piece capitalized. */
  method KebabToCamelCase(name: string) returns (r: string)
    ensures r == CamelCase(name)
  {
    var parts := Split(name);
    if |parts| == 0 {
      SplitEmpty(name);
      return name;
    }
    r := Join(parts);
    SplitJoins(name);
  }

  /** The StringBuilder loop of kebabToCamelCase: the first piece, then
      every further non-empty piece with its first character upper-cased. */
  method Join(parts: seq<string>) returns (sb: string)
    requires |parts| > 0
    ensures sb == parts[0] + CapitalizedRange(parts, 1, |parts|)
  {
    sb := parts[0];
    var i := 1;
    while i < |parts|
      invariant 1 <= i <= |parts|
      invariant sb == parts[0] + CapitalizedRange(parts, 1, i)
    {
      var piece := parts[i];
      ghost var before := sb;
      if piece != "" {
        sb := sb + ([ToUpper(piece[0])] + piece[1..]);
      }
      CapitalizedRangeSnoc(parts, 1, i);
      Associative(parts[0], CapitalizedRange(parts, 1, i), Capitalized(piece));
      i := i + 1;
    }
  }

  lemma Associative(a: string, b: string, c: string)
    ensures (a + b) + c == a + (b + c)
  {
  }

  /** One more piece at the end adds its capitalized form at the end. */
  lemma {:induction false} CapitalizedRangeSnoc(ps: seq<string>, lo: int, hi: int)
    requires 0 <= lo <= hi < |ps|
    ensures CapitalizedRange(ps, lo, hi + 1) == CapitalizedRange(ps, lo, hi) + Capitalized(ps[hi])
    decreases hi - lo
  {
    if lo < hi {
      CapitalizedRangeSnoc(ps, lo + 1, hi);
      Associative(Capitalized(ps[lo]), CapitalizedRange(ps, lo + 1, hi), Capitalized(ps[hi]));
    }
  }

  /** Two ranges holding the same pieces capitalize alike. */
  lemma {:induction false} CapitalizedRangeAgree(ps: seq<string>, qs: seq<string>, lo: int, hi: int, shift: int)
    requires 0 <= lo <= hi <= |ps| && 0 <= lo + shift && hi + shift <= |qs|
    requires forall k :: lo <= k < hi ==> ps[k] == qs[k + shift]
    ensures CapitalizedRange(ps, lo, hi) == CapitalizedRange(qs, lo + shift, hi + shift)
    decreases hi - lo
  {
    if lo < hi {
      CapitalizedRangeAgree(ps, qs, lo + 1, hi, shift);
    }
  }

  /** Empty pieces at the end add nothing. */
  lemma {:induction false} CapitalizedRangeEmpties(ps: seq<string>, lo: int, mid: int, hi: int)
    requires 0 <= lo <= mid <= hi <= |ps|
    requires forall k :: mid <= k < hi ==> ps[k] == ""
    ensures CapitalizedRange(ps, lo, hi) == CapitalizedRange(ps, lo, mid)
    decreases hi
  {
    if mid < hi {
      CapitalizedRangeSnoc(ps, lo, hi - 1);
      CapitalizedRangeEmpties(ps, lo, mid, hi - 1);
      assert CapitalizedRange(ps, lo, hi - 1) + Capitalized("") == CapitalizedRange(ps, lo, hi - 1);
    }
  }

  /** Joining the pieces between the dashes, the first capitalized only
      when it follows a dash, is the character-by-character camelCase. */
  lemma {:induction false} PiecesJoin(s: string, afterDash: bool)
    ensures var p := SplitAll(s, '-');
      (if afterDash then Capitalized(p[0]) else p[0]) + CapitalizedRange(p, 1, |p|) == Squash(s, afterDash)
    decreases |s|
  {
    if s == [] {
    } else if s[0] == '-' {
      var q := SplitAll(s[1..], '-');
      var p := SplitAll(s, '-');
      PiecesJoin(s[1..], true);
      assert p == [""] + q;
      CapitalizedRangeAgree(q, p, 0, |q|, 1);
    } else {
      var q := SplitAll(s[1..], '-');
      var p := SplitAll(s, '-');
      PiecesJoin(s[1..], false);
      assert p == [[s[0]] + q[0]] + q[1..];
      CapitalizedRangeAgree(p, q, 1, |p|, 0);
      var c := if afterDash then ToUpper(s[0]) else s[0];
      assert (if afterDash then Capitalized(p[0]) else p[0]) == [c] + q[0];
      Associative([c], q[0], CapitalizedRange(q, 1, |q|));
    }
  }

  /** Every piece is empty exactly when the string is dashes alone. */
  lemma {:induction false} PiecesEmpty(s: string)
    ensures AllDashes(s) ==> forall i :: 0 <= i < |SplitAll(s, '-')| ==> SplitAll(s, '-')[i] == ""
    ensures (forall i :: 0 <= i < |SplitAll(s, '-')| ==> SplitAll(s, '-')[i] == "") ==> AllDashes(s)
    decreases |s|
  {
    if s != [] {
      PiecesEmpty(s[1..]);
      var q := SplitAll(s[1..], '-');
      if s[0] == '-' {
        assert SplitAll(s, '-') == [""] + q;
        if AllDashes(s[1..]) {
          assert AllDashes(s);
        } else {
          var i :| 0 <= i < |q| && q[i] != "";
          assert SplitAll(s, '-')[i + 1] != "";
        }
      } else {
        assert SplitAll(s, '-')[0] != "";
        assert !AllDashes(s) by { assert s[0] != '-'; }
      }
    }
  }

  /** split leaves nothing exactly for a key of dashes alone. */
  lemma SplitEmpty(name: string)
    ensures |Split(name)| == 0 <==> |name| > 0 && AllDashes(name)
  {
    if '-' in name {
      PiecesEmpty(name);
      var p := SplitAll(name, '-');
      var r := DropTrailingEmpty(p);
      if r == [] {
        assert forall i :: 0 <= i < |p| ==> p[i] == "";
      }
    } else if |name| > 0 {
      assert name[0] != '-';
    }
  }

  /** kebabToCamelCase's join of the split pieces is CamelCase. */
  lemma SplitJoins(name: string)
    requires |Split(name)| > 0
    ensures var parts := Split(name); parts[0] + CapitalizedRange(parts, 1, |parts|) == CamelCase(name)
  {
    SplitEmpty(name);
    var parts := Split(name);
    if '-' !in name {
      NoDashSquash(name);
    } else {
      var p := SplitAll(name, '-');
      PiecesJoin(name, false);
      CapitalizedRangeAgree(parts, p, 1, |parts|, 0);
      CapitalizedRangeEmpties(p, 1, |parts|, |p|);
    }
  }

  /** A key without a dash is left as it is. */
  lemma {:induction false} NoDashSquash(s: string)
    requires '-' !in s
    ensures Squash(s, false) == s
    decreases |s|
  {
    if s != [] {
      assert s[0] != '-';
      assert '-' !in s[1..] by {
        forall i | 0 <= i < |s[1..]| ensures s[1..][i] != '-' {
          assert s[1..][i] == s[i + 1];
        }
      }
      NoDashSquash(s[1..]);
    }
  }

  /** A camelCase key has no dash left, unless it was dashes alone; a key
      without a dash is its own camelCase. */
  lemma CamelCaseShape(name: string)
    ensures !(|name| > 0 && AllDashes(name)) ==> '-' !in CamelCase(name)
    ensures '-' !in name ==> CamelCase(name) == name
  {
    if '-' !in name {
      NoDashSquash(name);
      if |name| > 0 {
        assert name[0] != '-';
      }
    }
  }

  /** Converting twice changes nothing more. */
  lemma CamelCaseIdempotent(name: string)
    ensures CamelCase(CamelCase(name)) == CamelCase(name)
  {
    CamelCaseShape(name);
    if !(|name| > 0 && AllDashes(name)) {
      CamelCaseShape(CamelCase(name));
    }
  }

  /** A dash is dropped and the letter after it upper-cased: "a-b" reads as
      the property "aB". */
  lemma CamelCaseExample()
    ensures CamelCase("a-b") == "aB"
  {
    assert "a-b"[0] != '-';
  }

  // ------------------------------------------------------- getProperty

  /** getProperty: the key as written when the type has that property,
      otherwise its camelCase form; when neither exists the second lookup
      throws, here an error. */
  function GetProperty(properties: set<string>, name: string): (r: Result<string, string>)
    ensures r.Ok? <==> name in properties || CamelCase(name) in properties
    ensures name in properties ==> r == Ok(name)
    ensures name !in properties && r.Ok? ==> r.value == CamelCase(name)
  {
    if name in properties then Ok(name)
    else if CamelCase(name) in properties then Ok(CamelCase(name))
    else Err("Unable to find property '" + CamelCase(name) + "'")
  }

  /** A camelCase key needs no second lookup: looking up its camelCase form
      finds the same property. */
  lemma CamelKeyResolvesOnce(properties: set<string>, name: string)
    requires CamelCase(name) in properties
    ensures GetProperty(properties, CamelCase(name)) == Ok(CamelCase(name))
    ensures GetProperty(properties, name).Ok?
  {
  }
}
